=== FILE: README.md ===
# Wake-on-LAN caster: a Dafny model of its discovery, merge and cast core

WOL Caster finds the hosts on the local IPv4 networks and remembers them
between runs. It wakes the hosts the user selects by sending Wake-on-LAN
magic packets. This project models the logic of that core as pure Dafny
functions and proves properties about them. The probes the program sends
out are inputs to the model. Those probes are the ping, the TCP port
checks, reverse DNS, `smbutil`, `dns-sd`, the neighbour cache and the
clock.

The model covers these parts of the program:

- **Interfaces** (module `Interfaces`, over `Ipv4`). The program lists the
  interfaces with their IPv4 subnets. On macOS it adds /24 pseudo-interfaces
  for neighbour-cache addresses outside every subnet it already has. The
  network arithmetic is that of section 3.1 of RFC 4632: network =
  address AND mask, broadcast = network OR host mask. Addresses are parsed
  and rendered the way Python's `ipaddress` module does it.
- **MAC handling** (`Mac`). This covers the padding rule, the conversion of
  a neighbour-cache token and the 102-byte magic packet.
- **Vendor lookup** (`Vendor`). The vendor comes from the first matching
  line of the OUI database, else from the built-in table.
- **Per-host probing** (`Probe`, `Identity`). This covers the status
  classification and the chain of identifier sources. It also covers the
  record that the GUI and CLI scanners build for one address, and the
  name that the device list shows.
- **The scan loop** (`Scheduler`). Hosts are scanned in chunks of 255, and
  each result is upserted into the device list. The CLI progress scan can
  be interrupted between chunks.
- **The merge with the store** (`Merge`). The GUI tree merges a fresh scan
  with the stored devices, tags each entry with its network context and
  lists the devices of inactive interfaces as historical. Persistence
  writes every device except the hidden ones. The CLI merges each stored
  list with itself and builds the numbered selection list.
- **Selection and cast** (`Selection`). This covers the device key
  `interface:ip`, the parsing of the selection input ("3", "1-4" or
  "2,5,7") with its effect on the selected set, and the cast targets read
  back from the keys with the program's first-colon split. A corrected
  last-colon reading sits beside it; see "## Findings".

Modules `Wrappers`, `Text` and `Devices` hold the shared option type, the
Python string helpers and the device record. A dictionary key that the
program may leave absent is an `Option` field of `Devices.Device`.

## Model

| member | source | states |
|---|---|---|
| Ipv4.CidrArithmetic | wol_caster.py:340-347 | The network address is the address rounded down to a multiple of the block size 2^(32-p), and the broadcast is the last address of that block. The address lies between the two. |
| Ipv4.InNetworkIffBetween | wol_caster.py:376 | Every address of a block is a member of the network computed from any other address of that block. |
| Ipv4.ParseDotted | wol_caster.py:340 | Rendering an address in dotted-quad form and parsing it back gives the same address. |
| Ipv4.DottedOfParse | wol_caster.py:340 | An accepted dotted quad is in canonical form: rendering the parsed value gives back the same text. |
| Ipv4.ParseNetworkText | wol_caster.py:340 | Any valid network written as "a.b.c.d/p" parses back to itself. |
| Ipv4.HostsInNetwork | wol_caster.py:723-724 | The hosts of a network are in ascending order and all lie inside it. For prefixes below /31 there are 2^(32-p) - 2 of them, and neither the network nor the broadcast address is among them. |
| Ipv4.FormatNetworkRangeCoversSubnet | wol_caster.py:959-977 | Text that is not a network is returned unchanged. For a /8, /16 or /24 the label is the network's leading octets followed by ".*" wildcards, and every address of the block gets the same label. |
| Ipv4.FormatNetworkRangeOtherPrefix | wol_caster.py:972-975 | For any other prefix the label is "first → last", from the network address to the broadcast address. |
| Interfaces.InterfaceRecord | wol_caster.py:332-350 | A record exists exactly when "ip/mask" parses as a network. It keeps the given name, ip and netmask, its subnet is that network, and it is not flagged as discovered. |
| Interfaces.InterfaceHoldsItsAddress | wol_caster.py:340-346 | An interface's own address lies inside the subnet recorded for it. |
| Interfaces.EntryRecords | wol_caster.py:332-350 | Every entry with a non-empty address other than 127.0.0.1, a non-empty netmask and a parsable "ip/mask" gives its record, which carries the interface's name, the entry's ip and the entry's netmask. Every record is the record of one such entry. |
| Interfaces.PrimaryInterfaces | wol_caster.py:323-352 | Every usable, parsable address of every non-loopback interface gives its record. Every record is the record of an entry of a non-loopback interface. |
| Interfaces.DiscoverToken | wol_caster.py:370-396 | A word adds a record exactly when it has three dots, is an IPv4 address outside the primary subnet, and its /24 has not been seen yet. The record is that /24's discovered record. The seen set grows by the word's /24 exactly when the word is such an outside address. |
| Interfaces.ParenthesisedTokenAddsNothing | wol_caster.py:370-374 | A word in parentheses, the form macOS `arp -a` prints addresses in, is not an address and adds no record. |
| Interfaces.DiscoverThrough | wol_caster.py:353-398 | For each outside address among the words of a line that mentions the primary's name, its /24 is among the results. Every result is the discovered record of such a word. The results have pairwise distinct subnets, are flagged as discovered and keep the primary's name and ip. |
| Interfaces.NetworkInterfaces | wol_caster.py:319-415 | The result begins with the primary records in order. On macOS, every record discovered through a primary from its own `arp -a` run follows them, and nothing else does. Off macOS, or when every `arp -a` run fails, the result is just the primary records. |
| Interfaces.BlockNetworkParses | wol_caster.py:379-383 | The synthesised "a.b.c.0/24" text parses to the /24 block of the address. |
| Mac.PadMacAddress | wol_caster.py:551-582 | The empty string stays empty. Any other input gives six colon-separated pairs whose hex characters are the input's characters, cut or left-padded with '0' to 12. |
| Mac.PadMacIdempotent | wol_caster.py:551-582 | Padding an already padded MAC changes nothing. |
| Mac.PadMacInnerOctet | wol_caster.py:560-575 | A MAC whose fifth octet lost its leading zero is padded at the front, which shifts every octet by one digit. |
| Mac.PadMacAllShort | wol_caster.py:560-575 | Six one-digit octets become "00:00:00" followed by the digits paired up, not six zero-led octets. |
| Mac.MacFromArpToken | wol_caster.py:521-526 | An empty token gives the empty string. Any other token gives a colon-separated, padded MAC. |
| Mac.CreateMagicPacket | wol_caster.py:979-999 | Without a MAC the packet is 102 bytes of 0xFF. With a MAC, a packet exists exactly when the MAC is 12 hex digits once the separators are removed. The packet is then 102 bytes: 6 bytes of 0xFF, then 16 copies of the same 6 bytes. |
| Mac.MagicPacketOfAnyText | wol_caster.py:984-995 | Any accepted text, in either case and with any separators, gives the packet for the six bytes its hex digits spell. |
| Mac.MagicPacketRoundTrip | wol_caster.py:984-995 | The packet built from the formatted text of six bytes carries exactly those six bytes as its target. |
| Mac.ArpMacIsWakeable | wol_caster.py:521-526 | Every non-empty hex token read from the neighbour cache becomes a MAC for which a magic packet can be built. |
| Vendor.ScanOuiFirstMatch | wol_caster.py:611-622 | The database scan finds nothing exactly when no line matches the prefix. Otherwise it returns the vendor of the first matching line. |
| Vendor.MacVendor | wol_caster.py:584-640 | An empty MAC, or one with fewer than three colon-separated groups, has no vendor. Otherwise a database hit wins, then the built-in table, else there is no vendor. |
| Vendor.VendorFromTable | wol_caster.py:627-638 | When the database is missing or has no match, the vendor is the built-in table's entry for the upper-cased first three octets. |
| Vendor.ShortOctetPrefix | wol_caster.py:601-603 | A MAC whose first octet is one digit yields a five-character database prefix, not a six-character one. |
| Identity.AcceptedDns | wol_caster.py:650-653 | A reverse-DNS name is accepted exactly when it exists, differs from the IP and is longer than two characters. |
| Identity.SmbutilFindsServerLine | wol_caster.py:4675-4680 | The NetBIOS name is the text after "Server: " on the first line that yields a name. |
| Identity.DeviceInfoLineYieldsName | wol_caster.py:4706-4715 | A `dns-sd` line mentioning "device-info" yields the stripped text after its '='. |
| Identity.AppleDeviceName | wol_caster.py:4688-4853 | There is an Apple name exactly when `dns-sd`, the DNS test for the home-network suffix (.local/.home/.lan/.home.arpa) or the Apple MAC prefixes give one. The first of the three that gives a name, in that order, decides it. |
| Identity.DarwinName | wol_caster.py:657-671 | Off macOS there is no platform name. On macOS the NetBIOS name wins when there is one, else the Apple name is used. |
| Identity.FirstService | wol_caster.py:676-696 | There is no service name exactly when no listed port is open. Otherwise the name is that of the first open port in table order. |
| Identity.SshWinsAmongServices | wol_caster.py:678-696 | With port 22 open the label is "SSH-<last octet>", whatever else is open. |
| Identity.DeviceIdentifierFast | wol_caster.py:3878-3936 | An accepted DNS name is returned as is. Without one, the macOS platform name is returned when there is one, else the service label. The result is empty exactly when all three steps give nothing. |
| Identity.DeviceIdentifier | wol_caster.py:646-718 | The name is never empty. It agrees with the fast chain whenever that finds a name, so DNS, then NetBIOS, then the Apple name, then the service label decide first. Otherwise it is "<vendor>-<octet>" when a vendor is known, else ".<octet>". |
| Identity.AppleDnsStepIsShadowed | wol_caster.py:650-653 | A DNS name that the Apple DNS test for the home-network suffix (.local/.home/.lan/.home.arpa) would accept has already been returned by the plain DNS step. |
| Identity.IdentifierOffDarwin | wol_caster.py:658-671 | Off macOS, with no DNS name, the chain goes straight to the service ports. |
| Identity.DisplayIdentifier | wol_caster.py:4870-4909 | A real hostname is shown as is. A device whose hostname is missing or a "Device-"/"Standby-" placeholder shows its manufacturer when it has a MAC and a vendor is known, and otherwise the status-based fallback name. The result is never empty. |
| Identity.DisplayShowsHostname | wol_caster.py:4863-4911 | For a device with a real hostname, the display line ends with a space followed by that hostname. |
| Identity.ShownVendor | wol_caster.py:4876-4895 | For an online or standby device, a fresh lookup that names a vendor other than "Unknown" wins, else the stored vendor is shown. For any other device the stored vendor is shown. |
| Identity.FallbackName | wol_caster.py:4897-4909 | A standby device is named "Standby-<octet>". Otherwise octet 1 or 254 gives "Gateway-", octet 100, 101, 200 or 201 gives "Server-", and any other octet gives "Device-", followed by the octet. |
| Identity.PriorityDisplay | wol_caster.py:4855-4912 | The display line starts with the IP, followed by " [MAC]" when a MAC is known. |
| Identity.OnlinePlaceholderRenamed | wol_caster.py:4897-4909 | The fast scan's "Device-1" placeholder is shown as "Gateway-1". |
| Probe.CheckDeviceStatus | wol_caster.py:431-456 | A host is online iff the ping answers. It is standby iff it does not ping but one of 80, 443, 22, 23, 3389 or 5900 is open, and offline otherwise. |
| Probe.ScanIp | wol_caster.py:737-790 | The record is online iff the ping answers, and pingable iff online. A silent host is hidden iff it has no stored record. A silent stored host keeps its stored name, MAC and time. A live host is stamped with the current time. A live host carries its freshly probed MAC when the probe gives a non-empty one, and otherwise the stored MAC, or none when there is no stored record. |
| Probe.LiveHostNamedByIdentifier | wol_caster.py:763-771 | A live host is always named by the identifier chain, so the fallback names are never used. |
| Probe.LiveHostKeepsStoredMac | wol_caster.py:779-786 | A live host with no neighbour-cache entry keeps its stored MAC. |
| Probe.ScanSingleIp | wol_caster.py:3559-3588 | A silent host is always hidden and carries nothing. A live host keeps its status and its probed MAC and is stamped with the current time. |
| Probe.ScanIpWithoutHistory | wol_caster.py:3559-3588 | With no stored devices the GUI and CLI scanners build the same record. |
| Probe.ScanSingleIpFast | wol_caster.py:3803-3845 | A record exists iff the host pings or one of 80, 443 or 22 is open. A pinging host is online and named by the fast chain, or "Device-<octet>" when the chain finds nothing. It carries the MAC of the fast neighbour-cache probe and that MAC's vendor. Otherwise the host is "Standby-<octet>" with no MAC. |
| Probe.FastReportsAreLive | wol_caster.py:3861-3876 | Every host the fast scan reports has the status the full check would give it. |
| Probe.FastScanMissesOtherPorts | wol_caster.py:3861-3876 | A host reachable only on RDP is standby to the full check but missing from the fast scan. |
| Scheduler.Chunks | wol_caster.py:793-795 | Every chunk is non-empty and at most 255 long, and all chunks but the last are full. |
| Scheduler.FlattenChunks | wol_caster.py:793-795 | The chunks, concatenated, are the host list. |
| Scheduler.ChunkCount | wol_caster.py:793-795 | There are ceil(n/255) chunks. |
| Scheduler.Upsert | wol_caster.py:802-818 | A hidden result changes nothing. A result for a listed IP updates that record in place. A result for a new IP is appended. |
| Scheduler.FoldChunksIsFold | wol_caster.py:793-828 | Processing chunk by chunk equals processing the whole host list in one pass. |
| Scheduler.FoldInvariant | wol_caster.py:802-828 | IPs stay unique and no hidden record is added. Every earlier record keeps its position, IP and vendor, and one whose IP no result reports stays unchanged. Every reported IP ends up listed, and nothing unreported is added. |
| Scheduler.ScanNetworkInvariant | wol_caster.py:720-834 | Starting from a duplicate-free store without hidden devices, the result begins with the stored devices' IPs in order, each with its vendor. A stored device that no host result reports is kept unchanged. The result stays duplicate-free and without hidden devices, and it lists every host whose probe answered. |
| Scheduler.BadSubnetScansNothing | wol_caster.py:836-837 | A subnet that does not parse gives an empty list. |
| Scheduler.ProgressSlicesSpec | wol_caster.py:3494-3527 | The progress scan keeps the results of exactly the chunks before the first interrupt, in order. |
| Scheduler.UninterruptedProgress | wol_caster.py:3476-3545 | Without an interrupt, the progress scan returns every non-hidden single-host record of the subnet's hosts. |
| Merge.ActiveKey | wol_caster.py:1637-1645 | A device is filed under one of the three hard-coded /24s when its IP has that prefix, else under the interface's subnet. |
| Merge.HistoricalKey | wol_caster.py:1752-1763 | A device is filed under a hard-coded /24 when it has that prefix. Otherwise it is filed under its own /24, or left out when its IP has fewer than three dotted parts. |
| Merge.HistoricalKeyIsBlock | wol_caster.py:1752-1763 | For a well-formed address outside the hard-coded prefixes, the historical key is the text of its /24 network. |
| Merge.OtherKeyOnlyByPrefix | wol_caster.py:1637-1645 | A device is filed outside its interface's subnet only through a hard-coded prefix. |
| Merge.GuiFill | wol_caster.py:1652-1670 | With a stored record, a scanned field that is empty is filled from the store and the stored time is copied. IP, status, time seen and ping flag are never changed. |
| Merge.GuiFillKeepsInformation | wol_caster.py:1659-1670 | After the fill, a field is empty only if both the scan and the store left it empty. |
| Merge.GuiFillIdempotent | wol_caster.py:1659-1670 | Filling from the same stored record a second time changes nothing. |
| Merge.CliFill | wol_caster.py:3997-4009 | In the CLI a non-empty stored field overrides the scanned one. |
| Merge.GuiAndCliPrecedence | wol_caster.py:1659-1670 | The GUI and CLI merges differ exactly when both the scan and the store have a field and the two values disagree. Then the GUI keeps the scan's value and the CLI keeps the store's. |
| Merge.WithContext | wol_caster.py:1674-1685 | The context is primary iff the device is filed under its own subnet. It is discovered-offline iff the device is filed elsewhere and does not ping, and such a device is marked offline. Nothing else changes. |
| Merge.StandbyOffSubnetIsOffline | wol_caster.py:1674-1680 | A standby device filed under another network is shown as offline. |
| Merge.InterfaceEntriesSpec | wol_caster.py:1628-1721 | The tree of an active interface begins with the scanned devices merged in order. Every stored device ends up filed. Every added entry is an offline, not-seen copy of a stored device that was not filed under its key. |
| Merge.HistoricalEntries | wol_caster.py:1730-1774 | Every stored device with a usable key appears as an offline, not-seen, historical copy under its key, and nothing else appears. |
| Merge.TreeSplitsActiveAndHistorical | wol_caster.py:1598-1774 | Every entry before the inactive part belongs to an active interface. Every entry after it belongs to an inactive interface and is historical. |
| Merge.UpdateKnownDevices | wol_caster.py:1148-1170 | The store receives every non-hidden device, with its vendor when one is known, and nothing else. |
| Merge.UpdateKnownDevicesSingle | wol_caster.py:1150-1167 | One device is stored as its persisted form unless it is hidden, in which case nothing is stored. |
| Merge.UpdateKnownDevicesAppend | wol_caster.py:1150-1167 | Storing a concatenation gives the stored first part followed by the stored second part. With the single-device lemma, this means the store keeps the order of the devices, and each device contributes exactly one entry, or none if hidden. |
| Merge.UpdateKnownDevicesIdempotent | wol_caster.py:1148-1170 | Storing a stored list again changes nothing. |
| Merge.CliViewIsTheStore | wol_caster.py:3984-4033 | The CLI view of an interface is its store merged with itself. No offline copies are added, and with unique IPs each record is the stored one with its time copied to the stored time. |
| Merge.CliSelectionListIsStores | wol_caster.py:4298-4352 | The numbered selection list is the concatenation of every interface's self-merged store, each record tagged with its interface, in the order the interfaces are walked. |
| Selection.SplitKeyAsWritten | wol_caster.py:4477 | The key is split at its first ':'. The left part has no colon, and putting the parts back together gives the key. |
| Selection.AliasKeyMisread | wol_caster.py:4502-4503 | The key of an alias interface "eth0:1" and host 10.0.0.5 splits into interface "eth0" and ip "1:10.0.0.5". |
| Selection.SplitKey | wol_caster.py:4477 | The corrected split at the last ':': the right part has no colon, and the parts give the key back. |
| Selection.SplitKeyRoundTrip | wol_caster.py:4502-4503 | For every interface name and every colon-free IP, splitting the key gives back exactly that pair. |
| Selection.CastTargets | wol_caster.py:4500-4503 | The cast goes to the text after the first colon of each selected key that has a colon, and to nothing else. |
| Selection.CastTargetsOfKeys | wol_caster.py:4500-4503 | When no interface name holds a colon, the cast goes to exactly the IPs of the selected list entries. |
| Selection.AliasCastMisdirected | wol_caster.py:4500-4503 | The cast for a device selected on the alias "eth0:1" goes to "1:10.0.0.5" instead of 10.0.0.5. |
| Selection.CorrectedCastTargetsOfKeys | wol_caster.py:4500-4503 | With the corrected last-colon split, the cast goes to exactly the IPs of the selected list entries, alias interfaces included. |
| Selection.ParseChoice | wol_caster.py:4385-4452 | Input containing '-' is read as a range, else input containing ',' as a list, else as a single number. Each reading applies only to its own form. |
| Selection.RangeParses | wol_caster.py:4388-4390 | "a-b" written in decimal parses to the range from a to b. |
| Selection.PicksParse | wol_caster.py:4418-4420 | Two or more numbers joined by commas parse to exactly those numbers. |
| Selection.SingleParses | wol_caster.py:4437-4439 | A decimal number parses to itself. |
| Selection.MixedInputIsInvalid | wol_caster.py:4388-4414 | "1-3,5" takes the range branch, and its second part is not a number, so it selects nothing. |
| Selection.ApplyChoice | wol_caster.py:4388-4452 | A valid range adds the keys of entries start..end. A list adds the keys of its in-range numbers. A single in-range number toggles its key. Anything else leaves the selection unchanged. |
| Selection.OnlySingleDeselects | wol_caster.py:4388-4432 | A range or list never removes a key. |
| Selection.AddingIsIdempotent | wol_caster.py:4388-4432 | Entering the same range or list twice has the same effect as entering it once. |
| Selection.ToggleTwiceRestores | wol_caster.py:4437-4449 | Entering the same single number twice restores the selection. |
| Selection.FullRangeSelectsAll | wol_caster.py:4394-4401 | "1-n" over an n-entry list selects every entry. |

## Left out

- Probes are inputs. Ping, TCP connects, reverse DNS, `smbutil`,
  `dns-sd`, the neighbour cache, the platform check and the clock are
  fields of `Identity.HostProbe` and `Identity.Env`. The model assumes one
  probe snapshot per host, so reverse DNS gives the same answer to the
  plain DNS step and the Apple step.
- Timeouts, exceptions inside a probe (treated as "no answer") and the
  `time.sleep` between chunks are not modelled.
- Aliasing is not modelled. The GUI scan seeds its device list with the
  stored dictionaries themselves (wol_caster.py:734-735), so the upsert at
  wol_caster.py:813 also changes the stored records in place, before
  `update_known_devices` replaces the store. `Scheduler.Upsert` is pure: it
  returns a new list and leaves the store value unchanged.
- Concurrency is not modelled. The thread pools of the scanners are
  modelled as their sequential fold in submission order. The CLI
  `scan_network_parallel` collects results in completion order; only its
  per-host step (`Probe.ScanSingleIpFast`) is modelled.
- The GUI (Tk widgets, tree presentation, colours), the CLI menus and
  prompts, terminal sizing and debug printing are left out. The GUI tree
  is modelled as a flat list of (adapter, network key, device) entries,
  without the grouping under network headers.
- JSON loading and saving of the store, the OUI file read and the
  sending of UDP packets are left out. The store, the OUI lines and the
  cast targets are values.
- The MAC regular expressions of `get_mac_address` (one- or two-digit
  groups, with an `arp -a` retry) and `get_mac_address_fast` (two-digit
  groups, no retry) are not modelled. What each one matched is an input:
  `arpToken` and `fastArpToken` of `Identity.HostProbe`. The subnet
  discovery needs no regular expression. It is modelled as the program
  does it: the lines of the output, the whitespace-separated words of each
  line, the three-dot test and the address parse.
- The interfaces' IPv4 entries and the output of each `arp -a` run are
  inputs. A run that fails, times out or exits non-zero gives None.
- The order in which the CLI walks the interfaces of a Python `set` is
  arbitrary. `Merge.CliSelectionList` takes that order as its input.
- Text handling is reduced to ASCII. `upper()` touches ASCII letters
  only. `int()` accepts optional surrounding whitespace, an optional sign
  and ASCII digits; underscores and non-ASCII digits are not modelled.
- `Ipv4.ParseAddress` accepts what `ipaddress` accepts for the decimal
  dotted form. Python versions that allowed leading zeros are not
  modelled.
- Time is the integer part of the epoch seconds. The fractional part of
  `time.time()` is dropped.
- The network broadcast of the cast (`broadcast_to_network_cli`) and the
  selection of whole networks are left out. The cast is modelled as its
  target IPs.
- `setup.py` is packaging only and is not part of this model.

## Findings

| source | as written | input that shows it | evidently intended | confidence | as-written member | corrected member |
|---|---|---|---|---|---|---|
| wol_caster.py:4477, wol_caster.py:4502 | A device key `f"{interface}:{ip}"` is split back with `split(':', 1)`, at the first colon. | Interface "eth0:1" (a Linux alias, listed by the interface enumeration) with host 10.0.0.5 gives key "eth0:1:10.0.0.5", which reads back as interface "eth0" and ip "1:10.0.0.5", so the packet is sent to a non-address. | Split at the last colon (`rsplit(':', 1)`), since an IPv4 address has none. | not executed | Selection.AliasCastMisdirected | Selection.CorrectedCastTargetsOfKeys |

Other behaviour that the proofs make explicit, which the program
evidently tolerates:

- `Identity.AppleDnsStepIsShadowed`: the Apple DNS step for
  the home-network suffix (.local/.home/.lan/.home.arpa) can never fire.
- `Probe.LiveHostNamedByIdentifier`: the hostname fallbacks of `scan_ip`
  are dead code.
- `Merge.CliViewIsTheStore`: the CLI merges a store with itself, so it
  never adds offline copies.
- `Vendor.ShortOctetPrefix`: a one-digit first octet gives a five-character
  database prefix.
- `Mac.PadMacInnerOctet` and `Mac.PadMacAllShort`: padding works on the
  whole 12-digit string, not octet by octet.
- `Probe.FastScanMissesOtherPorts`: the fast scan drops hosts that answer
  only on 23, 3389 or 5900.

=== FILE: devices.dfy ===
/**
  The device records the scanners produce and the store keeps. The program
  holds them as dictionaries whose keys vary with where the record came
  from; here every optional key is an `Option` field, `None` standing for an
  absent key (or a stored `None`, which every reader treats the same way).
 */
module Devices {
  import opened Wrappers
  import opened Text

  /** The `status` strings a device can carry. */
  datatype Status = Online | Standby | Offline | Hidden

  /** The `network_context` tag the merge writes (wol_caster.py:1674-1685). */
  datatype NetworkContext = Primary | DiscoveredOnline | DiscoveredOffline

  /**
    One device record. `pingable` is absent from stored and fast-scan records
    and read with default false; `lastSeen` is the integer part of the epoch
    time, or 0 for a host never seen.
   */
  datatype Device = Device(
    ip: string,
    hostname: Option<string>,
    mac: Option<string>,
    vendor: Option<string>,
    status: Status,
    pingable: Option<bool>,
    lastSeen: int,
    storedLastSeen: Option<int>,
    context: Option<NetworkContext>,
    currentScan: Option<bool>,
    historical: Option<bool>)

  /** `device.get('pingable', False)`. */
  predicate IsPingable(d: Device) {
    d.pingable == Some(true)
  }

  /** Online or standby: the two statuses a live probe can report. */
  predicate Active(s: Status) {
    s == Online || s == Standby
  }

  /**
    The six keys `scan_ip` and `scan_single_ip` write (wol_caster.py:776-783,
    3575-3582); a record of this shape carries no vendor or merge tags.
   */
  datatype ScanRecord = ScanRecord(
    ip: string,
    hostname: Option<string>,
    mac: Option<string>,
    status: Status,
    pingable: bool,
    lastSeen: int)

  /** A scan record as a stored device: the keys it lacks are absent. */
  function AsDevice(r: ScanRecord): (d: Device)
    ensures d.ip == r.ip && d.hostname == r.hostname && d.mac == r.mac
    ensures d.status == r.status && d.lastSeen == r.lastSeen && IsPingable(d) == r.pingable
    ensures d.vendor.None? && d.storedLastSeen.None? && d.context.None?
    ensures d.currentScan.None? && d.historical.None?
  {
    Device(r.ip, r.hostname, r.mac, None, r.status, Some(r.pingable), r.lastSeen, None, None, None, None)
  }

  /** `existing.update(record)`: the record's six keys overwrite, every other key stays. */
  function UpdateWith(existing: Device, r: ScanRecord): (d: Device)
    ensures d.ip == r.ip && d.hostname == r.hostname && d.mac == r.mac
    ensures d.status == r.status && d.lastSeen == r.lastSeen && IsPingable(d) == r.pingable
    ensures d.vendor == existing.vendor && d.storedLastSeen == existing.storedLastSeen
    ensures d.context == existing.context && d.currentScan == existing.currentScan
    ensures d.historical == existing.historical
  {
    existing.(ip := r.ip, hostname := r.hostname, mac := r.mac, status := r.status,
              pingable := Some(r.pingable), lastSeen := r.lastSeen)
  }

  /** `ip.split('.')[-1]`: the text after the last dot. */
  function LastOctet(ip: string): (r: string)
    ensures '.' !in r
  {
    LastPiece(ip, '.')
  }

  /** The device IPs of a list, in order. */
  function Ips(ds: seq<Device>): (r: seq<string>)
    ensures |r| == |ds| && forall i :: 0 <= i < |ds| ==> r[i] == ds[i].ip
  {
    seq(|ds|, i requires 0 <= i < |ds| => ds[i].ip)
  }

  /** No two records share an IP. */
  predicate UniqueIps(ds: seq<Device>) {
    forall i, j :: 0 <= i < j < |ds| ==> ds[i].ip != ds[j].ip
  }

  /** Index of the first record with the given IP, if any (`next(d for d in ds if d['ip'] == ip)`). */
  function FindIp(ds: seq<Device>, ip: string): (r: Option<nat>)
    ensures r.None? <==> forall i :: 0 <= i < |ds| ==> ds[i].ip != ip
    ensures r.Some? ==> r.value < |ds| && ds[r.value].ip == ip
    ensures r.Some? ==> forall i :: 0 <= i < r.value ==> ds[i].ip != ip
  {
    if |ds| == 0 then None
    else if ds[0].ip == ip then Some(0)
    else
      match FindIp(ds[1..], ip)
      case None => None
      case Some(k) => Some(k + 1)
  }

  /** The first stored record with the IP, as the linear search over the known devices finds it. */
  function KnownRecord(known: seq<Device>, ip: string): (r: Option<Device>)
    ensures r.None? <==> forall i :: 0 <= i < |known| ==> known[i].ip != ip
    ensures r.Some? ==> FindIp(known, ip).Some? && r.value == known[FindIp(known, ip).value]
  {
    match FindIp(known, ip)
    case None => None
    case Some(k) => Some(known[k])
  }
}

=== FILE: identity.dfy ===
/**
  Naming a host: the ordered fallback chain of `get_device_identifier`
  (wol_caster.py:646-718) and its fast variant (wol_caster.py:3878-3936),
  the NetBIOS and Bonjour output parsers (wol_caster.py:4655-4734), the
  Apple-prefix check (wol_caster.py:4737-4845), and the display string of
  `get_priority_device_display` (wol_caster.py:4855-4912).

  Every probe of the host is an input: a `HostProbe` records what the
  operating system answered.
 */
module Identity {
  import opened Wrappers
  import opened Text
  import opened Devices
  import Mac
  import Vendor

  /** What the operating system answers about one host. */
  datatype HostProbe = HostProbe(
    ping: bool,                 // the ping exited with status 0
    openPorts: set<nat>,        // the TCP ports whose connect returned 0
    dns: Option<string>,        // the reverse-DNS name; None when the lookup raised
    smbutil: Option<string>,    // `smbutil status` output when it exited with 0
    dnsSd: Option<string>,      // `dns-sd` output when it exited with 0
    arpToken: Option<string>,   // the MAC-shaped text `get_mac_address` matched (one- or two-digit groups)
    fastArpToken: Option<string>) // the text `get_mac_address_fast` matched (two-digit groups, no `arp -a` retry)

  /** The host-wide inputs: the platform, the OUI database lines (None when unreadable) and the clock. */
  datatype Env = Env(darwin: bool, oui: Option<seq<string>>, now: int)

  /** `get_mac_address`: the matched token, upper-cased, dashes to colons, padded. */
  function ProbedMac(p: HostProbe): (r: Option<string>)
    ensures r.Some? <==> p.arpToken.Some?
    ensures r.Some? ==> r.value == Mac.MacFromArpToken(p.arpToken.value)
  {
    match p.arpToken
    case None => None
    case Some(t) => Some(Mac.MacFromArpToken(t))
  }

  /** `get_mac_address_fast`: the same conversion applied to the fast probe's stricter match. */
  function ProbedFastMac(p: HostProbe): (r: Option<string>)
    ensures r.Some? <==> p.fastArpToken.Some?
    ensures r.Some? ==> r.value == Mac.MacFromArpToken(p.fastArpToken.value)
  {
    match p.fastArpToken
    case None => None
    case Some(t) => Some(Mac.MacFromArpToken(t))
  }

  // ---------------------------------------------------------------------------
  // The individual naming steps
  // ---------------------------------------------------------------------------

  /** A reverse-DNS answer is accepted when non-empty, different from the IP and longer than two characters. */
  function AcceptedDns(dns: Option<string>, ip: string): (r: Option<string>)
    ensures r.Some? <==> dns.Some? && dns.value != ip && |dns.value| > 2
    ensures r.Some? ==> r == dns && r.value != ""
  {
    if Truthy(dns) && dns.value != ip && |dns.value| > 2 then dns else None
  }

  /** The name a `Server:` line of `smbutil status` output carries, if it is usable. */
  function SmbutilLine(line: string, ip: string): (r: Option<string>)
    ensures r.Some? ==> r.value != "" && r.value != ip
  {
    if StartsWith(line, "Server:") then
      var name := Strip(line[|"Server:"|..]);
      if name != "" && name != ip then Some(name) else None
    else None
  }

  /** `get_netbios_name_smbutil`: the first usable `Server:` line of the output. */
  function SmbutilName(out: Option<string>, ip: string): (r: Option<string>)
    ensures r.Some? ==> r.value != "" && r.value != ip
    ensures out.None? ==> r.None?
    ensures out.Some? ==> r == FirstSome(SmbutilLines(Split(out.value, '\n'), ip))
  {
    match out
    case None => None
    case Some(o) =>
      var hits := SmbutilLines(Split(o, '\n'), ip);
      FirstSomeIsFirstHit(hits);
      FirstSome(hits)
  }

  function SmbutilLines(lines: seq<string>, ip: string): (r: seq<Option<string>>)
    ensures |r| == |lines| && forall i :: 0 <= i < |lines| ==> r[i] == SmbutilLine(lines[i], ip)
  {
    seq(|lines|, i requires 0 <= i < |lines| => SmbutilLine(lines[i], ip))
  }

  /** The name a `device-info` line of `dns-sd` output carries after its first `=`, if longer than two characters. */
  function DnsSdLine(line: string): (r: Option<string>)
    ensures r.Some? ==> |r.value| > 2
  {
    if Contains(line, "device-info") && '=' in line then
      var parts := Split(line, '=');
      if |parts| >= 2 then
        var name := Strip(parts[1]);
        if name != "" && |name| > 2 then Some(name) else None
      else None
    else None
  }

  function DnsSdLines(lines: seq<string>): (r: seq<Option<string>>)
    ensures |r| == |lines| && forall i :: 0 <= i < |lines| ==> r[i] == DnsSdLine(lines[i])
  {
    seq(|lines|, i requires 0 <= i < |lines| => DnsSdLine(lines[i]))
  }

  /** The `dns-sd` step of `get_apple_device_name`: the first usable `device-info` line. */
  function DnsSdName(out: Option<string>): (r: Option<string>)
    ensures r.Some? ==> |r.value| > 2
    ensures out.None? ==> r.None?
    ensures out.Some? ==> r == FirstSome(DnsSdLines(Split(out.value, '\n')))
  {
    match out
    case None => None
    case Some(o) =>
      var hits := DnsSdLines(Split(o, '\n'));
      FirstSomeIsFirstHit(hits);
      FirstSome(hits)
  }

  /** A `Server: NAME` line yields NAME when NAME is unpadded and not the IP. */
  lemma ServerLineYieldsName(name: string, ip: string)
    requires name != "" && !IsSpace(name[0]) && !IsSpace(name[|name| - 1]) && name != ip
    ensures SmbutilLine("Server: " + name, ip) == Some(name)
  {
    var line := "Server: " + name;
    assert line[..|"Server:"|] == "Server:";
    assert line[|"Server:"|..] == " " + name;
    assert TrimLeft(" " + name) == TrimLeft(name) by {
      assert (" " + name)[1..] == name;
    }
    StripUnpadded(name);
  }

  /**
    The NetBIOS name is the one on the first `Server:` line that yields a
    name; later lines, and earlier lines that yield nothing, do not matter.
   */
  lemma SmbutilFindsServerLine(out: string, k: nat, name: string, ip: string)
    requires k < |Split(out, '\n')| && Split(out, '\n')[k] == "Server: " + name
    requires name != "" && !IsSpace(name[0]) && !IsSpace(name[|name| - 1]) && name != ip
    requires forall j :: 0 <= j < k ==> SmbutilLine(Split(out, '\n')[j], ip).None?
    ensures SmbutilName(Some(out), ip) == Some(name)
  {
    ServerLineYieldsName(name, ip);
    var hits := SmbutilLines(Split(out, '\n'), ip);
    assert FirstHit(hits, k);
    FirstSomeAt(hits, k);
  }

  /** A `device-info` line `PRE=NAME` yields NAME when NAME is unpadded and longer than two characters. */
  lemma DeviceInfoLineYieldsName(pre: string, name: string)
    requires Contains(pre, "device-info") && '=' !in pre
    requires '=' !in name && |name| > 2 && !IsSpace(name[0]) && !IsSpace(name[|name| - 1])
    ensures DnsSdLine(pre + "=" + name) == Some(name)
  {
    var line := pre + "=" + name;
    assert line[..|pre|] == pre;
    assert Contains(line, "device-info") by {
      var i :| 0 <= i <= |pre| && OccursAt(pre, "device-info", i);
      assert line[i..i + |"device-info"|] == pre[i..i + |"device-info"|];
      assert OccursAt(line, "device-info", i);
    }
    assert line[|pre|] == '=';
    SplitAfterPiece(pre, '=', name);
    assert line == pre + ['='] + name;
    assert Split(name, '=') == [name] by {
      SplitJoin([name], '=');
    }
    StripUnpadded(name);
  }

  /** One of the home-network suffixes occurs anywhere in the name (a substring test, not a suffix test). */
  predicate HasHomeSuffix(h: string) {
    Contains(h, ".local") || Contains(h, ".home") || Contains(h, ".lan") || Contains(h, ".home.arpa")
  }

  /** The DNS step of `get_apple_device_name`: an accepted name that mentions a home suffix. */
  function AppleDnsName(dns: Option<string>, ip: string): (r: Option<string>)
    ensures r.Some? <==> AcceptedDns(dns, ip).Some? && HasHomeSuffix(dns.value)
    ensures r.Some? ==> r == dns
  {
    if AcceptedDns(dns, ip).Some? && HasHomeSuffix(dns.value) then dns else None
  }

  /** `":".join(mac.split(":")[:3])`, which is shorter when the MAC has fewer groups. */
  function ColonPrefix(mac: string): string {
    var g := Split(mac, ':');
    Join(g[..if |g| < 3 then |g| else 3], ":")
  }

  /** The MAC step of `get_apple_device_name`: an Apple prefix names the host `Apple-<octet>`. */
  function AppleMacName(mac: Option<string>, ip: string): (r: Option<string>)
    ensures r.Some? <==> Truthy(mac) && ColonPrefix(mac.value) in Vendor.ApplePrefixes
    ensures r.Some? ==> r.value == "Apple-" + LastOctet(ip)
  {
    if Truthy(mac) && ColonPrefix(mac.value) in Vendor.ApplePrefixes then Some("Apple-" + LastOctet(ip)) else None
  }

  /** `get_apple_device_name`: Bonjour, then DNS with a home suffix, then the Apple MAC prefix. */
  function AppleDeviceName(p: HostProbe, ip: string): (r: Option<string>)
    ensures r.None? <==> DnsSdName(p.dnsSd).None? && AppleDnsName(p.dns, ip).None? && AppleMacName(ProbedMac(p), ip).None?
    ensures r.Some? ==> |r.value| > 2
    ensures DnsSdName(p.dnsSd).Some? ==> r == DnsSdName(p.dnsSd)
    ensures DnsSdName(p.dnsSd).None? && AppleDnsName(p.dns, ip).Some? ==> r == AppleDnsName(p.dns, ip)
    ensures DnsSdName(p.dnsSd).None? && AppleDnsName(p.dns, ip).None? ==> r == AppleMacName(ProbedMac(p), ip)
  {
    var bonjour := DnsSdName(p.dnsSd);
    if bonjour.Some? then bonjour
    else
      var named := AppleDnsName(p.dns, ip);
      if named.Some? then named
      else AppleMacName(ProbedMac(p), ip)
  }

  /** The service probe table, in the order the dictionary is written. */
  const ServicePorts: seq<(nat, string)> := [
    (22, "SSH"), (23, "Telnet"), (80, "HTTP"), (443, "HTTPS"),
    (3389, "RDP"), (5900, "VNC"), (8080, "HTTP-Alt"), (8443, "HTTPS-Alt")]

  /** For each table entry, its service when its port is open. */
  function ServiceHits(table: seq<(nat, string)>, open: set<nat>): (r: seq<Option<string>>)
    ensures |r| == |table|
    ensures forall i :: 0 <= i < |table| ==> r[i] == (if table[i].0 in open then Some(table[i].1) else None)
  {
    seq(|table|, i requires 0 <= i < |table| => if table[i].0 in open then Some(table[i].1) else None)
  }

  /** The service of the first table entry whose port is open. */
  function FirstService(table: seq<(nat, string)>, open: set<nat>): (r: Option<string>)
    ensures r.None? <==> forall i :: 0 <= i < |table| ==> table[i].0 !in open
    ensures r.Some? ==> exists k :: FirstHit(ServiceHits(table, open), k) && r.value == table[k].1
  {
    var hits := ServiceHits(table, open);
    FirstSomeIsFirstHit(hits);
    FirstSome(hits)
  }

  /** The service step: `<service>-<last octet>` for the first open port of the table. */
  function ServiceLabel(open: set<nat>, ip: string): (r: Option<string>)
    ensures r.Some? <==> FirstService(ServicePorts, open).Some?
    ensures r.Some? ==> r.value == FirstService(ServicePorts, open).value + "-" + LastOctet(ip)
  {
    match FirstService(ServicePorts, open)
    case None => None
    case Some(s) => Some(s + "-" + LastOctet(ip))
  }

  /** The vendor step: `<vendor>-<last octet>` when the MAC has a known manufacturer. */
  function VendorLabel(mac: Option<string>, oui: Option<seq<string>>, ip: string): (r: Option<string>)
    ensures r.Some? <==> Truthy(mac) && Vendor.MacVendor(mac, oui).Some?
    ensures r.Some? ==> r.value == Vendor.MacVendor(mac, oui).value + "-" + LastOctet(ip)
  {
    if Truthy(mac) then
      match Vendor.MacVendor(mac, oui)
      case None => None
      case Some(v) => Some(v + "-" + LastOctet(ip))
    else None
  }

  /** The two platform steps, which run only on macOS. */
  function DarwinName(p: HostProbe, ip: string, env: Env): (r: Option<string>)
    ensures !env.darwin ==> r.None?
    ensures r.Some? ==> r.value != ""
    ensures env.darwin && SmbutilName(p.smbutil, ip).Some? ==> r == SmbutilName(p.smbutil, ip)
    ensures env.darwin && SmbutilName(p.smbutil, ip).None? ==> r == AppleDeviceName(p, ip)
  {
    if !env.darwin then None
    else
      var netbios := SmbutilName(p.smbutil, ip);
      if netbios.Some? then netbios else AppleDeviceName(p, ip)
  }

  // ---------------------------------------------------------------------------
  // The identifier chains
  // ---------------------------------------------------------------------------

  /**
    `get_device_identifier_fast`: accepted DNS, then the macOS steps, then the
    first open service; None when all of them fail.
   */
  function DeviceIdentifierFast(ip: string, p: HostProbe, env: Env): (r: Option<string>)
    ensures r.None? <==>
      AcceptedDns(p.dns, ip).None? && DarwinName(p, ip, env).None? && ServiceLabel(p.openPorts, ip).None?
    ensures r.Some? ==> r.value != ""
    ensures AcceptedDns(p.dns, ip).Some? ==> r == p.dns
    ensures AcceptedDns(p.dns, ip).None? && DarwinName(p, ip, env).Some? ==> r == DarwinName(p, ip, env)
    ensures AcceptedDns(p.dns, ip).None? && DarwinName(p, ip, env).None? ==> r == ServiceLabel(p.openPorts, ip)
  {
    var dns := AcceptedDns(p.dns, ip);
    if dns.Some? then dns
    else
      var platform := DarwinName(p, ip, env);
      if platform.Some? then platform
      else ServiceLabel(p.openPorts, ip)
  }

  /**
    `get_device_identifier`: the fast chain, then the MAC vendor, then
    `.<last octet>`; the answer is never empty.
   */
  function DeviceIdentifier(ip: string, p: HostProbe, env: Env): (r: string)
    ensures r != ""
    ensures AcceptedDns(p.dns, ip).Some? ==> r == p.dns.value
    ensures DeviceIdentifierFast(ip, p, env).Some? ==> r == DeviceIdentifierFast(ip, p, env).value
    ensures DeviceIdentifierFast(ip, p, env).None? ==>
      r == (if VendorLabel(ProbedMac(p), env.oui, ip).Some? then VendorLabel(ProbedMac(p), env.oui, ip).value
            else "." + LastOctet(ip))
  {
    var fast := DeviceIdentifierFast(ip, p, env);
    if fast.Some? then fast.value
    else
      var vendor := VendorLabel(ProbedMac(p), env.oui, ip);
      if vendor.Some? then vendor.value else "." + LastOctet(ip)
  }

  /**
    The DNS step inside `get_apple_device_name` never decides the identifier:
    any name it would accept was already accepted by the first step.
   */
  lemma AppleDnsStepIsShadowed(ip: string, p: HostProbe, env: Env)
    requires AppleDnsName(p.dns, ip).Some?
    ensures DeviceIdentifier(ip, p, env) == AppleDnsName(p.dns, ip).value
    ensures DeviceIdentifierFast(ip, p, env) == AppleDnsName(p.dns, ip)
  {
  }

  /** Off macOS the identifier is decided by DNS, open services, the vendor or the octet alone. */
  lemma IdentifierOffDarwin(ip: string, p: HostProbe, env: Env)
    requires !env.darwin && AcceptedDns(p.dns, ip).None?
    ensures DeviceIdentifier(ip, p, env) ==
      (if ServiceLabel(p.openPorts, ip).Some? then ServiceLabel(p.openPorts, ip).value
       else if VendorLabel(ProbedMac(p), env.oui, ip).Some? then VendorLabel(ProbedMac(p), env.oui, ip).value
       else "." + LastOctet(ip))
  {
  }

  /** An open SSH port names the host `SSH-<octet>` whenever the earlier steps fail, whatever else is open. */
  lemma SshWinsAmongServices(ip: string, open: set<nat>)
    requires 22 in open
    ensures ServiceLabel(open, ip) == Some("SSH-" + LastOctet(ip))
  {
    var hits := ServiceHits(ServicePorts, open);
    assert FirstHit(hits, 0);
    FirstSomeAt(hits, 0);
    assert "SSH" + "-" == "SSH-";
  }

  /** With only the web port open, the service step names the host `HTTP-<octet>`. */
  lemma HttpAlone(ip: string, open: set<nat>)
    requires 80 in open && 22 !in open && 23 !in open
    ensures ServiceLabel(open, ip) == Some("HTTP-" + LastOctet(ip))
  {
    var hits := ServiceHits(ServicePorts, open);
    assert hits[0].None? && hits[1].None? && hits[2] == Some("HTTP");
    assert FirstHit(hits, 2);
    FirstSomeAt(hits, 2);
    assert "HTTP" + "-" == "HTTP-";
  }

  // ---------------------------------------------------------------------------
  // get_priority_device_display
  // ---------------------------------------------------------------------------

  /** A hostname the scanners generate as a placeholder rather than learn. */
  predicate IsGenericName(h: string, ip: string) {
    h == "Device-" + LastOctet(ip) || h == "Standby-" + LastOctet(ip)
  }

  /** The name shown when neither a hostname nor a manufacturer is known. */
  function FallbackName(status: Status, last: string): (r: string)
    ensures r != ""
    ensures status == Standby ==> r == "Standby-" + last
    ensures status != Standby ==> r in ["Gateway-" + last, "Server-" + last, "Device-" + last]
    ensures status != Standby && (last == "1" || last == "254") ==> r == "Gateway-" + last
    ensures status != Standby && (last == "100" || last == "101" || last == "200" || last == "201")
      ==> r == "Server-" + last
    ensures status != Standby && last !in ["1", "254", "100", "101", "200", "201"] ==> r == "Device-" + last
  {
    if status == Standby then "Standby-" + last
    else if last in ["1", "254"] then "Gateway-" + last
    else if last in ["100", "101", "200", "201"] then "Server-" + last
    else "Device-" + last
  }

  /** A fresh lookup of the device's MAC names a manufacturer other than `Unknown`. */
  predicate FreshVendor(d: Device, oui: Option<seq<string>>) {
    Truthy(Vendor.MacVendor(d.mac, oui)) && Vendor.MacVendor(d.mac, oui).value != "Unknown"
  }

  /**
    The manufacturer shown for a device with a MAC: for a live device a fresh
    lookup other than `Unknown`, else the stored vendor; for any other device
    the stored vendor.
   */
  function ShownVendor(d: Device, oui: Option<seq<string>>): (r: Option<string>)
    ensures r.Some? ==> r.value != ""
    ensures r.Some? ==> r == d.vendor || (Active(d.status) && r == Vendor.MacVendor(d.mac, oui))
    ensures !Active(d.status) ==> r == (if Truthy(d.vendor) then d.vendor else None)
    ensures Active(d.status) && FreshVendor(d, oui) ==> r == Vendor.MacVendor(d.mac, oui)
    ensures Active(d.status) && !FreshVendor(d, oui) ==> r == (if Truthy(d.vendor) then d.vendor else None)
  {
    if Active(d.status) then
      if FreshVendor(d, oui) then Vendor.MacVendor(d.mac, oui)
      else if Truthy(d.vendor) then d.vendor
      else None
    else if Truthy(d.vendor) then d.vendor
    else None
  }

  /** The identifier part of the display: a learned hostname, else a manufacturer, else a fallback name. */
  function DisplayIdentifier(d: Device, oui: Option<seq<string>>): (r: string)
    ensures r != ""
    ensures Truthy(d.hostname) && !IsGenericName(d.hostname.value, d.ip) ==> r == d.hostname.value
    ensures (!Truthy(d.hostname) || IsGenericName(d.hostname.value, d.ip)) && Truthy(d.mac) && ShownVendor(d, oui).Some?
      ==> r == ShownVendor(d, oui).value
    ensures (!Truthy(d.hostname) || IsGenericName(d.hostname.value, d.ip)) && (!Truthy(d.mac) || ShownVendor(d, oui).None?)
      ==> r == FallbackName(d.status, LastOctet(d.ip))
  {
    if Truthy(d.hostname) && !IsGenericName(d.hostname.value, d.ip) then d.hostname.value
    else
      var vendor := if Truthy(d.mac) then ShownVendor(d, oui) else None;
      if vendor.Some? then vendor.value else FallbackName(d.status, LastOctet(d.ip))
  }

  /** `get_priority_device_display`: the IP, the MAC in brackets when known, then the identifier. */
  function PriorityDisplay(d: Device, oui: Option<seq<string>>): (r: string)
    ensures StartsWith(r, d.ip)
    ensures Truthy(d.mac) ==> StartsWith(r, d.ip + " [" + d.mac.value + "]")
    ensures |r| > |d.ip| + 1
  {
    var macPart := if Truthy(d.mac) then " [" + d.mac.value + "]" else "";
    var r := d.ip + macPart + " " + DisplayIdentifier(d, oui);
    assert r[..|d.ip|] == d.ip;
    assert Truthy(d.mac) ==> r[..|d.ip + macPart|] == d.ip + macPart;
    r
  }

  /** A learned hostname is what the display ends with, whatever MAC and vendor are known. */
  lemma DisplayShowsHostname(d: Device, oui: Option<seq<string>>)
    requires Truthy(d.hostname) && !IsGenericName(d.hostname.value, d.ip)
    ensures var r := PriorityDisplay(d, oui);
      |r| > |d.hostname.value| && r[|r| - |d.hostname.value| - 1..] == " " + d.hostname.value
  {
    DisplayEndsWithIdentifier(d, oui);
  }

  /** The display is the IP, the bracketed MAC and the identifier, separated exactly as written. */
  lemma DisplayEndsWithIdentifier(d: Device, oui: Option<seq<string>>)
    ensures var r := PriorityDisplay(d, oui);
      r[|r| - |DisplayIdentifier(d, oui)| - 1..] == " " + DisplayIdentifier(d, oui)
  {
  }

  /** A standby placeholder with no MAC is shown as the same placeholder. */
  lemma StandbyPlaceholderIsStable(d: Device, oui: Option<seq<string>>)
    requires d.status == Standby && !Truthy(d.mac)
    requires d.hostname == Some("Standby-" + LastOctet(d.ip))
    ensures DisplayIdentifier(d, oui) == "Standby-" + LastOctet(d.ip)
  {
  }

  /**
    An online placeholder `Device-1` with no MAC is shown as `Gateway-1`: the
    placeholder the fast scanner writes is not what the display shows for it.
   */
  lemma OnlinePlaceholderRenamed(d: Device, oui: Option<seq<string>>)
    requires d.status == Online && !Truthy(d.mac) && LastOctet(d.ip) == "1"
    requires d.hostname == Some("Device-1")
    ensures DisplayIdentifier(d, oui) == "Gateway-1"
  {
  }
}

=== FILE: interfaces.dfy ===
/**
  The interface enumerator (`get_network_interfaces`, wol_caster.py:319-415):
  one record per usable IPv4 address of each non-loopback interface, followed,
  on macOS, by pseudo-interfaces for the /24 blocks of neighbour-cache
  addresses that lie outside an interface's own subnet.

  The OS interface table and the text printed by `arp -a` are inputs.
 */
module Interfaces {
  import opened Wrappers
  import opened Text
  import opened Ipv4

  /** One IPv4 entry reported for an interface: its address and netmask, either possibly missing. */
  datatype AddressEntry = AddressEntry(addr: Option<string>, netmask: Option<string>)

  /** One interface of the OS table with its IPv4 entries (none when it has no IPv4 address). */
  datatype OsInterface = OsInterface(name: string, ipv4: seq<AddressEntry>)

  /** The record the enumerator produces; every field but the flag is text, as in the program. */
  datatype NetworkInterface = NetworkInterface(
    name: string,
    ip: string,
    network: string,
    netmask: string,
    subnet: string,
    broadcast: string,
    discovered: bool)

  predicate IsLoopback(name: string) {
    StartsWith(name, "lo") || Contains(name, "Loopback")
  }

  /** The record for one address/netmask pair, or None when Python's `IPv4Network` would raise. */
  function InterfaceRecord(name: string, ip: string, mask: string): (r: Option<NetworkInterface>)
    ensures r.Some? ==> r.value.name == name && r.value.ip == ip && r.value.netmask == mask
    ensures r.Some? ==> !r.value.discovered
    ensures r.Some? <==> ParseNetwork(ip + "/" + mask).Some?
    ensures r.Some? ==> ParseNetwork(r.value.subnet) == ParseNetwork(ip + "/" + mask)
  {
    match ParseNetwork(ip + "/" + mask)
    case None => None
    case Some(n) =>
      ParseNetworkText(n);
      Some(NetworkInterface(name, ip, Dotted(n.address), mask, NetworkText(n),
                            Dotted(BroadcastAddress(n.address, n.prefix)), false))
  }

  /** A well-formed interface address lies inside the subnet recorded for it. */
  lemma InterfaceHoldsItsAddress(name: string, ip: string, mask: string)
    requires ParseAddress(ip).Some?
    requires InterfaceRecord(name, ip, mask).Some?
    ensures var n := ParseNetwork(InterfaceRecord(name, ip, mask).value.subnet).value;
      InNetwork(ParseAddress(ip).value, n.address, n.prefix)
  {
    var a := ParseAddress(ip).value;
    DottedOfParse(ip);
    var o := Octets(a);
    JoinCharacters([NatToString(o[0]), NatToString(o[1]), NatToString(o[2]), NatToString(o[3])]);
    assert '/' !in ip;
    SplitAfterPiece(ip, '/', mask);
    assert ip + "/" + mask == ip + ['/'] + mask;
  }

  /** An entry the enumerator tries: address and netmask both non-empty, and not the loopback address. */
  predicate UsableEntry(e: AddressEntry) {
    Truthy(e.addr) && Truthy(e.netmask) && e.addr.value != "127.0.0.1"
  }

  /** The record one entry gives: a usable entry whose "ip/mask" parses, else none. */
  function EntryRecord(name: string, e: AddressEntry): Option<NetworkInterface> {
    if UsableEntry(e) then InterfaceRecord(name, e.addr.value, e.netmask.value) else None
  }

  /** The record is the one some entry of the list gives. */
  predicate RecordOfEntries(rec: NetworkInterface, name: string, entries: seq<AddressEntry>) {
    exists k :: 0 <= k < |entries| && EntryRecord(name, entries[k]) == Some(rec)
  }

  /** Every element of `xs` that `f` maps to a value has that value listed in `r`. */
  predicate ListsAll<T, U(==)>(r: seq<U>, xs: seq<T>, f: T -> Option<U>) {
    forall k :: 0 <= k < |xs| && f(xs[k]).Some? ==> f(xs[k]).value in r
  }

  /** Listing the value of the head in front of a list of the tail's values lists them all. */
  lemma ListsAllStep<T, U>(xs: seq<T>, f: T -> Option<U>, here: seq<U>, rest: seq<U>)
    requires |xs| > 0
    requires f(xs[0]).Some? ==> here == [f(xs[0]).value]
    requires ListsAll(rest, xs[1..], f)
    ensures ListsAll(here + rest, xs, f)
  {
    forall k | 0 <= k < |xs| && f(xs[k]).Some? ensures f(xs[k]).value in here + rest {
      if k > 0 {
        assert xs[k] == xs[1..][k - 1];
      }
    }
  }

  /** `EntryRecord` for one interface name, as a function of the entry. */
  function EntryRecordOf(name: string): AddressEntry -> Option<NetworkInterface> {
    e => EntryRecord(name, e)
  }

  /** Every entry that gives a record has it listed in `r`. */
  predicate ListsEntries(r: seq<NetworkInterface>, name: string, entries: seq<AddressEntry>) {
    ListsAll(r, entries, EntryRecordOf(name))
  }

  /** The record one listed entry gives is in `r`. */
  lemma ListedEntry(r: seq<NetworkInterface>, name: string, entries: seq<AddressEntry>, k: nat)
    requires ListsEntries(r, name, entries) && k < |entries| && EntryRecord(name, entries[k]).Some?
    ensures EntryRecord(name, entries[k]).value in r
  {
    assert EntryRecordOf(name)(entries[k]) == EntryRecord(name, entries[k]);
  }

  /** Every record listed in `r` is the record of some entry. */
  predicate FromEntries(r: seq<NetworkInterface>, name: string, entries: seq<AddressEntry>) {
    forall x :: x in r ==> RecordOfEntries(x, name, entries)
  }

  /** A record some entry gives is a primary record of that interface for a real, non-loopback address. */
  lemma RecordOfEntriesShape(rec: NetworkInterface, name: string, entries: seq<AddressEntry>)
    requires RecordOfEntries(rec, name, entries)
    ensures rec.name == name && !rec.discovered && rec.ip != "127.0.0.1" && rec.ip != "" && rec.netmask != ""
    ensures ParseNetwork(rec.subnet).Some?
  {
  }

  lemma EntriesListsStep(name: string, entries: seq<AddressEntry>, here: seq<NetworkInterface>, rest: seq<NetworkInterface>)
    requires |entries| > 0
    requires EntryRecord(name, entries[0]).Some? ==> here == [EntryRecord(name, entries[0]).value]
    requires ListsEntries(rest, name, entries[1..])
    ensures ListsEntries(here + rest, name, entries)
  {
    assert EntryRecordOf(name)(entries[0]) == EntryRecord(name, entries[0]);
    ListsAllStep(entries, EntryRecordOf(name), here, rest);
  }

  lemma EntriesFromStep(name: string, entries: seq<AddressEntry>, here: seq<NetworkInterface>, rest: seq<NetworkInterface>)
    requires |entries| > 0
    requires here == if EntryRecord(name, entries[0]).Some? then [EntryRecord(name, entries[0]).value] else []
    requires FromEntries(rest, name, entries[1..])
    ensures FromEntries(here + rest, name, entries)
  {
    forall x | x in here + rest ensures RecordOfEntries(x, name, entries) {
      if x in here {
        assert EntryRecord(name, entries[0]) == Some(x);
      } else {
        var k :| 0 <= k < |entries[1..]| && EntryRecord(name, entries[1..][k]) == Some(x);
        assert entries[1..][k] == entries[k + 1];
      }
    }
  }

  lemma FromEntriesShape(r: seq<NetworkInterface>, name: string, entries: seq<AddressEntry>)
    requires FromEntries(r, name, entries)
    ensures forall i :: 0 <= i < |r| ==>
      r[i].name == name && !r[i].discovered && r[i].ip != "127.0.0.1" && r[i].ip != "" && r[i].netmask != ""
      && ParseNetwork(r[i].subnet).Some?
  {
    forall i | 0 <= i < |r|
      ensures r[i].name == name && !r[i].discovered && r[i].ip != "127.0.0.1" && r[i].ip != "" && r[i].netmask != ""
      ensures ParseNetwork(r[i].subnet).Some?
    {
      assert r[i] in r;
      RecordOfEntriesShape(r[i], name, entries);
    }
  }

  /**
    The records contributed by one interface's IPv4 entries: every usable
    entry that parses gives its record, and every record is one of these.
   */
  function EntryRecords(name: string, entries: seq<AddressEntry>): (r: seq<NetworkInterface>)
    ensures |r| <= |entries|
    ensures forall i :: 0 <= i < |r| ==>
      r[i].name == name && !r[i].discovered && r[i].ip != "127.0.0.1" && r[i].ip != "" && r[i].netmask != ""
      && ParseNetwork(r[i].subnet).Some?
    ensures ListsEntries(r, name, entries)
    ensures FromEntries(r, name, entries)
  {
    if |entries| == 0 then []
    else
      var here := if EntryRecord(name, entries[0]).Some? then [EntryRecord(name, entries[0]).value] else [];
      var rest := EntryRecords(name, entries[1..]);
      EntriesListsStep(name, entries, here, rest);
      EntriesFromStep(name, entries, here, rest);
      FromEntriesShape(here + rest, name, entries);
      here + rest
  }

  /** The record is the one some entry of some non-loopback interface of the table gives. */
  predicate RecordOfTable(rec: NetworkInterface, os: seq<OsInterface>) {
    exists j :: 0 <= j < |os| && !IsLoopback(os[j].name) && RecordOfEntries(rec, os[j].name, os[j].ipv4)
  }

  /** Every usable entry of a non-loopback interface of the table has its record in `r`. */
  predicate ListsTable(r: seq<NetworkInterface>, os: seq<OsInterface>) {
    forall j, k ::
      && 0 <= j < |os| && !IsLoopback(os[j].name) && 0 <= k < |os[j].ipv4|
      && EntryRecord(os[j].name, os[j].ipv4[k]).Some?
      ==> EntryRecord(os[j].name, os[j].ipv4[k]).value in r
  }

  /** Every record listed in `r` is a record of the table. */
  predicate FromTable(r: seq<NetworkInterface>, os: seq<OsInterface>) {
    forall x :: x in r ==> RecordOfTable(x, os)
  }

  lemma TableListsStep(os: seq<OsInterface>, here: seq<NetworkInterface>, rest: seq<NetworkInterface>)
    requires |os| > 0
    requires !IsLoopback(os[0].name) ==> ListsEntries(here, os[0].name, os[0].ipv4)
    requires ListsTable(rest, os[1..])
    ensures ListsTable(here + rest, os)
  {
    forall j, k |
      && 0 <= j < |os| && !IsLoopback(os[j].name) && 0 <= k < |os[j].ipv4|
      && EntryRecord(os[j].name, os[j].ipv4[k]).Some?
      ensures EntryRecord(os[j].name, os[j].ipv4[k]).value in here + rest
    {
      if j > 0 {
        assert os[j] == os[1..][j - 1];
        assert EntryRecord(os[j].name, os[j].ipv4[k]).value in rest;
      } else {
        ListedEntry(here, os[0].name, os[0].ipv4, k);
      }
    }
  }

  lemma TableFromStep(os: seq<OsInterface>, here: seq<NetworkInterface>, rest: seq<NetworkInterface>)
    requires |os| > 0
    requires IsLoopback(os[0].name) ==> here == []
    requires !IsLoopback(os[0].name) ==> FromEntries(here, os[0].name, os[0].ipv4)
    requires FromTable(rest, os[1..])
    ensures FromTable(here + rest, os)
  {
    forall x | x in here + rest ensures RecordOfTable(x, os) {
      if x in here {
        assert !IsLoopback(os[0].name) && RecordOfEntries(x, os[0].name, os[0].ipv4);
      } else {
        var j :| 0 <= j < |os[1..]| && !IsLoopback(os[1..][j].name) && RecordOfEntries(x, os[1..][j].name, os[1..][j].ipv4);
        assert os[1..][j] == os[j + 1];
      }
    }
  }

  lemma FromTableShape(r: seq<NetworkInterface>, os: seq<OsInterface>)
    requires FromTable(r, os)
    ensures forall i :: 0 <= i < |r| ==>
      !IsLoopback(r[i].name) && !r[i].discovered && r[i].ip != "127.0.0.1" && ParseNetwork(r[i].subnet).Some?
  {
    forall i | 0 <= i < |r|
      ensures !IsLoopback(r[i].name) && !r[i].discovered && r[i].ip != "127.0.0.1" && ParseNetwork(r[i].subnet).Some?
    {
      assert r[i] in r;
      var j :| 0 <= j < |os| && !IsLoopback(os[j].name) && RecordOfEntries(r[i], os[j].name, os[j].ipv4);
      RecordOfEntriesShape(r[i], os[j].name, os[j].ipv4);
    }
  }

  /**
    The primary interfaces: every usable address of every non-loopback
    interface that parses gives its record, and every record is one of these.
   */
  function PrimaryInterfaces(os: seq<OsInterface>): (r: seq<NetworkInterface>)
    ensures forall i :: 0 <= i < |r| ==>
      !IsLoopback(r[i].name) && !r[i].discovered && r[i].ip != "127.0.0.1"
      && ParseNetwork(r[i].subnet).Some?
    ensures ListsTable(r, os)
    ensures FromTable(r, os)
  {
    if |os| == 0 then []
    else
      var here := if IsLoopback(os[0].name) then [] else EntryRecords(os[0].name, os[0].ipv4);
      var rest := PrimaryInterfaces(os[1..]);
      TableListsStep(os, here, rest);
      TableFromStep(os, here, rest);
      FromTableShape(here + rest, os);
      here + rest
  }

  // ---------------------------------------------------------------------------
  // Subnets inferred from the neighbour cache
  // ---------------------------------------------------------------------------

  /** The first address of the /24 block holding `a`. */
  function Block24(a: nat): nat {
    a - a % 256
  }

  /** The /24 text the program builds from the first three pieces of a dotted token. */
  function BlockText(ps: seq<string>, last: string): string
    requires |ps| >= 3
  {
    ps[0] + "." + ps[1] + "." + ps[2] + "." + last
  }

  /** The pseudo-interface for the /24 holding the dotted token `part`, reached through `primary`. */
  function DiscoveredRecord(primary: NetworkInterface, part: string): (r: NetworkInterface)
    requires ParseAddress(part).Some?
    ensures r.discovered && r.name == primary.name && r.ip == primary.ip && r.netmask == "255.255.255.0"
    ensures var a := ParseAddress(part).value;
      && ParseNetwork(r.subnet) == Some(Network(Block24(a), 24))
      && InNetwork(a, Block24(a), 24)
  {
    BlockOfToken(part);
    BlockContains(ParseAddress(part).value);
    var ps := Split(part, '.');
    NetworkInterface(primary.name, primary.ip, BlockText(ps, "0"), "255.255.255.0",
                     BlockText(ps, "0") + "/24", BlockText(ps, "255"), true)
  }

  /** A word the loop turns into a /24: three dots, an IPv4 address, and outside the primary subnet. */
  predicate OutsideToken(net: Network, part: string)
    requires ValidNetwork(net)
  {
    && '.' in part && CountChar(part, '.') == 3 && ParseAddress(part).Some?
    && !InNetwork(ParseAddress(part).value, net.address, net.prefix)
  }

  /** The subnet texts of a list of records. */
  function SubnetsOf(rs: seq<NetworkInterface>): (r: set<string>)
    ensures forall i :: 0 <= i < |rs| ==> rs[i].subnet in r
    ensures forall x :: x in r ==> exists i :: 0 <= i < |rs| && rs[i].subnet == x
  {
    set i | 0 <= i < |rs| :: rs[i].subnet
  }

  lemma SubnetsOfAppend(a: seq<NetworkInterface>, b: seq<NetworkInterface>)
    ensures SubnetsOf(a + b) == SubnetsOf(a) + SubnetsOf(b)
  {
    forall x | x in SubnetsOf(a) + SubnetsOf(b) ensures x in SubnetsOf(a + b) {
      if x in SubnetsOf(b) {
        var i :| 0 <= i < |b| && b[i].subnet == x;
        assert (a + b)[|a| + i] == b[i];
      } else {
        var i :| 0 <= i < |a| && a[i].subnet == x;
        assert (a + b)[i] == a[i];
      }
    }
  }

  /**
    What one token contributes: the record of its /24 when it is an outside
    address whose /24 has not been seen, else nothing; the seen set grows by
    exactly the /24 of an outside address.
   */
  function DiscoverToken(primary: NetworkInterface, net: Network, part: string, seen: set<string>)
    : (r: (seq<NetworkInterface>, set<string>))
    requires ValidNetwork(net)
    ensures |r.0| <= 1 && seen <= r.1
    ensures forall i :: 0 <= i < |r.0| ==> r.0[i].subnet !in seen && r.0[i].subnet in r.1
    ensures |r.0| == 1 <==> OutsideToken(net, part) && DiscoveredRecord(primary, part).subnet !in seen
    ensures |r.0| == 1 ==> r.0[0] == DiscoveredRecord(primary, part)
    ensures OutsideToken(net, part) ==> r.1 == seen + {DiscoveredRecord(primary, part).subnet}
    ensures !OutsideToken(net, part) ==> r.1 == seen
    ensures r.1 == seen + SubnetsOf(r.0)
    ensures forall i :: 0 <= i < |r.0| ==> r.0[i].discovered && r.0[i].name == primary.name && r.0[i].ip == primary.ip
  {
    if '.' in part && CountChar(part, '.') == 3 then
      match ParseAddress(part)
      case None => ([], seen)
      case Some(a) =>
        if InNetwork(a, net.address, net.prefix) then ([], seen)
        else
          var rec := DiscoveredRecord(primary, part);
          if rec.subnet in seen then ([], seen) else ([rec], seen + {rec.subnet})
    else ([], seen)
  }

  /**
    A word written in parentheses, the way macOS `arp -a` prints the address
    of each entry, is not an IPv4 address, so it never yields a /24.
   */
  lemma ParenthesisedTokenAddsNothing(primary: NetworkInterface, net: Network, part: string, seen: set<string>)
    requires ValidNetwork(net) && |part| > 0 && part[0] == '('
    ensures !OutsideToken(net, part)
    ensures DiscoverToken(primary, net, part, seen) == ([], seen)
  {
    var first := Split(part, '.')[0];
    assert first == ['('] + Split(part[1..], '.')[0];
    assert !AllDigits(first) by {
      assert first[0] == '(';
    }
    assert ParseOctet(first).None?;
  }

  /** Subnets of a list of records are pairwise distinct and none was already seen. */
  predicate FreshAndDistinct(rs: seq<NetworkInterface>, seen: set<string>) {
    && (forall i :: 0 <= i < |rs| ==> rs[i].subnet !in seen)
    && (forall i, j :: 0 <= i < j < |rs| ==> rs[i].subnet != rs[j].subnet)
  }

  /** Concatenating two fresh runs, the second fresh against everything the first saw. */
  lemma FreshAppend(a: seq<NetworkInterface>, seenA: set<string>, b: seq<NetworkInterface>, seenB: set<string>)
    requires FreshAndDistinct(a, seenA) && FreshAndDistinct(b, seenB)
    requires seenA <= seenB && forall i :: 0 <= i < |a| ==> a[i].subnet in seenB
    ensures FreshAndDistinct(a + b, seenA)
  {
    var ab := a + b;
    forall i, j | 0 <= i < j < |ab| ensures ab[i].subnet != ab[j].subnet {
      if j >= |a| {
        assert ab[j] == b[j - |a|];
        if i >= |a| {
          assert ab[i] == b[i - |a|];
        }
      }
    }
  }

  /** The record is the one some outside address among the words gives. */
  predicate FromWords(rec: NetworkInterface, primary: NetworkInterface, net: Network, words: seq<string>)
    requires ValidNetwork(net)
  {
    exists w :: w in words && OutsideToken(net, w) && rec == DiscoveredRecord(primary, w)
  }

  /** Every record listed comes from some outside address among the words. */
  predicate AllFromWords(rs: seq<NetworkInterface>, primary: NetworkInterface, net: Network, words: seq<string>)
    requires ValidNetwork(net)
  {
    forall x :: x in rs ==> FromWords(x, primary, net, words)
  }

  /** The /24 of every outside address among the words is in `seen`. */
  predicate CoversWords(seen: set<string>, primary: NetworkInterface, net: Network, words: seq<string>)
    requires ValidNetwork(net)
  {
    forall w :: w in words && OutsideToken(net, w) ==> DiscoveredRecord(primary, w).subnet in seen
  }

  lemma WordsStep(primary: NetworkInterface, net: Network, words: seq<string>, seen: set<string>,
                  first: (seq<NetworkInterface>, set<string>), rest: (seq<NetworkInterface>, set<string>))
    requires ValidNetwork(net) && |words| > 0
    requires first == DiscoverToken(primary, net, words[0], seen)
    requires first.1 <= rest.1
    requires CoversWords(rest.1, primary, net, words[1..]) && AllFromWords(rest.0, primary, net, words[1..])
    ensures CoversWords(rest.1, primary, net, words) && AllFromWords(first.0 + rest.0, primary, net, words)
  {
    forall w | w in words && OutsideToken(net, w) ensures DiscoveredRecord(primary, w).subnet in rest.1 {
      if w != words[0] {
        assert w in words[1..];
      }
    }
    forall x | x in first.0 + rest.0 ensures FromWords(x, primary, net, words) {
      if x in first.0 {
        assert words[0] in words;
      } else {
        var w :| w in words[1..] && OutsideToken(net, w) && x == DiscoveredRecord(primary, w);
        assert w in words;
      }
    }
  }

  /** The discoveries among the words of one line, in order, against the /24s seen before. */
  function DiscoverInWords(primary: NetworkInterface, net: Network, words: seq<string>, seen: set<string>)
    : (r: (seq<NetworkInterface>, set<string>))
    requires ValidNetwork(net)
    ensures FreshAndDistinct(r.0, seen) && seen <= r.1
    ensures r.1 == seen + SubnetsOf(r.0)
    ensures CoversWords(r.1, primary, net, words)
    ensures AllFromWords(r.0, primary, net, words)
    ensures forall i :: 0 <= i < |r.0| ==> r.0[i].discovered && r.0[i].name == primary.name && r.0[i].ip == primary.ip
  {
    if |words| == 0 then ([], seen)
    else
      var first := DiscoverToken(primary, net, words[0], seen);
      var rest := DiscoverInWords(primary, net, words[1..], first.1);
      FreshAppend(first.0, seen, rest.0, first.1);
      SubnetsOfAppend(first.0, rest.0);
      WordsStep(primary, net, words, seen, first, rest);
      (first.0 + rest.0, rest.1)
  }

  /** The word is an outside address on a line of the output that mentions the primary interface's name. */
  predicate Discoverable(primary: NetworkInterface, net: Network, lines: seq<string>, w: string)
    requires ValidNetwork(net)
  {
    && OutsideToken(net, w)
    && exists l :: 0 <= l < |lines| && Contains(lines[l], primary.name) && w in Words(lines[l])
  }

  /** The record is the one some discoverable word of the output gives. */
  ghost predicate FromLines(rec: NetworkInterface, primary: NetworkInterface, net: Network, lines: seq<string>)
    requires ValidNetwork(net)
  {
    exists w :: Discoverable(primary, net, lines, w) && rec == DiscoveredRecord(primary, w)
  }

  /** Every record listed comes from some discoverable word of the output. */
  ghost predicate AllFromLines(rs: seq<NetworkInterface>, primary: NetworkInterface, net: Network, lines: seq<string>)
    requires ValidNetwork(net)
  {
    forall x :: x in rs ==> FromLines(x, primary, net, lines)
  }

  /** The /24 of every discoverable word of the output is in `seen`. */
  ghost predicate CoversLines(seen: set<string>, primary: NetworkInterface, net: Network, lines: seq<string>)
    requires ValidNetwork(net)
  {
    forall w :: Discoverable(primary, net, lines, w) ==> DiscoveredRecord(primary, w).subnet in seen
  }

  lemma DiscoverableTail(primary: NetworkInterface, net: Network, lines: seq<string>, w: string)
    requires ValidNetwork(net)
    requires |lines| > 0 && Discoverable(primary, net, lines, w)
    requires !(Contains(lines[0], primary.name) && w in Words(lines[0]))
    ensures Discoverable(primary, net, lines[1..], w)
  {
    var l :| 0 <= l < |lines| && Contains(lines[l], primary.name) && w in Words(lines[l]);
    assert lines[1..][l - 1] == lines[l];
  }

  lemma FromLinesTail(rec: NetworkInterface, primary: NetworkInterface, net: Network, lines: seq<string>)
    requires ValidNetwork(net)
    requires |lines| > 0 && FromLines(rec, primary, net, lines[1..])
    ensures FromLines(rec, primary, net, lines)
  {
    var w :| Discoverable(primary, net, lines[1..], w) && rec == DiscoveredRecord(primary, w);
    var l :| 0 <= l < |lines[1..]| && Contains(lines[1..][l], primary.name) && w in Words(lines[1..][l]);
    assert lines[1..][l] == lines[l + 1];
    assert Discoverable(primary, net, lines, w);
  }

  lemma FromFirstLine(rec: NetworkInterface, primary: NetworkInterface, net: Network, lines: seq<string>)
    requires ValidNetwork(net)
    requires |lines| > 0 && Contains(lines[0], primary.name) && FromWords(rec, primary, net, Words(lines[0]))
    ensures FromLines(rec, primary, net, lines)
  {
    var w :| w in Words(lines[0]) && OutsideToken(net, w) && rec == DiscoveredRecord(primary, w);
    assert Discoverable(primary, net, lines, w);
  }

  /** A word discoverable in the lines is found either on the first line or among the rest. */
  lemma LinesComplete(primary: NetworkInterface, net: Network, lines: seq<string>, firstSeen: set<string>, restSeen: set<string>)
    requires ValidNetwork(net) && |lines| > 0
    requires Contains(lines[0], primary.name) ==> CoversWords(firstSeen, primary, net, Words(lines[0]))
    requires firstSeen <= restSeen
    requires CoversLines(restSeen, primary, net, lines[1..])
    ensures CoversLines(restSeen, primary, net, lines)
  {
    forall w | Discoverable(primary, net, lines, w) ensures DiscoveredRecord(primary, w).subnet in restSeen {
      if !(Contains(lines[0], primary.name) && w in Words(lines[0])) {
        DiscoverableTail(primary, net, lines, w);
      }
    }
  }

  /** Records from the first line and from the rest all come from discoverable words. */
  lemma LinesSound(primary: NetworkInterface, net: Network, lines: seq<string>, a: seq<NetworkInterface>, b: seq<NetworkInterface>)
    requires ValidNetwork(net) && |lines| > 0
    requires |a| > 0 ==> Contains(lines[0], primary.name)
    requires AllFromWords(a, primary, net, Words(lines[0]))
    requires AllFromLines(b, primary, net, lines[1..])
    ensures AllFromLines(a + b, primary, net, lines)
  {
    forall x | x in a + b ensures FromLines(x, primary, net, lines) {
      if x in a {
        FromFirstLine(x, primary, net, lines);
      } else {
        FromLinesTail(x, primary, net, lines);
      }
    }
  }

  /** The discoveries through one primary interface over the lines that mention it. */
  function DiscoverInLines(primary: NetworkInterface, net: Network, lines: seq<string>, seen: set<string>)
    : (r: (seq<NetworkInterface>, set<string>))
    requires ValidNetwork(net)
    ensures FreshAndDistinct(r.0, seen) && seen <= r.1
    ensures r.1 == seen + SubnetsOf(r.0)
    ensures CoversLines(r.1, primary, net, lines)
    ensures AllFromLines(r.0, primary, net, lines)
    ensures forall i :: 0 <= i < |r.0| ==> r.0[i].discovered && r.0[i].name == primary.name && r.0[i].ip == primary.ip
  {
    if |lines| == 0 then ([], seen)
    else
      var first :=
        if Contains(lines[0], primary.name) then DiscoverInWords(primary, net, Words(lines[0]), seen)
        else ([], seen);
      var rest := DiscoverInLines(primary, net, lines[1..], first.1);
      FreshAppend(first.0, seen, rest.0, first.1);
      SubnetsOfAppend(first.0, rest.0);
      LinesComplete(primary, net, lines, first.1, rest.1);
      LinesSound(primary, net, lines, first.0, rest.0);
      (first.0 + rest.0, rest.1)
  }

  /** The lines of one `arp -a` output. */
  function Lines(out: string): seq<string> {
    Split(out, '\n')
  }

  /**
    The discoveries through one primary interface, given the lines of its
    `arp -a` run: one record per distinct outside /24 among the words of the
    lines that mention the interface, and no other record.
   */
  function DiscoverThrough(primary: NetworkInterface, lines: seq<string>): (r: seq<NetworkInterface>)
    ensures FreshAndDistinct(r, {})
    ensures forall i :: 0 <= i < |r| ==> r[i].discovered && r[i].name == primary.name && r[i].ip == primary.ip
    ensures ParseNetwork(primary.subnet).None? ==> r == []
    ensures ParseNetwork(primary.subnet).Some? ==>
      var net := ParseNetwork(primary.subnet).value;
      CoversLines(SubnetsOf(r), primary, net, lines) && AllFromLines(r, primary, net, lines)
  {
    match ParseNetwork(primary.subnet)
    case None => []
    case Some(net) => DiscoverInLines(primary, net, lines, {}).0
  }

  /** The record is discovered through the primary from the output of its run of `arp -a`, when that run succeeded. */
  predicate FoundThrough(x: NetworkInterface, primary: NetworkInterface, run: Option<string>) {
    run.Some? && x in DiscoverThrough(primary, Lines(run.value))
  }

  /** Every record discovered through a primary from its successful run is listed in `r`. */
  ghost predicate ListsFound(r: seq<NetworkInterface>, primaries: seq<NetworkInterface>, outputs: seq<Option<string>>)
    requires |outputs| == |primaries|
  {
    forall j, x :: 0 <= j < |primaries| && FoundThrough(x, primaries[j], outputs[j]) ==> x in r
  }

  /** Every record listed in `r` was discovered through some primary from its successful run. */
  predicate AllFound(r: seq<NetworkInterface>, primaries: seq<NetworkInterface>, outputs: seq<Option<string>>)
    requires |outputs| == |primaries|
  {
    forall x :: x in r ==> exists j :: 0 <= j < |primaries| && FoundThrough(x, primaries[j], outputs[j])
  }

  lemma FoundListsStep(primaries: seq<NetworkInterface>, outputs: seq<Option<string>>, here: seq<NetworkInterface>, rest: seq<NetworkInterface>)
    requires |outputs| == |primaries| > 0
    requires outputs[0].Some? ==> here == DiscoverThrough(primaries[0], Lines(outputs[0].value))
    requires ListsFound(rest, primaries[1..], outputs[1..])
    ensures ListsFound(here + rest, primaries, outputs)
  {
    forall j, x | 0 <= j < |primaries| && FoundThrough(x, primaries[j], outputs[j]) ensures x in here + rest {
      if j > 0 {
        assert primaries[1..][j - 1] == primaries[j] && outputs[1..][j - 1] == outputs[j];
        assert x in rest;
      }
    }
  }

  lemma FoundFromStep(primaries: seq<NetworkInterface>, outputs: seq<Option<string>>, here: seq<NetworkInterface>, rest: seq<NetworkInterface>)
    requires |outputs| == |primaries| > 0
    requires here == if outputs[0].Some? then DiscoverThrough(primaries[0], Lines(outputs[0].value)) else []
    requires AllFound(rest, primaries[1..], outputs[1..])
    ensures AllFound(here + rest, primaries, outputs)
  {
    forall x | x in here + rest ensures exists j :: 0 <= j < |primaries| && FoundThrough(x, primaries[j], outputs[j]) {
      if x in here {
        assert FoundThrough(x, primaries[0], outputs[0]);
      } else {
        var j :| 0 <= j < |primaries[1..]| && FoundThrough(x, primaries[1..][j], outputs[1..][j]);
        assert primaries[1..][j] == primaries[j + 1] && outputs[1..][j] == outputs[j + 1];
      }
    }
  }

  /** The discoveries of all primary interfaces, each from its own `arp -a` run. */
  function DiscoverAll(primaries: seq<NetworkInterface>, outputs: seq<Option<string>>): (r: seq<NetworkInterface>)
    requires |outputs| == |primaries|
    ensures forall i :: 0 <= i < |r| ==> r[i].discovered
    ensures ListsFound(r, primaries, outputs)
    ensures AllFound(r, primaries, outputs)
    ensures (forall j :: 0 <= j < |outputs| ==> outputs[j].None?) ==> r == []
  {
    if |primaries| == 0 then []
    else
      var here := if outputs[0].Some? then DiscoverThrough(primaries[0], Lines(outputs[0].value)) else [];
      var rest := DiscoverAll(primaries[1..], outputs[1..]);
      FoundListsStep(primaries, outputs, here, rest);
      FoundFromStep(primaries, outputs, here, rest);
      assert (forall j :: 0 <= j < |outputs| ==> outputs[j].None?) ==> here == [] && rest == [];
      here + rest
  }

  /**
    `get_network_interfaces()`: the primary records, then, on macOS, the
    records discovered through each primary interface from its own run of
    `arp -a`; `arpRuns(j)` is the output of the run for primary `j`, None
    when that run failed. Every record discovered through a primary is
    listed, and nothing else follows the primaries.
   */
  function NetworkInterfaces(os: seq<OsInterface>, isDarwin: bool, arpRuns: nat -> Option<string>)
    : (r: seq<NetworkInterface>)
    ensures |PrimaryInterfaces(os)| <= |r|
    ensures r[..|PrimaryInterfaces(os)|] == PrimaryInterfaces(os)
    ensures forall i :: |PrimaryInterfaces(os)| <= i < |r| ==> r[i].discovered
    ensures !isDarwin ==> r == PrimaryInterfaces(os)
    ensures (forall j :: 0 <= j < |PrimaryInterfaces(os)| ==> arpRuns(j).None?) ==> r == PrimaryInterfaces(os)
    ensures var ps := PrimaryInterfaces(os);
      forall j, x :: isDarwin && 0 <= j < |ps| && FoundThrough(x, ps[j], arpRuns(j)) ==> x in r[|ps|..]
    ensures var ps := PrimaryInterfaces(os);
      forall x :: x in r[|ps|..] ==> isDarwin && exists j :: 0 <= j < |ps| && FoundThrough(x, ps[j], arpRuns(j))
  {
    var primaries := PrimaryInterfaces(os);
    var outputs := seq(|primaries|, j requires 0 <= j < |primaries| => arpRuns(j));
    var extra := if isDarwin then DiscoverAll(primaries, outputs) else [];
    var r := primaries + extra;
    assert r[..|primaries|] == primaries;
    assert r[|primaries|..] == extra;
    assert forall j :: 0 <= j < |primaries| ==> outputs[j] == arpRuns(j);
    r
  }

  lemma JoinFour(a: string, b: string, c: string, d: string)
    ensures Join([a, b, c, d], ".") == a + "." + b + "." + c + "." + d
  {
    assert [a, b, c, d][1..] == [b, c, d];
    assert [b, c, d][1..] == [c, d];
    assert [c, d][1..] == [d];
    assert Join([d], ".") == d;
    assert Join([c, d], ".") == c + "." + d;
    assert Join([b, c, d], ".") == b + "." + (c + "." + d);
  }

  /** The first three pieces of a dotted address, with a last octet of 0, spell its /24 block. */
  lemma BlockTextOfAddress(part: string)
    requires ParseAddress(part).Some?
    ensures var a := ParseAddress(part).value;
      |Split(part, '.')| == 4 && BlockText(Split(part, '.'), "0") == Dotted(Block24(a))
  {
    DottedOfParse(part);
    BlockTextOfDotted(ParseAddress(part).value);
  }

  lemma BlockTextOfDotted(a: nat)
    ensures |Split(Dotted(a), '.')| == 4 && BlockText(Split(Dotted(a), '.'), "0") == Dotted(Block24(a))
  {
    var block := Block24(a);
    var o := Octets(a);
    var strs := [NatToString(o[0]), NatToString(o[1]), NatToString(o[2]), NatToString(o[3])];
    assert forall i :: 0 <= i < 4 ==> '.' !in strs[i] by {
      forall i | 0 <= i < 4 ensures '.' !in strs[i] {
        assert AllDigits(strs[i]);
      }
    }
    SplitJoin(strs, '.');
    assert Split(Dotted(a), '.') == strs;
    assert Octets(block) == [o[0], o[1], o[2], 0] by {
      RoundedDownAligned(a, 256);
    }
    assert NatToString(0) == "0";
    JoinFour(strs[0], strs[1], strs[2], "0");
  }

  /** The /24 text built from an address token parses to the block holding that address. */
  lemma BlockOfToken(part: string)
    requires ParseAddress(part).Some?
    ensures |Split(part, '.')| == 4
    ensures var a := ParseAddress(part).value;
      ParseNetwork(BlockText(Split(part, '.'), "0") + "/24") == Some(Network(Block24(a), 24))
  {
    var a := ParseAddress(part).value;
    var t := BlockText(Split(part, '.'), "0");
    assert |Split(part, '.')| == 4 && t == Dotted(Block24(a)) by {
      BlockTextOfAddress(part);
    }
    BlockParsesAs(t, a);
  }

  lemma BlockParsesAs(t: string, a: nat)
    requires IsAddress(a) && t == Dotted(Block24(a))
    ensures ParseNetwork(t + "/24") == Some(Network(Block24(a), 24))
  {
    BlockNetworkParses(a);
  }

  lemma BlockContains(a: nat)
    requires IsAddress(a)
    ensures InNetwork(a, Block24(a), 24)
  {
    Pow2Values();
    NetworkIsAligned(a, 24);
  }

  /** The /24 block holding an address is a network in canonical form. */
  lemma BlockIsValid(a: nat)
    requires IsAddress(a)
    ensures ValidNetwork(Network(Block24(a), 24))
  {
    var block := Block24(a);
    RoundedDownAligned(a, 256);
    Pow2Values();
    assert Pow2(32 - 24) == 256;
    NetworkIsAligned(block, 24);
  }

  /** The text of an aligned /24 block followed by `/24` parses to that block. */
  lemma BlockNetworkParses(a: nat)
    requires IsAddress(a)
    ensures ParseNetwork(Dotted(Block24(a)) + "/24") == Some(Network(Block24(a), 24))
  {
    var block := Block24(a);
    var n := Network(block, 24);
    assert NatToString(24) == "24" by {
      assert NatToString(24) == NatToString(2) + [DigitChar(4)];
    }
    assert NetworkText(n) == Dotted(block) + "/24";
    BlockIsValid(a);
    ParseNetworkText(n);
  }
}

=== FILE: ipv4.dfy ===
/**
  IPv4 addresses as natural numbers below 2^32, with the prefix arithmetic of
  section 3.1 of RFC 4632 (network address = address AND mask, broadcast =
  network OR host-mask), dotted-quad rendering and parsing as Python's
  `ipaddress` module does it, parsing of `IPv4Network(text, strict=False)`,
  the host list of a network, and the range label shown for a subnet.
 */
module Ipv4 {
  import opened Wrappers
  import opened Text

  const AddressCount: nat := 0x1_0000_0000

  predicate IsAddress(a: nat) {
    a < AddressCount
  }

  // ---------------------------------------------------------------------------
  // Powers of two and integer division facts
  // ---------------------------------------------------------------------------

  function Pow2(n: nat): (r: nat)
    ensures r >= 1
  {
    if n == 0 then 1 else 2 * Pow2(n - 1)
  }

  lemma {:induction false} Pow2Add(a: nat, b: nat)
    ensures Pow2(a + b) == Pow2(a) * Pow2(b)
  {
    if a > 0 {
      Pow2Add(a - 1, b);
    }
  }

  lemma {:induction false} Pow2Monotone(k: nat, w: nat)
    requires k <= w
    ensures Pow2(k) <= Pow2(w)
  {
    if k < w {
      Pow2Monotone(k, w - 1);
    }
  }

  lemma Pow2Of8()
    ensures Pow2(8) == 256
  {
    assert Pow2(2) == 4;
    assert Pow2(4) == 16;
    assert Pow2(6) == 64;
  }

  lemma Pow2Values()
    ensures Pow2(8) == 256 && Pow2(16) == 65536 && Pow2(24) == 16777216
    ensures Pow2(32) == AddressCount
  {
    Pow2Of8();
    Pow2Add(8, 8);
    Pow2Add(16, 8);
    Pow2Add(16, 16);
  }

  lemma MulLe(d: int, x: int, y: int)
    requires d >= 0 && x <= y
    ensures d * x <= d * y
  {
    assert d * y - d * x == d * (y - x);
  }

  /** Quotient and remainder are the only pair with `a == d * q + r` and `0 <= r < d`. */
  lemma DivModUnique(a: int, d: int, q: int, r: int)
    requires d > 0 && 0 <= r < d && a == d * q + r
    ensures a / d == q && a % d == r
  {
    var q' := a / d;
    var r' := a % d;
    assert a == d * q' + r';
    if q' < q {
      MulLe(d, q' + 1, q);
      assert false;
    } else if q' > q {
      MulLe(d, q + 1, q');
      assert false;
    }
  }

  /** The remainder modulo 2P splits into the low bit and the remainder of the rest modulo P. */
  lemma ModSplit(a: nat, p: nat)
    requires p > 0
    ensures a % (2 * p) == a % 2 + 2 * ((a / 2) % p)
  {
    var q := a / 2;
    var hi := q / p;
    var lo := q % p;
    assert q == p * hi + lo;
    assert a == 2 * q + a % 2;
    assert a == (2 * p) * hi + (a % 2 + 2 * lo);
    DivModUnique(a, 2 * p, hi, a % 2 + 2 * lo);
  }

  // ---------------------------------------------------------------------------
  // Bitwise AND and OR on the low w bits
  // ---------------------------------------------------------------------------

  function BitAnd(a: nat, b: nat, w: nat): nat {
    if w == 0 then 0
    else 2 * BitAnd(a / 2, b / 2, w - 1) + (if a % 2 == 1 && b % 2 == 1 then 1 else 0)
  }

  function BitOr(a: nat, b: nat, w: nat): nat {
    if w == 0 then 0
    else 2 * BitOr(a / 2, b / 2, w - 1) + (if a % 2 == 1 || b % 2 == 1 then 1 else 0)
  }

  /** ANDing with a mask of w-k ones over k zeros clears the low k bits. */
  lemma {:induction false} AndHighOnes(a: nat, w: nat, k: nat)
    requires k <= w && a < Pow2(w)
    ensures Pow2(k) <= Pow2(w)
    ensures BitAnd(a, Pow2(w) - Pow2(k), w) == a - a % Pow2(k)
    decreases w, 1
  {
    Pow2Monotone(k, w);
    if w > 0 {
      if k == 0 {
        AndAllOnesStep(a, w);
      } else {
        AndHighOnesStep(a, w, k);
      }
    }
  }

  /** Halving a number below 2^w gives one below 2^(w-1). */
  lemma HalfBelow(a: nat, w: nat)
    requires w > 0 && a < Pow2(w)
    ensures a / 2 < Pow2(w - 1)
  {
  }

  /** `AndHighOnes` with no low zeros: the mask is all ones, so the AND keeps `a`. */
  lemma {:induction false} AndAllOnesStep(a: nat, w: nat)
    requires w > 0 && a < Pow2(w)
    ensures BitAnd(a, Pow2(w) - Pow2(0), w) == a - a % Pow2(0)
    decreases w, 0
  {
    var h := a / 2;
    HalfBelow(a, w);
    AndHighOnes(h, w - 1, 0);
    var m := Pow2(w) - 1;
    var m' := Pow2(w - 1) - 1;
    assert m == 2 * m' + 1;
    DivModUnique(m, 2, m', 1);
    assert BitAnd(h, m', w - 1) == h;
    assert BitAnd(a, m, w) == 2 * h + a % 2;
  }

  /** `AndHighOnes` with k > 0 low zeros: the lowest bit is cleared and the rest shifts down. */
  lemma {:induction false} AndHighOnesStep(a: nat, w: nat, k: nat)
    requires 0 < k <= w && a < Pow2(w)
    ensures Pow2(k) <= Pow2(w)
    ensures BitAnd(a, Pow2(w) - Pow2(k), w) == a - a % Pow2(k)
    decreases w, 0
  {
    Pow2Monotone(k, w);
    HalfBelow(a, w);
    AndHighOnes(a / 2, w - 1, k - 1);
    BitAndEvenMask(a, w, k);
    ClearLowBit(a, Pow2(k - 1));
  }

  /** A mask of high ones over k > 0 zeros has a clear low bit, so the AND drops `a`'s low bit. */
  lemma BitAndEvenMask(a: nat, w: nat, k: nat)
    requires 0 < k <= w
    ensures Pow2(k) <= Pow2(w) && Pow2(k - 1) <= Pow2(w - 1)
    ensures BitAnd(a, Pow2(w) - Pow2(k), w) == 2 * BitAnd(a / 2, Pow2(w - 1) - Pow2(k - 1), w - 1)
  {
    Pow2Monotone(k, w);
    var m := Pow2(w) - Pow2(k);
    var m' := Pow2(w - 1) - Pow2(k - 1);
    assert m == 2 * m';
    DivModUnique(m, 2, m', 0);
  }

  /** Clearing the low bits below 2P of a is twice clearing the low bits below P of a / 2. */
  lemma ClearLowBit(a: nat, p: nat)
    requires p > 0
    ensures a - a % (2 * p) == 2 * (a / 2 - (a / 2) % p)
  {
    ModSplit(a, p);
    assert a == 2 * (a / 2) + a % 2;
  }

  /** ORing k low ones into a number whose low k bits are clear adds 2^k - 1. */
  lemma {:induction false} OrLowOnes(a: nat, w: nat, k: nat)
    requires k <= w && a < Pow2(w) && a % Pow2(k) == 0
    ensures BitOr(a, Pow2(k) - 1, w) == a + Pow2(k) - 1
  {
    if w > 0 {
      var m := Pow2(k) - 1;
      var h := a / 2;
      assert a == 2 * h + a % 2;
      assert h < Pow2(w - 1);
      if k == 0 {
        assert m == 0;
        OrLowOnes(h, w - 1, 0);
        assert BitOr(a, m, w) == 2 * h + a % 2;
      } else {
        ModSplit(a, Pow2(k - 1));
        assert a % 2 == 0 && h % Pow2(k - 1) == 0;
        var m' := Pow2(k - 1) - 1;
        assert m == 2 * m' + 1;
        DivModUnique(m, 2, m', 1);
        OrLowOnes(h, w - 1, k - 1);
        assert BitOr(h, m', w - 1) == h + Pow2(k - 1) - 1;
        assert BitOr(a, m, w) == 2 * (h + Pow2(k - 1) - 1) + 1;
      }
    }
  }

  // ---------------------------------------------------------------------------
  // Prefix masks (section 3.1 of RFC 4632)
  // ---------------------------------------------------------------------------

  /** The netmask of a /p network: p one bits followed by 32 - p zero bits. */
  function PrefixMask(p: nat): nat
    requires p <= 32
  {
    Pow2Monotone(32 - p, 32);
    Pow2Values();
    AddressCount - Pow2(32 - p)
  }

  /** The host mask of a /p network, all ones XOR the netmask. */
  function HostMask(p: nat): nat
    requires p <= 32
  {
    Pow2(32 - p) - 1
  }

  /**
    The prefix length of a netmask written as a 32-bit value, or None when the
    mask is not contiguous. The smallest matching length is searched from `from`.
   */
  function PrefixFrom(m: nat, from: nat): (r: Option<nat>)
    requires from <= 33
    ensures r.Some? ==> from <= r.value <= 32 && PrefixMask(r.value) == m
    ensures r.None? ==> forall p :: from <= p <= 32 ==> PrefixMask(p) != m
    decreases 33 - from
  {
    if from == 33 then None
    else if PrefixMask(from) == m then Some(from)
    else PrefixFrom(m, from + 1)
  }

  function PrefixOfMask(m: nat): (r: Option<nat>)
    ensures r.Some? ==> r.value <= 32 && PrefixMask(r.value) == m
    ensures r.None? ==> forall p :: 0 <= p <= 32 ==> PrefixMask(p) != m
  {
    PrefixFrom(m, 0)
  }

  /** The network address of `a` in a /p network. */
  function NetworkAddress(a: nat, p: nat): nat
    requires p <= 32
  {
    BitAnd(a, PrefixMask(p), 32)
  }

  /** The broadcast address of the /p network holding `a`. */
  function BroadcastAddress(a: nat, p: nat): nat
    requires p <= 32
  {
    BitOr(NetworkAddress(a, p), HostMask(p), 32)
  }

  /** `address in network`: the address masked by the prefix is the network address. */
  predicate InNetwork(a: nat, net: nat, p: nat)
    requires p <= 32
  {
    NetworkAddress(a, p) == net
  }

  /**
    The network and broadcast addresses are the start and end of the aligned
    block of 2^(32-p) addresses holding `a`.
   */
  lemma CidrArithmetic(a: nat, p: nat)
    requires IsAddress(a) && p <= 32
    ensures NetworkAddress(a, p) == a - a % Pow2(32 - p)
    ensures NetworkAddress(a, p) % Pow2(32 - p) == 0
    ensures BroadcastAddress(a, p) == NetworkAddress(a, p) + Pow2(32 - p) - 1
    ensures NetworkAddress(a, p) <= a <= BroadcastAddress(a, p)
    ensures IsAddress(BroadcastAddress(a, p))
  {
    NetworkIsAligned(a, p);
    BroadcastEndsBlock(a, p);
    BlockFits(a, p);
  }

  lemma NetworkIsAligned(a: nat, p: nat)
    requires IsAddress(a) && p <= 32
    ensures NetworkAddress(a, p) == a - a % Pow2(32 - p)
    ensures NetworkAddress(a, p) % Pow2(32 - p) == 0
  {
    NetworkRoundsDown(a, p);
    RoundedDownAligned(a, Pow2(32 - p));
  }

  lemma NetworkRoundsDown(a: nat, p: nat)
    requires IsAddress(a) && p <= 32
    ensures NetworkAddress(a, p) == a - a % Pow2(32 - p)
  {
    AddressBelowPow2(a);
    AndHighOnes(a, 32, 32 - p);
    assert PrefixMask(p) == Pow2(32) - Pow2(32 - p) by {
      Pow2Values();
    }
  }

  lemma AddressBelowPow2(a: nat)
    requires IsAddress(a)
    ensures a < Pow2(32)
  {
    Pow2Values();
  }

  lemma RoundedDownAligned(a: nat, d: nat)
    requires d > 0
    ensures (a - a % d) % d == 0 && (a - a % d) / d == a / d
  {
    var q := a / d;
    assert a == d * q + a % d;
    DivModUnique(a - a % d, d, q, 0);
  }

  lemma BroadcastEndsBlock(a: nat, p: nat)
    requires IsAddress(a) && p <= 32
    ensures BroadcastAddress(a, p) == NetworkAddress(a, p) + Pow2(32 - p) - 1
  {
    NetworkIsAligned(a, p);
    var size := Pow2(32 - p);
    Pow2Values();
    OrLowOnes(NetworkAddress(a, p), 32, 32 - p);
    assert HostMask(p) == size - 1;
  }

  lemma BlockFits(a: nat, p: nat)
    requires IsAddress(a) && p <= 32
    ensures a - a % Pow2(32 - p) + Pow2(32 - p) <= AddressCount
  {
    assert Pow2(32 - p) * Pow2(p) == AddressCount by {
      Pow2Add(32 - p, p);
      Pow2Values();
    }
    RoundedBlockFits(a, Pow2(32 - p), Pow2(p));
  }

  /** Rounding down to a multiple of d and adding d stays within d * m when a is below it. */
  lemma RoundedBlockFits(a: nat, d: nat, m: nat)
    requires d > 0 && a < d * m
    ensures a - a % d + d <= d * m
  {
    var q := a / d;
    assert a - a % d == d * q by {
      assert a == d * q + a % d;
    }
    DivLt(a, d, m);
    MulLe(d, q + 1, m);
    assert d * (q + 1) == d * q + d;
  }

  /** A number below d * m has quotient below m. */
  lemma DivLt(a: nat, d: nat, m: nat)
    requires d > 0 && a < d * m
    ensures a / d < m
  {
    var q := a / d;
    assert a == d * q + a % d;
    if q >= m {
      MulLe(d, m, q);
      assert false;
    }
  }

  /** Membership in a network is exactly lying between its network and broadcast addresses. */
  lemma InNetworkIffBetween(a: nat, b: nat, p: nat)
    requires IsAddress(a) && IsAddress(b) && p <= 32
    ensures InNetwork(b, NetworkAddress(a, p), p)
        <==> NetworkAddress(a, p) <= b <= BroadcastAddress(a, p)
  {
    CidrArithmetic(a, p);
    NetworkIsAligned(b, p);
    SameBlock(a, b, Pow2(32 - p));
  }

  /** `b` rounds down to the same multiple of d as `a` exactly when it lies in a's block. */
  lemma SameBlock(a: nat, b: nat, d: nat)
    requires d > 0
    ensures b - b % d == a - a % d <==> a - a % d <= b <= a - a % d + d - 1
  {
    var q := a / d;
    assert a == d * q + a % d;
    if a - a % d <= b <= a - a % d + d - 1 {
      DivModUnique(b, d, q, b - (a - a % d));
    }
  }

  // ---------------------------------------------------------------------------
  // Dotted-quad text
  // ---------------------------------------------------------------------------

  /** The four octets of an address, most significant first. */
  function Octets(a: nat): (r: seq<nat>)
    ensures |r| == 4
  {
    var r1 := a / 256;
    var r2 := r1 / 256;
    [r2 / 256, r2 % 256, r1 % 256, a % 256]
  }

  function FromOctets(o: seq<nat>): nat
    requires |o| == 4
  {
    ((o[0] * 256 + o[1]) * 256 + o[2]) * 256 + o[3]
  }

  lemma OctetsRoundTrip(a: nat)
    requires IsAddress(a)
    ensures forall i :: 0 <= i < 4 ==> Octets(a)[i] < 256
    ensures FromOctets(Octets(a)) == a
  {
  }

  lemma FromOctetsRoundTrip(o: seq<nat>)
    requires |o| == 4 && forall i :: 0 <= i < 4 ==> o[i] < 256
    ensures IsAddress(FromOctets(o))
    ensures Octets(FromOctets(o)) == o
  {
    var a := FromOctets(o);
    var r2 := o[0] * 256 + o[1];
    var r1 := r2 * 256 + o[2];
    DivModUnique(a, 256, r1, o[3]);
    DivModUnique(r1, 256, r2, o[2]);
    DivModUnique(r2, 256, o[0], o[1]);
  }

  /** `str(IPv4Address(a))`. */
  function Dotted(a: nat): string {
    var o := Octets(a);
    Join([NatToString(o[0]), NatToString(o[1]), NatToString(o[2]), NatToString(o[3])], ".")
  }

  /** Python's `_parse_octet`: ASCII digits, at most three, no leading zero, at most 255. */
  function ParseOctet(s: string): (r: Option<nat>)
    ensures r.Some? ==> r.value < 256
  {
    if |s| == 0 || !AllDigits(s) || |s| > 3 || (s != "0" && s[0] == '0') then None
    else if DigitsValue(s) > 255 then None
    else Some(DigitsValue(s))
  }

  /** `IPv4Address(s)`: exactly four dot-separated octets. */
  function ParseAddress(s: string): (r: Option<nat>)
    ensures r.Some? ==> IsAddress(r.value)
  {
    var parts := Split(s, '.');
    if |parts| != 4 then None
    else
      var o0 := ParseOctet(parts[0]);
      var o1 := ParseOctet(parts[1]);
      var o2 := ParseOctet(parts[2]);
      var o3 := ParseOctet(parts[3]);
      if o0.None? || o1.None? || o2.None? || o3.None? then None
      else
        var o := [o0.value, o1.value, o2.value, o3.value];
        FromOctetsRoundTrip(o);
        Some(FromOctets(o))
  }

  lemma {:induction false} ShortNumeral(n: nat)
    requires n < 256
    ensures |NatToString(n)| <= 3
  {
    if n >= 10 {
      assert NatToString(n) == NatToString(n / 10) + [DigitChar(n % 10)];
      if n >= 100 {
        assert NatToString(n / 10) == NatToString(n / 100) + [DigitChar((n / 10) % 10)];
      }
    }
  }

  lemma ParseOctetOfNumeral(n: nat)
    requires n < 256
    ensures ParseOctet(NatToString(n)) == Some(n)
  {
    ShortNumeral(n);
    DigitsOfNatToString(n);
  }

  lemma ParseOctetCanonical(s: string)
    requires ParseOctet(s).Some?
    ensures NatToString(ParseOctet(s).value) == s
  {
    NatToStringOfDigits(s);
  }

  /** Parsing the dotted rendering of an address gives the address back. */
  lemma ParseDotted(a: nat)
    requires IsAddress(a)
    ensures ParseAddress(Dotted(a)) == Some(a)
  {
    var o := Octets(a);
    OctetsRoundTrip(a);
    var parts := [NatToString(o[0]), NatToString(o[1]), NatToString(o[2]), NatToString(o[3])];
    assert forall i :: 0 <= i < 4 ==> '.' !in parts[i];
    SplitJoin(parts, '.');
    ParseOctetOfNumeral(o[0]);
    ParseOctetOfNumeral(o[1]);
    ParseOctetOfNumeral(o[2]);
    ParseOctetOfNumeral(o[3]);
  }

  /** Every text that parses as an address is the canonical rendering of that address. */
  lemma DottedOfParse(s: string)
    requires ParseAddress(s).Some?
    ensures Dotted(ParseAddress(s).value) == s
  {
    var parts := Split(s, '.');
    var o := [ParseOctet(parts[0]).value, ParseOctet(parts[1]).value,
              ParseOctet(parts[2]).value, ParseOctet(parts[3]).value];
    FromOctetsRoundTrip(o);
    ParseOctetCanonical(parts[0]);
    ParseOctetCanonical(parts[1]);
    ParseOctetCanonical(parts[2]);
    ParseOctetCanonical(parts[3]);
    JoinSplit(s, '.');
    assert parts == [parts[0], parts[1], parts[2], parts[3]];
  }

  // ---------------------------------------------------------------------------
  // IPv4Network(text, strict=False)
  // ---------------------------------------------------------------------------

  /** A parsed network: its (masked) network address and prefix length. */
  datatype Network = Network(address: nat, prefix: nat)

  predicate ValidNetwork(n: Network) {
    IsAddress(n.address) && n.prefix <= 32 && NetworkAddress(n.address, n.prefix) == n.address
  }

  /**
    The prefix length of the text after `/`: a decimal length up to 32, else a
    dotted netmask, else a dotted host mask.
   */
  function ParseMask(s: string): (r: Option<nat>)
    ensures r.Some? ==> r.value <= 32
  {
    if |s| > 0 && AllDigits(s) && DigitsValue(s) <= 32 then Some(DigitsValue(s))
    else
      match ParseAddress(s)
      case None => None
      case Some(m) =>
        match PrefixOfMask(m)
        case Some(p) => Some(p)
        case None => PrefixOfMask(AddressCount - 1 - m)
  }

  /** `str(IPv4Network(s, strict=False))` as a value, or None where Python raises. */
  function ParseNetwork(s: string): (r: Option<Network>)
    ensures r.Some? ==> ValidNetwork(r.value)
  {
    var parts := Split(s, '/');
    if |parts| > 2 then None
    else
      var mask := if |parts| == 1 then Some(32) else ParseMask(parts[1]);
      match ParseAddress(parts[0])
      case None => None
      case Some(a) =>
        if mask.None? then None
        else
          var p := mask.value;
          MaskedIsValid(a, p);
          Some(Network(NetworkAddress(a, p), p))
  }

  /** Masking an address with a prefix gives a network in canonical form. */
  lemma MaskedIsValid(a: nat, p: nat)
    requires IsAddress(a) && p <= 32
    ensures ValidNetwork(Network(NetworkAddress(a, p), p))
  {
    var n := NetworkAddress(a, p);
    NetworkIsAligned(a, p);
    assert n <= a;
    NetworkRoundsDown(n, p);
  }

  /** `str(network)`: the network address, a slash, and the prefix length. */
  function NetworkText(n: Network): string {
    Dotted(n.address) + "/" + NatToString(n.prefix)
  }

  /** The text of a network parses back to the same network. */
  lemma ParseNetworkText(n: Network)
    requires ValidNetwork(n)
    ensures ParseNetwork(NetworkText(n)) == Some(n)
  {
    var d := Dotted(n.address);
    var q := NatToString(n.prefix);
    assert '/' !in d by {
      var o := Octets(n.address);
      assert forall x :: x in d ==> x == '.' || IsDigit(x) by {
        JoinCharacters([NatToString(o[0]), NatToString(o[1]), NatToString(o[2]), NatToString(o[3])]);
      }
    }
    assert '/' !in q by {
      assert forall i :: 0 <= i < |q| ==> IsDigit(q[i]);
    }
    SplitJoin([d, q], '/');
    assert NetworkText(n) == Join([d, q], "/");
    ParseDotted(n.address);
    DigitsOfNatToString(n.prefix);
  }

  /** A dot-join of digit strings holds only digits and dots. */
  lemma {:induction false} JoinCharacters(parts: seq<string>)
    requires forall i :: 0 <= i < |parts| ==> AllDigits(parts[i])
    ensures forall x :: x in Join(parts, ".") ==> x == '.' || IsDigit(x)
  {
    if |parts| > 1 {
      JoinCharacters(parts[1..]);
      assert Join(parts, ".") == parts[0] + "." + Join(parts[1..], ".");
    }
  }

  /**
    `network.hosts()`: every address strictly between network and broadcast,
    except that a /31 yields both its addresses and a /32 its single address.
   */
  function Hosts(n: Network): (r: seq<nat>)
    requires ValidNetwork(n)
  {
    var size := Pow2(32 - n.prefix);
    if n.prefix == 32 then [n.address]
    else if n.prefix == 31 then [n.address, n.address + 1]
    else seq(size - 2, i requires 0 <= i < size - 2 => n.address + 1 + i)
  }

  /** The hosts are the network's own addresses, in increasing order and without repeats. */
  lemma HostsInNetwork(n: Network)
    requires ValidNetwork(n)
    ensures forall i :: 0 <= i < |Hosts(n)| ==> InNetwork(Hosts(n)[i], n.address, n.prefix)
    ensures forall i, j :: 0 <= i < j < |Hosts(n)| ==> Hosts(n)[i] < Hosts(n)[j]
    ensures n.prefix < 31 ==> |Hosts(n)| == Pow2(32 - n.prefix) - 2
    ensures n.prefix < 31 ==> n.address !in Hosts(n) && BroadcastAddress(n.address, n.prefix) !in Hosts(n)
  {
    CidrArithmetic(n.address, n.prefix);
    var hs := Hosts(n);
    forall i | 0 <= i < |hs|
      ensures InNetwork(hs[i], n.address, n.prefix)
    {
      InNetworkIffBetween(n.address, hs[i], n.prefix);
    }
    if n.prefix < 31 {
      Pow2Monotone(2, 32 - n.prefix);
      assert Pow2(2) == 4;
    }
  }

  // ---------------------------------------------------------------------------
  // format_network_range
  // ---------------------------------------------------------------------------

  /** The range label of a subnet text; the text itself when it does not parse. */
  function FormatNetworkRange(s: string): string {
    match ParseNetwork(s)
    case None => s
    case Some(n) => RangeLabel(n)
  }

  /** The label of a parsed network: a wildcard pattern for /24, /16 and /8, else first → last. */
  function RangeLabel(n: Network): string
    requires ValidNetwork(n)
  {
    SplitDotted(n.address);
    var parts := Split(Dotted(n.address), '.');
    if n.prefix == 24 then Join(parts[..3], ".") + ".*"
    else if n.prefix == 16 then Join(parts[..2], ".") + ".*.*"
    else if n.prefix == 8 then parts[0] + ".*.*.*"
    else Dotted(n.address) + " → " + Dotted(BroadcastAddress(n.address, n.prefix))
  }

  /** The leading octets of `a` rendered and dot-joined. */
  function OctetPrefix(a: nat, k: nat): string
    requires 1 <= k <= 4
  {
    var o := Octets(a);
    Join([NatToString(o[0]), NatToString(o[1]), NatToString(o[2]), NatToString(o[3])][..k], ".")
  }

  lemma SplitDotted(a: nat)
    ensures |Split(Dotted(a), '.')| == 4
    ensures forall k :: 1 <= k <= 4 ==> Join(Split(Dotted(a), '.')[..k], ".") == OctetPrefix(a, k)
  {
    var o := Octets(a);
    var parts := [NatToString(o[0]), NatToString(o[1]), NatToString(o[2]), NatToString(o[3])];
    SplitJoin(parts, '.');
  }

  /** Addresses of one /24, /16 or /8 block share their leading 3, 2 or 1 octets. */
  lemma SameBlockSameOctets(a: nat, b: nat, p: nat)
    requires IsAddress(a) && IsAddress(b)
    requires p == 24 || p == 16 || p == 8
    requires NetworkAddress(a, p) == NetworkAddress(b, p)
    ensures OctetPrefix(a, p / 8) == OctetPrefix(b, p / 8)
  {
    Pow2Values();
    NetworkIsAligned(a, p);
    NetworkIsAligned(b, p);
    var size := Pow2(32 - p);
    RoundedDownAligned(a, size);
    RoundedDownAligned(b, size);
    assert a / size == b / size;
    if p == 16 {
      DivDiv(a, 256, 256);
      DivDiv(b, 256, 256);
    } else if p == 8 {
      DivDiv(a, 256, 256);
      DivDiv(b, 256, 256);
      DivDiv(a, 65536, 256);
      DivDiv(b, 65536, 256);
    }
    OctetPrefixOfQuotient(a, b, p / 8);
  }

  /** The first k octets depend only on the address divided by 2^(8*(4-k)). */
  lemma OctetPrefixOfQuotient(a: nat, b: nat, k: nat)
    requires 1 <= k <= 3
    requires k == 3 ==> a / 256 == b / 256
    requires k == 2 ==> a / 256 / 256 == b / 256 / 256
    requires k == 1 ==> a / 256 / 256 / 256 == b / 256 / 256 / 256
    ensures OctetPrefix(a, k) == OctetPrefix(b, k)
  {
    var oa := Octets(a);
    var ob := Octets(b);
    var la := [NatToString(oa[0]), NatToString(oa[1]), NatToString(oa[2]), NatToString(oa[3])];
    var lb := [NatToString(ob[0]), NatToString(ob[1]), NatToString(ob[2]), NatToString(ob[3])];
    assert oa[0] == ob[0];
    if k >= 2 {
      assert oa[1] == ob[1];
    }
    if k == 3 {
      assert oa[2] == ob[2];
    }
    assert la[..k] == lb[..k];
  }

  /** Dividing twice is dividing by the product. */
  lemma DivDiv(a: nat, b: nat, c: nat)
    requires b > 0 && c > 0
    ensures a / b / c == a / (b * c)
  {
    var q := a / b;
    assert a == b * q + a % b;
    assert q == c * (q / c) + q % c;
    MulLe(b, q % c, c - 1);
    assert a == (b * c) * (q / c) + (b * (q % c) + a % b);
    DivModUnique(a, b * c, q / c, b * (q % c) + a % b);
  }

  /** The wildcard tail shown for a /24, /16 or /8 subnet. */
  function Wildcards(p: nat): string {
    if p == 24 then ".*" else if p == 16 then ".*.*" else ".*.*.*"
  }

  /**
    For a /24, /16 or /8 subnet the label is the leading octets of every
    address inside the subnet followed by one `.*` per free octet; a text that
    does not parse is shown unchanged.
   */
  lemma FormatNetworkRangeCoversSubnet(s: string, b: nat)
    requires IsAddress(b)
    ensures ParseNetwork(s).None? ==> FormatNetworkRange(s) == s
    ensures ParseNetwork(s).Some? && ParseNetwork(s).value.prefix in {8, 16, 24}
              && InNetwork(b, ParseNetwork(s).value.address, ParseNetwork(s).value.prefix)
            ==> var p := ParseNetwork(s).value.prefix;
                FormatNetworkRange(s) == OctetPrefix(b, p / 8) + Wildcards(p)
  {
    match ParseNetwork(s)
    case None =>
    case Some(n) =>
      if n.prefix in {8, 16, 24} && InNetwork(b, n.address, n.prefix) {
        BlockLabel(n);
        SameBlockSameOctets(n.address, b, n.prefix);
      }
  }

  lemma BlockLabel(n: Network)
    requires ValidNetwork(n) && n.prefix in {8, 16, 24}
    ensures RangeLabel(n) == OctetPrefix(n.address, n.prefix / 8) + Wildcards(n.prefix)
  {
    SplitDotted(n.address);
    assert Join(Split(Dotted(n.address), '.')[..1], ".") == Split(Dotted(n.address), '.')[0];
  }

  /** Any other prefix length is labelled by its first and last address, first no greater than last. */
  lemma FormatNetworkRangeOtherPrefix(s: string)
    requires ParseNetwork(s).Some?
    requires ParseNetwork(s).value.prefix !in {8, 16, 24}
    ensures var n := ParseNetwork(s).value;
      FormatNetworkRange(s) == Dotted(n.address) + " → " + Dotted(BroadcastAddress(n.address, n.prefix))
      && n.address <= BroadcastAddress(n.address, n.prefix)
  {
    var n := ParseNetwork(s).value;
    CidrArithmetic(n.address, n.prefix);
  }
}

=== FILE: mac.dfy ===
/**
  MAC address handling: the padding rule applied to every MAC read from the
  neighbour cache (`pad_mac_address`, wol_caster.py:551-582), the conversion
  of the matched neighbour-cache token (wol_caster.py:506-549) and the
  Wake-on-LAN magic packet (`create_magic_packet`, wol_caster.py:979-999).
 */
module Mac {
  import opened Wrappers
  import opened Text
  import Ipv4

  type Byte = b: nat | b < 256

  /** `mac.replace(':', '').replace('-', '')`. */
  function StripSeparators(s: string): (r: string)
    ensures ':' !in r && '-' !in r
    ensures forall x :: x in r <==> x in s && x != ':' && x != '-'
    ensures ':' !in s && '-' !in s ==> r == s
  {
    RemoveChar(RemoveChar(s, ':'), '-')
  }

  function Zeros(n: nat): (r: string)
    ensures |r| == n && forall i :: 0 <= i < n ==> r[i] == '0'
  {
    seq(n, _ => '0')
  }

  /** The twelve characters the padding rule keeps: zeros in the earliest slots, or the first twelve. */
  function Normalize12(clean: string): (r: string)
    ensures |r| == 12
    ensures forall x :: x in r ==> x == '0' || x in clean
  {
    if |clean| <= 12 then Zeros(12 - |clean|) + clean else clean[..12]
  }

  /** `':'.join(s[i:i+2] for i in range(0, len(s), 2))`: two-character groups joined by colons. */
  function Pairs(s: string): string
    decreases |s|
  {
    if |s| <= 2 then s else s[..2] + ":" + Pairs(s[2..])
  }

  /** Six two-character groups separated by colons. */
  predicate IsMacShape(r: string) {
    |r| == 17 && forall i :: 0 <= i < 17 ==> (r[i] == ':' <==> i % 3 == 2)
  }

  /** Grouping an even-length, colon-free text puts a colon after every second character. */
  lemma {:induction false} PairsLayout(s: string, k: nat)
    requires k >= 1 && |s| == 2 * k && ':' !in s
    ensures |Pairs(s)| == 3 * k - 1
    ensures forall i :: 0 <= i < 3 * k - 1 ==> (Pairs(s)[i] == ':' <==> i % 3 == 2)
    ensures forall i :: 0 <= i < 3 * k - 1 && i % 3 != 2 ==> Pairs(s)[i] == s[i - i / 3]
  {
    if k > 1 {
      var tail := s[2..];
      assert forall x :: x in tail ==> x in s;
      PairsLayout(tail, k - 1);
      var p := Pairs(s);
      assert p == s[..2] + ":" + Pairs(tail);
      forall i | 3 <= i < 3 * k - 1
        ensures (p[i] == ':' <==> i % 3 == 2)
        ensures i % 3 != 2 ==> p[i] == s[i - i / 3]
      {
        assert p[i] == Pairs(tail)[i - 3];
        assert (i - 3) % 3 == i % 3 && (i - 3) / 3 == i / 3 - 1;
        if i % 3 != 2 {
          assert Pairs(tail)[i - 3] == tail[(i - 3) - (i - 3) / 3];
        }
      }
    }
  }

  /** Removing the colons of a grouped colon-free text gives the text back. */
  lemma {:induction false} PairsUngroup(s: string)
    requires ':' !in s
    ensures RemoveChar(Pairs(s), ':') == s
    decreases |s|
  {
    if |s| > 2 {
      var tail := s[2..];
      assert forall x :: x in tail ==> x in s;
      assert forall x :: x in s[..2] ==> x in s;
      PairsUngroup(tail);
      RemoveCharConcat(s[..2] + ":", Pairs(tail), ':');
      RemoveCharConcat(s[..2], ":", ':');
      assert s[..2] + tail == s;
    }
  }

  /**
    The padding rule: an empty address is returned as is; otherwise the
    separators are removed, the rest is padded with leading zeros (or cut) to
    twelve characters, and the twelve are written as six colon-separated pairs.
   */
  function PadMacAddress(s: string): (r: string)
    ensures r == "" <==> s == ""
    ensures s != "" ==> IsMacShape(r)
    ensures s != "" ==> StripSeparators(r) == Normalize12(StripSeparators(s))
  {
    if s == "" then s
    else
      var twelve := Normalize12(StripSeparators(s));
      PairsLayout(twelve, 6);
      PairsUngroup(twelve);
      Pairs(twelve)
  }

  /** What is kept of the characters: a short address keeps all of them as a suffix after zeros, a long one its first twelve. */
  lemma PadKeepsCharacters(s: string)
    requires s != ""
    ensures var c := StripSeparators(s);
      && (|c| <= 12 ==> StripSeparators(PadMacAddress(s)) == Zeros(12 - |c|) + c)
      && (|c| > 12 ==> StripSeparators(PadMacAddress(s)) == c[..12])
  {
  }

  /** Applying the padding rule to its own output changes nothing. */
  lemma PadMacIdempotent(s: string)
    ensures PadMacAddress(PadMacAddress(s)) == PadMacAddress(s)
  {
    if s != "" {
      var r := PadMacAddress(s);
      var twelve := Normalize12(StripSeparators(s));
      assert StripSeparators(r) == twelve;
      assert Normalize12(twelve) == twelve by {
        assert twelve[..12] == twelve;
      }
    }
  }

  /** Grouping the concatenation of two-character pieces joins those pieces with colons. */
  lemma {:induction false} PairsOfConcat(q: seq<string>)
    requires |q| >= 1 && forall i :: 0 <= i < |q| ==> |q[i]| == 2
    ensures Pairs(Concat(q)) == Join(q, ":")
  {
    if |q| > 1 {
      PairsOfConcat(q[1..]);
      var c := Concat(q);
      assert c == q[0] + Concat(q[1..]);
      assert c[..2] == q[0] && c[2..] == Concat(q[1..]);
    } else {
      assert Concat(q) == q[0] + Concat([]);
    }
  }

  /** Six colon-separated octets, each one or two characters and free of separators. */
  predicate IsOctetList(o: seq<string>) {
    |o| == 6 && forall i :: 0 <= i < 6 ==> 1 <= |o[i]| <= 2 && ':' !in o[i] && '-' !in o[i]
  }

  lemma StripOctetList(o: seq<string>)
    requires IsOctetList(o)
    ensures StripSeparators(Join(o, ":")) == Concat(o)
  {
    RemoveFromJoin(o, ':');
    assert '-' !in Concat(o) by {
      ConcatChars(o);
    }
  }

  lemma {:induction false} ConcatChars(o: seq<string>)
    ensures forall x :: x in Concat(o) ==> exists i :: 0 <= i < |o| && x in o[i]
  {
    if |o| > 0 {
      ConcatChars(o[1..]);
      forall x | x in Concat(o) ensures exists i :: 0 <= i < |o| && x in o[i] {
        if x !in o[0] {
          var i :| 0 <= i < |o[1..]| && x in o[1..][i];
          assert x in o[i + 1];
        }
      }
    }
  }

  /**
    The documented case: an address whose first octet alone lost its leading
    zero comes back with that zero restored and nothing else changed.
   */
  lemma PadMacFirstOctet(o: seq<string>)
    requires IsOctetList(o)
    requires |o[0]| == 1 && forall i :: 1 <= i < 6 ==> |o[i]| == 2
    ensures PadMacAddress(Join(o, ":")) == Join(["0" + o[0]] + o[1..], ":")
  {
    StripOctetList(o);
    var q := ["0" + o[0]] + o[1..];
    assert Concat(q) == "0" + Concat(o) by {
      assert q[1..] == o[1..];
      assert Concat(o) == o[0] + Concat(o[1..]);
    }
    assert |Concat(o)| == 11 by {
      ConcatSix(o);
    }
    assert Normalize12(Concat(o)) == Concat(q) by {
      assert Zeros(1) == "0";
    }
    PairsOfConcat(q);
  }

  lemma ConcatSix(o: seq<string>)
    requires |o| == 6
    ensures Concat(o) == o[0] + o[1] + o[2] + o[3] + o[4] + o[5]
  {
    assert Concat(o[5..]) == o[5] by {
      assert o[5..][1..] == o[6..];
    }
    assert Concat(o[4..]) == o[4] + o[5] by {
      assert o[4..][1..] == o[5..];
    }
    assert Concat(o[3..]) == o[3] + o[4] + o[5] by {
      assert o[3..][1..] == o[4..];
    }
    assert Concat(o[2..]) == o[2] + o[3] + o[4] + o[5] by {
      assert o[2..][1..] == o[3..];
    }
    assert Concat(o[1..]) == o[1] + o[2] + o[3] + o[4] + o[5] by {
      assert o[1..][1..] == o[2..];
    }
  }

  /**
    Zeros go to the front, not into the octet that lost them: when only the
    fifth octet is short, the pad shifts every character before it one place
    right, so `00:3E:E1:B7:5:54` (the device 00:3E:E1:B7:05:54) becomes
    `00:03:EE:1B:75:54`.
   */
  lemma PadMacInnerOctet(o: seq<string>)
    requires IsOctetList(o)
    requires |o[4]| == 1 && forall i :: 0 <= i < 6 && i != 4 ==> |o[i]| == 2
    ensures PadMacAddress(Join(o, ":")) == Join(
      ["0" + o[0][..1], o[0][1..] + o[1][..1], o[1][1..] + o[2][..1],
       o[2][1..] + o[3][..1], o[3][1..] + o[4], o[5]], ":")
  {
    StripOctetList(o);
    ConcatSix(o);
    var q := ["0" + o[0][..1], o[0][1..] + o[1][..1], o[1][1..] + o[2][..1],
              o[2][1..] + o[3][..1], o[3][1..] + o[4], o[5]];
    ConcatSix(q);
    assert o[0] == o[0][..1] + o[0][1..] && o[1] == o[1][..1] + o[1][1..];
    assert o[2] == o[2][..1] + o[2][1..] && o[3] == o[3][..1] + o[3][1..];
    assert Concat(q) == "0" + Concat(o);
    assert Normalize12(Concat(o)) == Concat(q) by {
      assert Zeros(1) == "0";
    }
    PairsOfConcat(q);
  }

  /**
    When every octet is a single character the six characters are packed to
    the right behind six zeros: `1:2:3:4:5:6` becomes `00:00:00:12:34:56`.
   */
  lemma PadMacAllShort(o: seq<string>)
    requires IsOctetList(o)
    requires forall i :: 0 <= i < 6 ==> |o[i]| == 1
    ensures PadMacAddress(Join(o, ":")) == Join(["00", "00", "00", o[0] + o[1], o[2] + o[3], o[4] + o[5]], ":")
  {
    var q := ["00", "00", "00", o[0] + o[1], o[2] + o[3], o[4] + o[5]];
    AllShortPieces(o, q);
    PadOfShortOctets(o, q);
  }

  lemma AllShortPieces(o: seq<string>, q: seq<string>)
    requires IsOctetList(o)
    requires forall i :: 0 <= i < 6 ==> |o[i]| == 1
    requires q == ["00", "00", "00", o[0] + o[1], o[2] + o[3], o[4] + o[5]]
    ensures |q| >= 1 && forall i :: 0 <= i < |q| ==> |q[i]| == 2
    ensures |Concat(o)| <= 12 && Concat(q) == Zeros(12 - |Concat(o)|) + Concat(o)
  {
    assert |q| == 6 && forall i :: 0 <= i < 6 ==> |q[i]| == 2;
    ConcatOfShortPairs(o, q);
  }

  lemma ConcatOfShortPairs(o: seq<string>, q: seq<string>)
    requires |o| == 6 && forall i :: 0 <= i < 6 ==> |o[i]| == 1
    requires q == ["00", "00", "00", o[0] + o[1], o[2] + o[3], o[4] + o[5]]
    ensures |Concat(o)| == 6 && Concat(q) == Zeros(6) + Concat(o)
  {
    ConcatSix(o);
    ConcatSix(q);
    var z := "00" + "00" + "00";
    assert z == Zeros(6);
    assert Concat(q) == z + (o[0] + o[1] + o[2] + o[3] + o[4] + o[5]);
  }

  /** A short octet list pads to the pieces `q` whenever `q` concatenates to the zero-padded characters. */
  lemma PadOfShortOctets(o: seq<string>, q: seq<string>)
    requires IsOctetList(o) && |Concat(o)| <= 12
    requires |q| >= 1 && forall i :: 0 <= i < |q| ==> |q[i]| == 2
    requires Concat(q) == Zeros(12 - |Concat(o)|) + Concat(o)
    ensures PadMacAddress(Join(o, ":")) == Join(q, ":")
  {
    StripOctetList(o);
    PairsOfConcat(q);
  }

  /** `s.replace(a, b)` for single characters. */
  function ReplaceChar(s: string, a: char, b: char): (r: string)
    ensures |r| == |s|
    ensures forall i :: 0 <= i < |s| ==> r[i] == (if s[i] == a then b else s[i])
  {
    seq(|s|, i requires 0 <= i < |s| => if s[i] == a then b else s[i])
  }

  /** The MAC read from a neighbour-cache token: upper-cased, dashes as colons, then padded. */
  function MacFromArpToken(token: string): (r: string)
    ensures r == "" <==> token == ""
    ensures token != "" ==> IsMacShape(r) && ':' in r
  {
    PadMacAddress(ReplaceChar(Upper(token), '-', ':'))
  }

  // ---------------------------------------------------------------------------
  // Magic packet
  // ---------------------------------------------------------------------------

  predicate IsUpperHex(c: char) {
    '0' <= c <= '9' || 'A' <= c <= 'F'
  }

  predicate IsUpperHexText(h: string) {
    forall i :: 0 <= i < |h| ==> IsUpperHex(h[i])
  }

  lemma UpperHexOfHex(c: char)
    ensures IsHexDigit(c) <==> IsUpperHex(UpperChar(c))
  {
  }

  function HexValue(c: char): (v: nat)
    requires IsUpperHex(c)
    ensures v < 16
  {
    if c <= '9' then c as nat - '0' as nat else c as nat - 'A' as nat + 10
  }

  function HexChar(v: nat): (c: char)
    requires v < 16
    ensures IsUpperHex(c) && HexValue(c) == v
  {
    if v < 10 then ('0' as nat + v) as char else ('A' as nat + v - 10) as char
  }

  /** `bytes.fromhex` on an upper-case hex text of even length. */
  function HexBytes(h: string): (r: seq<Byte>)
    requires |h| % 2 == 0 && forall i :: 0 <= i < |h| ==> IsUpperHex(h[i])
    ensures |r| == |h| / 2
    ensures forall i :: 0 <= i < |r| ==> r[i] == HexValue(h[2 * i]) * 16 + HexValue(h[2 * i + 1])
  {
    seq(|h| / 2, i requires 0 <= i < |h| / 2 => HexValue(h[2 * i]) * 16 + HexValue(h[2 * i + 1]))
  }

  /** Upper-case hex text of a byte sequence, two characters per byte. */
  function HexText(b: seq<Byte>): (r: string)
    ensures |r| == 2 * |b|
    ensures forall i :: 0 <= i < |r| ==> IsUpperHex(r[i])
  {
    if |b| == 0 then "" else [HexChar(b[0] / 16), HexChar(b[0] % 16)] + HexText(b[1..])
  }

  /** Byte `i` is written at positions `2i` and `2i + 1`, high digit first. */
  lemma {:induction false} HexTextAt(b: seq<Byte>, i: nat)
    requires i < |b|
    ensures HexText(b)[2 * i] == HexChar(b[i] / 16) && HexText(b)[2 * i + 1] == HexChar(b[i] % 16)
  {
    if i > 0 {
      HexTextAt(b[1..], i - 1);
      var head := [HexChar(b[0] / 16), HexChar(b[0] % 16)];
      assert HexText(b) == head + HexText(b[1..]);
    }
  }

  /** Decoding the hex text of a byte sequence gives the bytes back. */
  lemma HexBytesOfText(b: seq<Byte>)
    ensures HexBytes(HexText(b)) == b
  {
    var h := HexText(b);
    forall i | 0 <= i < |b| ensures HexBytes(h)[i] == b[i] {
      HexTextAt(b, i);
    }
  }

  /** `b * n` on bytes: `n` copies of `b` one after another. */
  function Copies(b: seq<Byte>, n: nat): (r: seq<Byte>)
    requires |b| > 0
    ensures |r| == n * |b|
    ensures forall k :: 0 <= k < |r| ==> r[k] == b[k % |b|]
  {
    if n == 0 then []
    else
      var rest := Copies(b, n - 1);
      assert n * |b| == (n - 1) * |b| + |b|;
      CopiesStep(b, rest);
      b + rest
  }

  /** One more copy in front keeps every position equal to the byte at its offset modulo the length. */
  lemma CopiesStep(b: seq<Byte>, rest: seq<Byte>)
    requires |b| > 0 && forall k :: 0 <= k < |rest| ==> rest[k] == b[k % |b|]
    ensures forall k :: 0 <= k < |b| + |rest| ==> (b + rest)[k] == b[k % |b|]
  {
    forall k | 0 <= k < |b| + |rest| ensures (b + rest)[k] == b[k % |b|] {
      if k < |b| {
        Ipv4.DivModUnique(k, |b|, 0, k);
      } else {
        var j := k - |b|;
        assert j == |b| * (j / |b|) + j % |b|;
        assert k == |b| * (j / |b| + 1) + j % |b|;
        Ipv4.DivModUnique(k, |b|, j / |b| + 1, j % |b|);
      }
    }
  }

  const Broadcast: seq<Byte> := [255, 255, 255, 255, 255, 255]

  /** Six `FF` bytes followed by sixteen copies of the target address. */
  function Packet(target: seq<Byte>): seq<Byte>
    requires |target| == 6
  {
    Broadcast + Copies(target, 16)
  }

  /** The address a magic packet wakes: the six bytes after the synchronisation run. */
  function MagicTarget(p: seq<Byte>): seq<Byte>
    requires |p| >= 12
  {
    p[6..12]
  }

  /** A text the packet builder accepts: twelve hex digits once separators are removed. */
  predicate IsMacText(s: string) {
    var c := StripSeparators(s);
    |c| == 12 && forall i :: 0 <= i < 12 ==> IsHexDigit(c[i])
  }

  /**
    `create_magic_packet`: with no MAC (None or empty), the all-`FF` packet;
    with twelve hex digits after removing separators, the packet for those six
    bytes; otherwise None.
   */
  function CreateMagicPacket(mac: Option<string>): (r: Option<seq<Byte>>)
    ensures r.Some? <==> !Truthy(mac) || IsMacText(mac.value)
    ensures r.Some? ==> |r.value| == 102 && r.value[..6] == Broadcast
    ensures r.Some? ==> forall k :: 6 <= k < 102 ==> r.value[k] == r.value[6 + (k - 6) % 6]
    ensures !Truthy(mac) ==> r.Some? && forall k :: 0 <= k < 102 ==> r.value[k] == 255
    ensures Truthy(mac) && r.Some? ==>
      var clean := Upper(StripSeparators(mac.value));
      |clean| == 12 && IsUpperHexText(clean) && r == Some(Packet(HexBytes(clean)))
  {
    if Truthy(mac) then
      var clean := Upper(StripSeparators(mac.value));
      assert forall i :: 0 <= i < |clean| ==> (IsHexDigit(StripSeparators(mac.value)[i]) <==> IsUpperHex(clean[i])) by {
        forall i | 0 <= i < |clean| {
          UpperHexOfHex(StripSeparators(mac.value)[i]);
        }
      }
      if |clean| == 12 && forall i :: 0 <= i < 12 ==> IsUpperHex(clean[i]) then
        Some(Packet(HexBytes(clean)))
      else None
    else Some(Packet(Broadcast))
  }

  /** The canonical colon-separated text of six bytes. */
  function FormatMac(b: seq<Byte>): string
    requires |b| == 6
  {
    Pairs(HexText(b))
  }

  /** Removing the colons of the canonical text leaves the twelve hex digits. */
  lemma StripFormatMac(b: seq<Byte>)
    requires |b| == 6
    ensures StripSeparators(FormatMac(b)) == HexText(b)
    ensures IsMacShape(FormatMac(b))
  {
    var h := HexText(b);
    assert ':' !in h && '-' !in h by {
      assert forall i :: 0 <= i < |h| ==> IsUpperHex(h[i]);
    }
    PairsLayout(h, 6);
    PairsUngroup(h);
  }

  /** The address a packet wakes is the six bytes it was built for. */
  lemma MagicTargetOfPacket(b: seq<Byte>)
    requires |b| == 6
    ensures MagicTarget(Packet(b)) == b
  {
    var c := Copies(b, 16);
    forall k | 0 <= k < 6 ensures Packet(b)[6 + k] == b[k] {
      assert Packet(b)[6 + k] == c[k];
      assert k % 6 == k;
    }
  }

  /** Formatting an address and building its packet wakes exactly that address. */
  lemma MagicPacketRoundTrip(b: seq<Byte>)
    requires |b| == 6
    ensures CreateMagicPacket(Some(FormatMac(b))) == Some(Packet(b))
    ensures MagicTarget(CreateMagicPacket(Some(FormatMac(b))).value) == b
  {
    var h := HexText(b);
    StripFormatMac(b);
    assert Upper(h) == h by {
      forall i | 0 <= i < |h| ensures Upper(h)[i] == h[i] {
        assert IsUpperHex(h[i]);
      }
    }
    HexBytesOfText(b);
    MagicTargetOfPacket(b);
  }

  /**
    The packet of any accepted text, in either case and with any separators,
    targets the six bytes its digits spell.
   */
  lemma MagicPacketOfAnyText(s: string, b: seq<Byte>)
    requires |b| == 6 && Upper(StripSeparators(s)) == HexText(b)
    ensures CreateMagicPacket(Some(s)) == Some(Packet(b))
    ensures MagicTarget(CreateMagicPacket(Some(s)).value) == b
  {
    var c := StripSeparators(s);
    assert c[0] in c;
    assert IsMacText(s) by {
      forall i | 0 <= i < 12 ensures IsHexDigit(c[i]) {
        assert IsUpperHex(HexText(b)[i]);
        UpperHexOfHex(c[i]);
      }
    }
    HexBytesOfText(b);
    MagicTargetOfPacket(b);
  }

  /** The canonical text is already padded: the padding rule leaves it unchanged. */
  lemma FormatMacIsPadded(b: seq<Byte>)
    requires |b| == 6
    ensures PadMacAddress(FormatMac(b)) == FormatMac(b)
  {
    var h := HexText(b);
    StripFormatMac(b);
    assert Normalize12(h) == h by {
      assert h[..12] == h;
    }
  }

  /**
    Every MAC taken from a neighbour-cache token of hex digits and separators
    has the canonical shape and is accepted by the packet builder.
   */
  lemma ArpMacIsWakeable(token: string)
    requires token != ""
    requires forall i :: 0 <= i < |token| ==> IsHexDigit(token[i]) || token[i] == ':' || token[i] == '-'
    ensures IsMacShape(MacFromArpToken(token))
    ensures CreateMagicPacket(Some(MacFromArpToken(token))).Some?
  {
    var u := ReplaceChar(Upper(token), '-', ':');
    assert forall x :: x in u ==> IsUpperHex(x) || x == ':' by {
      forall x | x in u ensures IsUpperHex(x) || x == ':' {
        var i :| 0 <= i < |u| && u[i] == x;
        UpperHexOfHex(token[i]);
      }
    }
    var m := MacFromArpToken(token);
    var c := StripSeparators(m);
    assert forall x :: x in c ==> IsUpperHex(x);
    assert IsMacText(m) by {
      forall i | 0 <= i < 12 ensures IsHexDigit(c[i]) {
        assert c[i] in c;
      }
    }
  }
}

=== FILE: merge.dfy ===
/**
  The known-device merge engine: the grouping and merge block of
  `update_tree_view` (wol_caster.py:1598-1774), the records
  `update_known_devices` persists (wol_caster.py:1148-1170), and the CLI
  merge with its opposite precedence (wol_caster.py:3993-4050, 4311-4352).

  The tree nests the merged records by adapter and network key; the model
  returns the flat sequence of (adapter, network, record) triples in the
  order they are appended; the tree groups them stably by network key, in
  order of each key's first appearance.
 */
module Merge {
  import opened Wrappers
  import opened Text
  import opened Devices
  import Ipv4
  import Interfaces
  import Vendor

  // ---------------------------------------------------------------------------
  // Network keys
  // ---------------------------------------------------------------------------

  /** The three address prefixes the program files under fixed /24 keys. */
  function PrefixKey(ip: string): (r: Option<string>)
    ensures r.Some? ==> r.value in ["192.168.0.0/24", "134.124.230.0/24", "134.124.231.0/24"]
  {
    if StartsWith(ip, "192.168.0.") then Some("192.168.0.0/24")
    else if StartsWith(ip, "134.124.230.") then Some("134.124.230.0/24")
    else if StartsWith(ip, "134.124.231.") then Some("134.124.231.0/24")
    else None
  }

  /** The key of a device of an active interface: a fixed prefix key, else the interface subnet. */
  function ActiveKey(ip: string, subnet: string): (r: string)
    ensures PrefixKey(ip).None? ==> r == subnet
    ensures PrefixKey(ip).Some? ==> r == PrefixKey(ip).value
  {
    PrefixKey(ip).GetOr(subnet)
  }

  /** The key of a device of an inactive interface: a fixed prefix key, else its first three octets and `.0/24`; None skips the device. */
  function HistoricalKey(ip: string): (r: Option<string>)
    ensures PrefixKey(ip).Some? ==> r == PrefixKey(ip)
    ensures r.None? <==> PrefixKey(ip).None? && |Split(ip, '.')| < 3
  {
    if PrefixKey(ip).Some? then PrefixKey(ip)
    else
      var parts := Split(ip, '.');
      if |parts| >= 3 then Some(Join(parts[..3], ".") + ".0/24") else None
  }

  /** The key of the CLI listing: a fixed prefix key, else `unknown_network`. */
  function CliKey(ip: string): (r: string)
    ensures PrefixKey(ip).None? ==> r == "unknown_network"
    ensures PrefixKey(ip).Some? ==> r == PrefixKey(ip).value
  {
    PrefixKey(ip).GetOr("unknown_network")
  }

  /**
    For a dotted address outside the fixed prefixes, the historical key is the
    /24 block holding it, the same network the neighbour-cache discovery
    synthesises for it.
   */
  lemma HistoricalKeyIsBlock(part: string)
    requires Ipv4.ParseAddress(part).Some? && PrefixKey(part).None?
    ensures var a := Ipv4.ParseAddress(part).value;
      && HistoricalKey(part) == Some(Ipv4.Dotted(Interfaces.Block24(a)) + "/24")
      && Ipv4.ParseNetwork(HistoricalKey(part).value) == Some(Ipv4.Network(Interfaces.Block24(a), 24))
  {
    var ps := Split(part, '.');
    Interfaces.BlockTextOfAddress(part);
    Interfaces.BlockOfToken(part);
    assert ps[..3] == [ps[0], ps[1], ps[2]];
    JoinThree(ps[0], ps[1], ps[2], ".");
    assert Join(ps[..3], ".") + ".0/24" == Interfaces.BlockText(ps, "0") + "/24";
  }

  /** A device of an active interface lands outside the interface subnet only through a fixed prefix. */
  lemma OtherKeyOnlyByPrefix(ip: string, subnet: string)
    requires ActiveKey(ip, subnet) != subnet
    ensures PrefixKey(ip).Some?
  {
  }

  // ---------------------------------------------------------------------------
  // Merging one scanned record with its stored copy
  // ---------------------------------------------------------------------------

  /** `if not merged.get(k) and stored.get(k): merged[k] = stored[k]`. */
  function FillIn(cur: Option<string>, stored: Option<string>): (r: Option<string>)
    ensures Truthy(cur) ==> r == cur
    ensures !Truthy(cur) && Truthy(stored) ==> r == stored
    ensures !Truthy(cur) && !Truthy(stored) ==> r == cur
  {
    if !Truthy(cur) && Truthy(stored) then stored else cur
  }

  /** `if stored.get(k): merged[k] = stored[k]`. */
  function Override(cur: Option<string>, stored: Option<string>): (r: Option<string>)
    ensures Truthy(stored) ==> r == stored
    ensures !Truthy(stored) ==> r == cur
  {
    if Truthy(stored) then stored else cur
  }

  /** `stored_last_seen`: the stored time when it is non-zero, otherwise whatever the record already had. */
  function StoredTime(d: Device, stored: Device): (r: Option<int>)
    ensures stored.lastSeen != 0 ==> r == Some(stored.lastSeen)
    ensures stored.lastSeen == 0 ==> r == d.storedLastSeen
  {
    if stored.lastSeen != 0 then Some(stored.lastSeen) else d.storedLastSeen
  }

  /**
    The GUI merge of a scanned record with its stored copy (wol_caster.py:1650-1670):
    scanned hostname, MAC and vendor win when non-empty, the stored ones fill the
    gaps, and the stored time goes to `stored_last_seen`.
   */
  function GuiFill(d: Device, stored: Option<Device>): (r: Device)
    ensures stored.None? ==> r == d
    ensures r.ip == d.ip && r.status == d.status && r.lastSeen == d.lastSeen && r.pingable == d.pingable
    ensures stored.Some? ==>
      && r.hostname == FillIn(d.hostname, stored.value.hostname)
      && r.mac == FillIn(d.mac, stored.value.mac) && r.vendor == FillIn(d.vendor, stored.value.vendor)
      && r.storedLastSeen == StoredTime(d, stored.value)
  {
    match stored
    case None => d
    case Some(s) =>
      d.(hostname := FillIn(d.hostname, s.hostname), mac := FillIn(d.mac, s.mac),
         vendor := FillIn(d.vendor, s.vendor), storedLastSeen := StoredTime(d, s))
  }

  /**
    The CLI merge of a record with its stored copy: stored hostname, MAC and
    vendor overwrite whenever non-empty.
   */
  function CliFill(d: Device, stored: Option<Device>): (r: Device)
    ensures stored.None? ==> r == d
    ensures r.ip == d.ip && r.status == d.status && r.lastSeen == d.lastSeen && r.pingable == d.pingable
    ensures stored.Some? ==>
      && r.hostname == Override(d.hostname, stored.value.hostname)
      && r.mac == Override(d.mac, stored.value.mac) && r.vendor == Override(d.vendor, stored.value.vendor)
      && r.storedLastSeen == StoredTime(d, stored.value)
  {
    match stored
    case None => d
    case Some(s) =>
      d.(hostname := Override(d.hostname, s.hostname), mac := Override(d.mac, s.mac),
         vendor := Override(d.vendor, s.vendor), storedLastSeen := StoredTime(d, s))
  }

  /** The fill never loses a name: whatever was non-empty in either copy is non-empty after. */
  lemma GuiFillKeepsInformation(d: Device, s: Device)
    ensures var r := GuiFill(d, Some(s));
      && (Truthy(d.hostname) || Truthy(s.hostname) <==> Truthy(r.hostname))
      && (Truthy(d.mac) || Truthy(s.mac) <==> Truthy(r.mac))
      && (Truthy(d.vendor) || Truthy(s.vendor) <==> Truthy(r.vendor))
  {
  }

  /** Merging a record with an identical stored copy leaves its hostname, MAC and vendor as they were. */
  lemma GuiFillWithItself(d: Device)
    ensures var r := GuiFill(d, Some(d));
      r.hostname == d.hostname && r.mac == d.mac && r.vendor == d.vendor
      && r.storedLastSeen == (if d.lastSeen != 0 then Some(d.lastSeen) else d.storedLastSeen)
  {
  }

  /** Filling twice from the same stored copy is filling once. */
  lemma GuiFillIdempotent(d: Device, s: Device)
    ensures GuiFill(GuiFill(d, Some(s)), Some(s)) == GuiFill(d, Some(s))
  {
  }

  /**
    The two merges disagree on a field exactly when both copies hold different
    non-empty values: the GUI then shows the scanned one, the CLI the stored one.
   */
  lemma GuiAndCliPrecedence(cur: Option<string>, stored: Option<string>)
    ensures FillIn(cur, stored) != Override(cur, stored) <==> Truthy(cur) && Truthy(stored) && cur != stored
    ensures Truthy(cur) && Truthy(stored) ==> FillIn(cur, stored) == cur && Override(cur, stored) == stored
  {
  }

  // ---------------------------------------------------------------------------
  // The network context of a merged record
  // ---------------------------------------------------------------------------

  /**
    A record filed under a key other than the interface subnet is forced
    offline unless it answered ping; the context tag records which case held.
   */
  function WithContext(m: Device, key: string, subnet: string): (r: Device)
    ensures r.context.Some?
    ensures r.context == Some(Primary) <==> key == subnet
    ensures r.context == Some(DiscoveredOffline) <==> key != subnet && !IsPingable(m)
    ensures r.context == Some(DiscoveredOffline) ==> r.status == Offline
    ensures r.context != Some(DiscoveredOffline) ==> r.status == m.status
    ensures r.(status := m.status, context := m.context) == m
  {
    if key != subnet then
      if !IsPingable(m) then m.(status := Offline, context := Some(DiscoveredOffline))
      else m.(context := Some(DiscoveredOnline))
    else m.(context := Some(Primary))
  }

  /** A standby record, never pingable, is shown offline on any network other than the interface's own. */
  lemma StandbyOffSubnetIsOffline(m: Device, key: string, subnet: string)
    requires m.status == Standby && m.pingable != Some(true) && key != subnet
    ensures WithContext(m, key, subnet).status == Offline
  {
  }

  // ---------------------------------------------------------------------------
  // One active interface
  // ---------------------------------------------------------------------------

  /** A record filed under a network key. */
  datatype Entry = Entry(network: string, device: Device)

  /** The records with a non-empty IP, in order; the merge skips the others. */
  function WithIp(ds: seq<Device>): (r: seq<Device>)
    ensures |r| <= |ds|
    ensures forall i :: 0 <= i < |r| ==> r[i].ip != "" && r[i] in ds
    ensures forall i :: 0 <= i < |ds| && ds[i].ip != "" ==> ds[i] in r
  {
    if |ds| == 0 then []
    else if ds[0].ip == "" then WithIp(ds[1..])
    else [ds[0]] + WithIp(ds[1..])
  }

  /** One scanned record merged with its stored copy and tagged with its context, under its key. */
  function MergedEntry(d: Device, known: seq<Device>, subnet: string): (e: Entry)
    ensures e.network == ActiveKey(d.ip, subnet)
    ensures e.device.ip == d.ip
    ensures e.device == WithContext(GuiFill(d, KnownRecord(known, d.ip)), ActiveKey(d.ip, subnet), subnet)
  {
    var key := ActiveKey(d.ip, subnet);
    Entry(key, WithContext(GuiFill(d, KnownRecord(known, d.ip)), key, subnet))
  }

  /** The scanned records of one interface, merged in scan order. */
  function MergeScanned(devices: seq<Device>, known: seq<Device>, subnet: string): (r: seq<Entry>)
    ensures |r| == |WithIp(devices)|
    ensures forall i :: 0 <= i < |r| ==> r[i] == MergedEntry(WithIp(devices)[i], known, subnet)
  {
    var ds := WithIp(devices);
    seq(|ds|, i requires 0 <= i < |ds| => MergedEntry(ds[i], known, subnet))
  }

  /** A record with this key and IP is already filed. */
  predicate Filed(entries: seq<Entry>, key: string, ip: string) {
    exists i :: 0 <= i < |entries| && entries[i].network == key && entries[i].device.ip == ip
  }

  /** A stored record shown because the scan did not find it. */
  function Unseen(k: Device): (r: Device)
    ensures r.status == Offline && r.currentScan == Some(false)
    ensures r.(status := k.status, currentScan := k.currentScan) == k
  {
    k.(status := Offline, currentScan := Some(false))
  }

  /**
    The second pass (wol_caster.py:1691-1721): each stored record with an IP
    not yet filed under its key is appended as an unseen offline record.
   */
  function AddUnseen(entries: seq<Entry>, known: seq<Device>, subnet: string): seq<Entry>
    decreases |known|
  {
    if |known| == 0 then entries
    else
      var k := known[0];
      if k.ip == "" then AddUnseen(entries, known[1..], subnet)
      else
        var key := ActiveKey(k.ip, subnet);
        if Filed(entries, key, k.ip) then AddUnseen(entries, known[1..], subnet)
        else AddUnseen(entries + [Entry(key, Unseen(k))], known[1..], subnet)
  }

  /** A record appended by the second pass: the unseen copy of a stored record with an IP, under its key. */
  predicate UnseenCopy(e: Entry, known: seq<Device>, subnet: string) {
    exists k :: k in known && k.ip != "" && e == Entry(ActiveKey(k.ip, subnet), Unseen(k))
  }

  /** What is filed stays filed when records are appended. */
  lemma FiledGrows(a: seq<Entry>, b: seq<Entry>, key: string, ip: string)
    requires |a| <= |b| && b[..|a|] == a && Filed(a, key, ip)
    ensures Filed(b, key, ip)
  {
    var e :| 0 <= e < |a| && a[e].network == key && a[e].device.ip == ip;
    assert b[e] == a[e];
  }

  /** The second pass only appends, at most one record per stored record. */
  lemma {:induction false} AddUnseenExtends(entries: seq<Entry>, known: seq<Device>, subnet: string)
    ensures var r := AddUnseen(entries, known, subnet);
      |entries| <= |r| <= |entries| + |known| && r[..|entries|] == entries
    decreases |known|
  {
    if |known| > 0 {
      var k := known[0];
      var key := ActiveKey(k.ip, subnet);
      var next := if k.ip == "" || Filed(entries, key, k.ip) then entries else entries + [Entry(key, Unseen(k))];
      AddUnseenExtends(next, known[1..], subnet);
      var r := AddUnseen(entries, known, subnet);
      assert r == AddUnseen(next, known[1..], subnet);
      assert r[..|entries|] == r[..|next|][..|entries|];
    }
  }

  /** After the second pass every stored record with an IP is filed under its key. */
  lemma {:induction false} AddUnseenFilesAll(entries: seq<Entry>, known: seq<Device>, subnet: string)
    ensures forall j :: 0 <= j < |known| && known[j].ip != "" ==>
      Filed(AddUnseen(entries, known, subnet), ActiveKey(known[j].ip, subnet), known[j].ip)
    decreases |known|
  {
    if |known| > 0 {
      var k := known[0];
      var key := ActiveKey(k.ip, subnet);
      var next := if k.ip == "" || Filed(entries, key, k.ip) then entries else entries + [Entry(key, Unseen(k))];
      var r := AddUnseen(entries, known, subnet);
      assert r == AddUnseen(next, known[1..], subnet);
      AddUnseenFilesAll(next, known[1..], subnet);
      AddUnseenExtends(next, known[1..], subnet);
      if k.ip != "" {
        if next != entries {
          assert next[|entries|].network == key && next[|entries|].device.ip == k.ip;
        }
        assert Filed(next, key, k.ip);
        FiledGrows(next, r, key, k.ip);
      }
      forall j | 1 <= j < |known| && known[j].ip != "" ensures Filed(r, ActiveKey(known[j].ip, subnet), known[j].ip) {
        assert known[1..][j - 1] == known[j];
      }
    }
  }

  /**
    The second pass appends only offline, not-current copies of stored
    records, each under a key and IP that were not filed before it.
   */
  lemma {:induction false} AddUnseenAddsUnseen(entries: seq<Entry>, known: seq<Device>, subnet: string)
    ensures var r := AddUnseen(entries, known, subnet);
      forall i :: |entries| <= i < |r| ==>
        && r[i].device.status == Offline && r[i].device.currentScan == Some(false)
        && UnseenCopy(r[i], known, subnet)
        && !Filed(entries, r[i].network, r[i].device.ip)
    decreases |known|
  {
    if |known| > 0 {
      var k := known[0];
      var key := ActiveKey(k.ip, subnet);
      var next := if k.ip == "" || Filed(entries, key, k.ip) then entries else entries + [Entry(key, Unseen(k))];
      var r := AddUnseen(entries, known, subnet);
      assert r == AddUnseen(next, known[1..], subnet);
      AddUnseenAddsUnseen(next, known[1..], subnet);
      AddUnseenExtends(next, known[1..], subnet);
      forall i | |entries| <= i < |r|
        ensures r[i].device.status == Offline && r[i].device.currentScan == Some(false)
        ensures UnseenCopy(r[i], known, subnet)
        ensures !Filed(entries, r[i].network, r[i].device.ip)
      {
        if i < |next| {
          assert r[i] == next[i] == Entry(key, Unseen(k));
          assert k in known;
        } else {
          assert UnseenCopy(r[i], known[1..], subnet);
          var k' :| k' in known[1..] && k'.ip != "" && r[i] == Entry(ActiveKey(k'.ip, subnet), Unseen(k'));
          assert k' in known;
          assert !Filed(next, r[i].network, r[i].device.ip);
          assert entries == next[..|entries|];
          forall e | 0 <= e < |entries| ensures !(entries[e].network == r[i].network && entries[e].device.ip == r[i].device.ip) {
            assert entries[e] == next[e];
          }
        }
      }
    }
  }

  /**
    The records of one active interface: the merged scan results, then the
    stored records the scan did not file (wol_caster.py:1632-1721).
   */
  function InterfaceEntries(subnet: string, devices: seq<Device>, known: seq<Device>): seq<Entry> {
    AddUnseen(MergeScanned(devices, known, subnet), known, subnet)
  }

  /**
    The scanned records with an IP come first, merged; every stored record
    with an IP is filed; the rest are offline unseen copies of stored records
    whose IP the scan did not report.
   */
  lemma InterfaceEntriesSpec(subnet: string, devices: seq<Device>, known: seq<Device>)
    ensures var scanned := MergeScanned(devices, known, subnet);
      var r := InterfaceEntries(subnet, devices, known);
      && |scanned| <= |r|
      && r[..|scanned|] == scanned
      && (forall j :: 0 <= j < |known| && known[j].ip != "" ==> Filed(r, ActiveKey(known[j].ip, subnet), known[j].ip))
      && (forall i :: |scanned| <= i < |r| ==>
            && r[i].device.status == Offline && r[i].device.currentScan == Some(false)
            && UnseenCopy(r[i], known, subnet)
            && forall m :: 0 <= m < |WithIp(devices)| ==> WithIp(devices)[m].ip != r[i].device.ip)
  {
    var scanned := MergeScanned(devices, known, subnet);
    var r := InterfaceEntries(subnet, devices, known);
    AddUnseenExtends(scanned, known, subnet);
    AddUnseenFilesAll(scanned, known, subnet);
    AddUnseenAddsUnseen(scanned, known, subnet);
    forall i, m | |scanned| <= i < |r| && 0 <= m < |WithIp(devices)| ensures WithIp(devices)[m].ip != r[i].device.ip {
      var k :| k in known && k.ip != "" && r[i] == Entry(ActiveKey(k.ip, subnet), Unseen(k));
      assert r[i].network == ActiveKey(r[i].device.ip, subnet);
      assert scanned[m].network == ActiveKey(scanned[m].device.ip, subnet) && scanned[m].device.ip == WithIp(devices)[m].ip;
      assert !(scanned[m].network == r[i].network && scanned[m].device.ip == r[i].device.ip);
    }
  }

  // ---------------------------------------------------------------------------
  // Inactive interfaces and the whole tree
  // ---------------------------------------------------------------------------

  /** A stored record of an interface that is not active now. */
  function HistoricalCopy(k: Device): (r: Device)
    ensures r.status == Offline && r.currentScan == Some(false) && r.historical == Some(true)
    ensures r.(status := k.status, currentScan := k.currentScan, historical := k.historical) == k
  {
    k.(status := Offline, currentScan := Some(false), historical := Some(true))
  }

  /** The entry is the historical copy of a stored record that has an IP and a key, filed under that key. */
  predicate HistoricalOf(e: Entry, known: seq<Device>) {
    exists j :: 0 <= j < |known| && known[j].ip != "" && HistoricalKey(known[j].ip).Some?
      && e == Entry(HistoricalKey(known[j].ip).value, HistoricalCopy(known[j]))
  }

  lemma HistoricalOfTail(e: Entry, known: seq<Device>)
    requires |known| > 0 && HistoricalOf(e, known[1..])
    ensures HistoricalOf(e, known)
  {
    var j :| 0 <= j < |known[1..]| && known[1..][j].ip != "" && HistoricalKey(known[1..][j].ip).Some?
      && e == Entry(HistoricalKey(known[1..][j].ip).value, HistoricalCopy(known[1..][j]));
    assert known[j + 1] == known[1..][j];
  }

  /** The stored record has an IP and a key, so the inactive interface lists its historical copy. */
  predicate HasHistoricalEntry(k: Device) {
    k.ip != "" && HistoricalKey(k.ip).Some?
  }

  /** Every stored record that has an IP and a key has its historical copy in `r`. */
  predicate ListsHistorical(r: seq<Entry>, known: seq<Device>) {
    forall j :: 0 <= j < |known| && HasHistoricalEntry(known[j]) ==>
      Entry(HistoricalKey(known[j].ip).value, HistoricalCopy(known[j])) in r
  }

  /** Every entry of `r` is the historical copy of some stored record. */
  predicate CopiesOfStored(r: seq<Entry>, known: seq<Device>) {
    forall e :: e in r ==> HistoricalOf(e, known)
  }

  lemma HistoricalListsStep(known: seq<Device>, here: seq<Entry>, rest: seq<Entry>)
    requires |known| > 0
    requires HasHistoricalEntry(known[0]) ==> here == [Entry(HistoricalKey(known[0].ip).value, HistoricalCopy(known[0]))]
    requires ListsHistorical(rest, known[1..])
    ensures ListsHistorical(here + rest, known)
  {
    forall j | 0 <= j < |known| && HasHistoricalEntry(known[j])
      ensures Entry(HistoricalKey(known[j].ip).value, HistoricalCopy(known[j])) in here + rest
    {
      if j > 0 {
        assert known[j] == known[1..][j - 1];
      }
    }
  }

  lemma HistoricalFromStep(known: seq<Device>, here: seq<Entry>, rest: seq<Entry>)
    requires |known| > 0
    requires here == if HasHistoricalEntry(known[0]) then [Entry(HistoricalKey(known[0].ip).value, HistoricalCopy(known[0]))] else []
    requires CopiesOfStored(rest, known[1..])
    ensures CopiesOfStored(here + rest, known)
  {
    forall e | e in here + rest ensures HistoricalOf(e, known) {
      if e in rest {
        HistoricalOfTail(e, known);
      }
    }
  }

  /** A historical copy of a stored record is offline, not seen this scan, historical, and filed under its key. */
  lemma CopiesShape(r: seq<Entry>, known: seq<Device>)
    requires CopiesOfStored(r, known)
    ensures forall i :: 0 <= i < |r| ==>
      r[i].device.historical == Some(true) && r[i].device.status == Offline && r[i].device.currentScan == Some(false)
      && HistoricalKey(r[i].device.ip) == Some(r[i].network) && r[i].device.ip != ""
  {
    forall i | 0 <= i < |r|
      ensures r[i].device.historical == Some(true) && r[i].device.status == Offline && r[i].device.currentScan == Some(false)
      ensures HistoricalKey(r[i].device.ip) == Some(r[i].network) && r[i].device.ip != ""
    {
      assert r[i] in r;
    }
  }

  /**
    The records of an inactive interface (wol_caster.py:1730-1774): the
    historical copy of each stored record with an IP and a key, and nothing else.
   */
  function HistoricalEntries(known: seq<Device>): (r: seq<Entry>)
    ensures |r| <= |known|
    ensures forall i :: 0 <= i < |r| ==>
      r[i].device.historical == Some(true) && r[i].device.status == Offline && r[i].device.currentScan == Some(false)
      && HistoricalKey(r[i].device.ip) == Some(r[i].network) && r[i].device.ip != ""
    ensures ListsHistorical(r, known)
    ensures CopiesOfStored(r, known)
  {
    if |known| == 0 then []
    else
      var here :=
        if HasHistoricalEntry(known[0]) then [Entry(HistoricalKey(known[0].ip).value, HistoricalCopy(known[0]))] else [];
      var rest := HistoricalEntries(known[1..]);
      HistoricalListsStep(known, here, rest);
      HistoricalFromStep(known, here, rest);
      CopiesShape(here + rest, known);
      here + rest
  }

  /** A record placed in the tree under an adapter. */
  datatype Placed = Placed(adapter: string, entry: Entry)

  function PlaceAll(adapter: string, es: seq<Entry>): (r: seq<Placed>)
    ensures |r| == |es| && forall i :: 0 <= i < |es| ==> r[i] == Placed(adapter, es[i])
  {
    seq(|es|, i requires 0 <= i < |es| => Placed(adapter, es[i]))
  }

  /** `d.get(name, [])` for a dictionary given as its items in insertion order. */
  function Lookup(items: seq<(string, seq<Device>)>, name: string): seq<Device> {
    if |items| == 0 then [] else if items[0].0 == name then items[0].1 else Lookup(items[1..], name)
  }

  /** One of the active interfaces has this name. */
  predicate IsActive(active: seq<(string, string)>, name: string) {
    exists i :: 0 <= i < |active| && active[i].0 == name
  }

  function ActiveEntries(active: seq<(string, string)>, scanned: seq<(string, seq<Device>)>,
                         stored: seq<(string, seq<Device>)>): seq<Placed>
  {
    if |active| == 0 then []
    else
      var name := active[0].0;
      PlaceAll(name, InterfaceEntries(active[0].1, Lookup(scanned, name), Lookup(stored, name)))
        + ActiveEntries(active[1..], scanned, stored)
  }

  function InactiveEntries(active: seq<(string, string)>, stored: seq<(string, seq<Device>)>): seq<Placed> {
    if |stored| == 0 then []
    else
      var rest := InactiveEntries(active, stored[1..]);
      if IsActive(active, stored[0].0) then rest else PlaceAll(stored[0].0, HistoricalEntries(stored[0].1)) + rest
  }

  /**
    The record list behind the tree: the active interfaces (name and subnet)
    in order with their scanned and stored records, then the stored
    interfaces that are not active.
   */
  function TreeEntries(active: seq<(string, string)>, scanned: seq<(string, seq<Device>)>,
                       stored: seq<(string, seq<Device>)>): seq<Placed>
  {
    ActiveEntries(active, scanned, stored) + InactiveEntries(active, stored)
  }

  /** Every placed record sits under an inactive adapter and is a historical offline copy. */
  predicate AllHistorical(active: seq<(string, string)>, ps: seq<Placed>) {
    forall i :: 0 <= i < |ps| ==>
      !IsActive(active, ps[i].adapter) && ps[i].entry.device.historical == Some(true) && ps[i].entry.device.status == Offline
  }

  /** Every placed record sits under an active adapter. */
  predicate AllUnderActive(active: seq<(string, string)>, ps: seq<Placed>) {
    forall i :: 0 <= i < |ps| ==> IsActive(active, ps[i].adapter)
  }

  /** Records of inactive interfaces are all historical, and none sits under an active adapter. */
  lemma {:induction false} InactiveAreHistorical(active: seq<(string, string)>, stored: seq<(string, seq<Device>)>)
    ensures AllHistorical(active, InactiveEntries(active, stored))
  {
    if |stored| > 0 {
      InactiveAreHistorical(active, stored[1..]);
      var rest := InactiveEntries(active, stored[1..]);
      if !IsActive(active, stored[0].0) {
        var head := PlaceAll(stored[0].0, HistoricalEntries(stored[0].1));
        assert AllHistorical(active, head);
        assert InactiveEntries(active, stored) == head + rest;
      }
    }
  }

  /** An active interface stays active when another one is listed in front of it. */
  lemma ActiveInTail(active: seq<(string, string)>, name: string)
    requires |active| > 0 && IsActive(active[1..], name)
    ensures IsActive(active, name)
  {
    var j :| 0 <= j < |active[1..]| && active[1..][j].0 == name;
    assert active[j + 1].0 == name;
  }

  /** Records of active interfaces sit under an active adapter. */
  lemma {:induction false} ActiveArePlacedUnderActive(active: seq<(string, string)>, scanned: seq<(string, seq<Device>)>,
                                                      stored: seq<(string, seq<Device>)>)
    ensures AllUnderActive(active, ActiveEntries(active, scanned, stored))
  {
    if |active| > 0 {
      ActiveArePlacedUnderActive(active[1..], scanned, stored);
      var head := PlaceAll(active[0].0, InterfaceEntries(active[0].1, Lookup(scanned, active[0].0), Lookup(stored, active[0].0)));
      var rest := ActiveEntries(active[1..], scanned, stored);
      assert IsActive(active, active[0].0);
      forall i | 0 <= i < |rest| ensures IsActive(active, rest[i].adapter) {
        ActiveInTail(active, rest[i].adapter);
      }
      assert ActiveEntries(active, scanned, stored) == head + rest;
    }
  }

  /**
    In the tree the records of the active interfaces come first, each under an
    active adapter, and the records of every other stored interface follow as
    historical offline copies.
   */
  lemma TreeSplitsActiveAndHistorical(active: seq<(string, string)>, scanned: seq<(string, seq<Device>)>,
                                      stored: seq<(string, seq<Device>)>)
    ensures var n := |ActiveEntries(active, scanned, stored)|;
      var t := TreeEntries(active, scanned, stored);
      AllUnderActive(active, t[..n]) && AllHistorical(active, t[n..])
  {
    ActiveArePlacedUnderActive(active, scanned, stored);
    InactiveAreHistorical(active, stored);
    var a := ActiveEntries(active, scanned, stored);
    var t := TreeEntries(active, scanned, stored);
    assert t[..|a|] == a && t[|a|..] == InactiveEntries(active, stored);
  }

  // ---------------------------------------------------------------------------
  // update_known_devices
  // ---------------------------------------------------------------------------

  /** The vendor stored with a record: looked up from its MAC, unless that gives nothing or `Unknown`. */
  function StoredVendor(mac: Option<string>, oui: Option<seq<string>>): (r: Option<string>)
    ensures r.Some? ==> Truthy(mac) && r == Vendor.MacVendor(mac, oui) && r.value != "Unknown" && r.value != ""
    ensures r.None? ==> !Truthy(mac) || !Truthy(Vendor.MacVendor(mac, oui)) || Vendor.MacVendor(mac, oui).value == "Unknown"
  {
    if Truthy(mac) then
      var v := Vendor.MacVendor(mac, oui);
      if Truthy(v) && v.value != "Unknown" then v else None
    else None
  }

  /** The persisted form of a record: IP, hostname, MAC, time, status and the re-derived vendor, nothing else. */
  function Persisted(d: Device, oui: Option<seq<string>>): (r: Device)
    ensures r.ip == d.ip && r.hostname == d.hostname && r.mac == d.mac && r.status == d.status && r.lastSeen == d.lastSeen
    ensures r.vendor == StoredVendor(d.mac, oui)
    ensures r.pingable.None? && r.storedLastSeen.None? && r.context.None? && r.currentScan.None? && r.historical.None?
  {
    Device(d.ip, d.hostname, d.mac, StoredVendor(d.mac, oui), d.status, None, d.lastSeen, None, None, None, None)
  }

  /** `update_known_devices`: hidden records are dropped, the others persisted in order. */
  function UpdateKnownDevices(devices: seq<Device>, oui: Option<seq<string>>): (r: seq<Device>)
    ensures |r| <= |devices|
    ensures forall i :: 0 <= i < |r| ==> r[i].status != Hidden
    ensures forall i :: 0 <= i < |devices| && devices[i].status != Hidden ==> Persisted(devices[i], oui) in r
    ensures forall i :: 0 <= i < |r| ==> exists j :: 0 <= j < |devices| && r[i] == Persisted(devices[j], oui)
  {
    if |devices| == 0 then []
    else
      var rest := UpdateKnownDevices(devices[1..], oui);
      assert forall j :: 1 <= j < |devices| ==> devices[j] == devices[1..][j - 1];
      if devices[0].status == Hidden then rest else [Persisted(devices[0], oui)] + rest
  }

  /** Persisting what was persisted changes nothing. */
  lemma {:induction false} UpdateKnownDevicesIdempotent(devices: seq<Device>, oui: Option<seq<string>>)
    ensures UpdateKnownDevices(UpdateKnownDevices(devices, oui), oui) == UpdateKnownDevices(devices, oui)
  {
    if |devices| > 0 {
      UpdateKnownDevicesIdempotent(devices[1..], oui);
      var rest := UpdateKnownDevices(devices[1..], oui);
      if devices[0].status != Hidden {
        var p := Persisted(devices[0], oui);
        assert Persisted(p, oui) == p;
        assert ([p] + rest)[1..] == rest;
      }
    }
  }

  /** One device is stored as its persisted form unless it is hidden. */
  lemma UpdateKnownDevicesSingle(d: Device, oui: Option<seq<string>>)
    ensures UpdateKnownDevices([d], oui) == if d.status == Hidden then [] else [Persisted(d, oui)]
  {
    assert [d][1..] == [];
  }

  /** The first device's entry, if any, comes before the entries of the rest. */
  lemma UpdateKnownDevicesHead(d: seq<Device>, oui: Option<seq<string>>)
    requires |d| > 0
    ensures UpdateKnownDevices(d, oui) == UpdateKnownDevices([d[0]], oui) + UpdateKnownDevices(d[1..], oui)
  {
    UpdateKnownDevicesSingle(d[0], oui);
  }

  /**
    Storing a concatenation stores each part in turn: the persisted list keeps
    the order of `devices`, and each device contributes its own entry once.
   */
  lemma {:induction false} UpdateKnownDevicesAppend(a: seq<Device>, b: seq<Device>, oui: Option<seq<string>>)
    ensures UpdateKnownDevices(a + b, oui) == UpdateKnownDevices(a, oui) + UpdateKnownDevices(b, oui)
  {
    var store := (d: seq<Device>) => UpdateKnownDevices(d, oui);
    forall x: Device, d: seq<Device>
      ensures store([x] + d) == store([x]) + store(d)
    {
      assert ([x] + d)[0] == x && ([x] + d)[1..] == d;
      UpdateKnownDevicesHead([x] + d, oui);
    }
    MapsAppend(store, a, b);
  }

  /**
    A map over sequences that sends the empty sequence to the empty one and
    a sequence to its first element's image followed by the rest's sends a
    concatenation to a concatenation.
   */
  lemma {:induction false} MapsAppend<T, U>(f: seq<T> -> seq<U>, a: seq<T>, b: seq<T>)
    requires f([]) == []
    requires forall x, d :: f([x] + d) == f([x]) + f(d)
    ensures f(a + b) == f(a) + f(b)
  {
    if |a| == 0 {
      assert a + b == b;
    } else {
      assert a == [a[0]] + a[1..] && a + b == [a[0]] + (a[1..] + b);
      MapsAppend(f, a[1..], b);
    }
  }

  // ---------------------------------------------------------------------------
  // The CLI merge
  // ---------------------------------------------------------------------------

  /** The first pass of the CLI merge: every current record, overwritten by its stored copy. */
  function CliMergeCurrent(current: seq<Device>, known: seq<Device>): (r: seq<Device>)
    ensures |r| == |current|
    ensures forall i :: 0 <= i < |r| ==> r[i] == CliFill(current[i], KnownRecord(known, current[i].ip))
  {
    seq(|current|, i requires 0 <= i < |current| => CliFill(current[i], KnownRecord(known, current[i].ip)))
  }

  /** The second pass of the CLI merge: stored records with an IP not yet listed are appended as unseen. */
  function CliAddUnseen(merged: seq<Device>, known: seq<Device>): seq<Device>
    decreases |known|
  {
    if |known| == 0 then merged
    else
      var k := known[0];
      if k.ip == "" || FindIp(merged, k.ip).Some? then CliAddUnseen(merged, known[1..])
      else CliAddUnseen(merged + [Unseen(k)], known[1..])
  }

  /**
    The CLI listing of one interface (wol_caster.py:3984-4033): the CLI reads
    the stored list as its current list, so it merges the store with itself.
   */
  function CliInterfaceView(known: seq<Device>): seq<Device> {
    CliAddUnseen(CliMergeCurrent(known, known), known)
  }

  lemma {:induction false} CliAddUnseenAllListed(merged: seq<Device>, known: seq<Device>)
    requires forall j :: 0 <= j < |known| ==> FindIp(merged, known[j].ip).Some?
    ensures CliAddUnseen(merged, known) == merged
    decreases |known|
  {
    if |known| > 0 {
      assert forall j :: 1 <= j < |known| ==> known[j] == known[1..][j - 1];
      CliAddUnseenAllListed(merged, known[1..]);
    }
  }

  /**
    Because the CLI merges the store with itself, its second pass never adds
    an unseen record; with unique IPs the listing is the store itself, each
    record carrying its own time as `stored_last_seen` when that is non-zero.
   */
  lemma CliViewIsTheStore(known: seq<Device>)
    ensures CliInterfaceView(known) == CliMergeCurrent(known, known)
    ensures UniqueIps(known) ==> forall i :: 0 <= i < |known| ==>
      CliInterfaceView(known)[i] == known[i].(storedLastSeen := StoredTime(known[i], known[i]))
  {
    var merged := CliMergeCurrent(known, known);
    forall j | 0 <= j < |known| ensures FindIp(merged, known[j].ip).Some? {
      assert merged[j].ip == known[j].ip;
    }
    CliAddUnseenAllListed(merged, known);
    if UniqueIps(known) {
      forall i | 0 <= i < |known| ensures KnownRecord(known, known[i].ip) == Some(known[i]) {
        var k := FindIp(known, known[i].ip).value;
        assert k == i;
      }
    }
  }

  /**
    The CLI selection list (wol_caster.py:4300-4340): each interface's
    self-merge, then unseen records found nowhere in the list. The program
    walks the interfaces of a Python `set`, whose order is arbitrary; `ifaces`
    is that walk, in whatever order it happened.
   */
  function CliSelectionList(ifaces: seq<(string, seq<Device>)>, acc: seq<(Device, string)>): seq<(Device, string)>
    decreases |ifaces|
  {
    if |ifaces| == 0 then acc
    else CliSelectionList(ifaces[1..], CliInterfaceList(acc, ifaces[0].0, ifaces[0].1))
  }

  /** One interface's part of the selection list appended to what is listed so far. */
  function CliInterfaceList(acc: seq<(Device, string)>, name: string, known: seq<Device>): seq<(Device, string)> {
    CliAddUnseenTagged(acc + Tag(CliMergeCurrent(known, known), name), known, name)
  }

  function Tag(ds: seq<Device>, name: string): (r: seq<(Device, string)>)
    ensures |r| == |ds| && forall i :: 0 <= i < |ds| ==> r[i] == (ds[i], name)
  {
    seq(|ds|, i requires 0 <= i < |ds| => (ds[i], name))
  }

  /** Some listed record has the IP, whatever its interface. */
  predicate Listed(all: seq<(Device, string)>, ip: string) {
    exists i :: 0 <= i < |all| && all[i].0.ip == ip
  }

  function CliAddUnseenTagged(all: seq<(Device, string)>, known: seq<Device>, name: string): seq<(Device, string)>
    decreases |known|
  {
    if |known| == 0 then all
    else
      var k := known[0];
      if k.ip == "" || Listed(all, k.ip) then CliAddUnseenTagged(all, known[1..], name)
      else CliAddUnseenTagged(all + [(Unseen(k), name)], known[1..], name)
  }

  lemma {:induction false} CliAddUnseenTaggedAllListed(all: seq<(Device, string)>, known: seq<Device>, name: string)
    requires forall j :: 0 <= j < |known| ==> Listed(all, known[j].ip)
    ensures CliAddUnseenTagged(all, known, name) == all
    decreases |known|
  {
    if |known| > 0 {
      assert forall j :: 1 <= j < |known| ==> known[j] == known[1..][j - 1];
      CliAddUnseenTaggedAllListed(all, known[1..], name);
    }
  }

  /** After its own self-merge is listed, every stored record of an interface is listed. */
  lemma SelfMergeListsAll(acc: seq<(Device, string)>, known: seq<Device>, name: string)
    ensures forall j :: 0 <= j < |known| ==> Listed(acc + Tag(CliMergeCurrent(known, known), name), known[j].ip)
  {
    var listed := acc + Tag(CliMergeCurrent(known, known), name);
    forall j | 0 <= j < |known| ensures Listed(listed, known[j].ip) {
      assert listed[|acc| + j].0.ip == known[j].ip;
    }
  }

  /** An interface's second pass adds nothing: its records are all listed by its own self-merge. */
  lemma CliInterfaceListIsStore(acc: seq<(Device, string)>, name: string, known: seq<Device>)
    ensures CliInterfaceList(acc, name, known) == acc + Tag(CliMergeCurrent(known, known), name)
  {
    SelfMergeListsAll(acc, known, name);
    CliAddUnseenTaggedAllListed(acc + Tag(CliMergeCurrent(known, known), name), known, name);
  }

  /** The selection list is every interface's self-merged store, tagged with the interface, one after another. */
  lemma {:induction false} CliSelectionListIsStores(ifaces: seq<(string, seq<Device>)>, acc: seq<(Device, string)>)
    ensures CliSelectionList(ifaces, acc) == acc + CliStores(ifaces)
    decreases |ifaces|
  {
    if |ifaces| > 0 {
      var head := Tag(CliMergeCurrent(ifaces[0].1, ifaces[0].1), ifaces[0].0);
      CliInterfaceListIsStore(acc, ifaces[0].0, ifaces[0].1);
      CliSelectionListIsStores(ifaces[1..], acc + head);
      assert acc + head + CliStores(ifaces[1..]) == acc + (head + CliStores(ifaces[1..]));
    } else {
      assert acc + [] == acc;
    }
  }

  function CliStores(ifaces: seq<(string, seq<Device>)>): seq<(Device, string)> {
    if |ifaces| == 0 then []
    else Tag(CliMergeCurrent(ifaces[0].1, ifaces[0].1), ifaces[0].0) + CliStores(ifaces[1..])
  }
}

=== FILE: probe.dfy ===
/**
  Per-host classification and record construction: `check_device_status`
  (wol_caster.py:431-456), the `scan_ip` closure of the GUI scanners
  (wol_caster.py:751-790, repeated at 869-908), and the history-free CLI
  variants `scan_single_ip` (wol_caster.py:3559-3588) and
  `scan_single_ip_fast` with its three-port standby check
  (wol_caster.py:3803-3845, 3860-3876).
 */
module Probe {
  import opened Wrappers
  import opened Text
  import opened Devices
  import opened Identity
  import Vendor

  /** The ports whose answer marks a non-pinging host as standby. */
  const StandbyPorts: seq<nat> := [80, 443, 22, 23, 3389, 5900]

  /** The shorter list of the fast CLI check. */
  const FastStandbyPorts: seq<nat> := [80, 443, 22]

  /** Some port of the list is open. */
  predicate AnyOpen(ports: seq<nat>, open: set<nat>) {
    exists i :: 0 <= i < |ports| && ports[i] in open
  }

  /** `check_device_status`: online when the ping answers, else standby when a listed port is open, else offline. */
  function CheckDeviceStatus(ping: bool, open: set<nat>): (r: Status)
    ensures r == Online <==> ping
    ensures r == Standby <==> !ping && AnyOpen(StandbyPorts, open)
    ensures r == Offline <==> !ping && !AnyOpen(StandbyPorts, open)
  {
    if ping then Online
    else if AnyOpen(StandbyPorts, open) then Standby
    else Offline
  }

  /** Python's `a or b` on optional text: `a` when it is non-empty, else `b`. */
  function OrElse(a: Option<string>, b: Option<string>): (r: Option<string>)
    ensures Truthy(a) ==> r == a
    ensures !Truthy(a) ==> r == b
  {
    if Truthy(a) then a else b
  }

  /**
    The GUI scanners' `scan_ip`: a live host is named by the identifier chain
    and stamped `now`; a silent host with a stored record stays `offline` with
    the stored name, MAC and time; any other silent host is `hidden`.
   */
  function ScanIp(ip: string, p: HostProbe, known: seq<Device>, env: Env): (r: ScanRecord)
    ensures r.ip == ip
    ensures r.pingable <==> r.status == Online
    ensures r.status == Online <==> p.ping
    ensures r.status == Standby <==> CheckDeviceStatus(p.ping, p.openPorts) == Standby
    ensures r.status == Hidden <==>
      CheckDeviceStatus(p.ping, p.openPorts) == Offline && KnownRecord(known, ip).None?
    ensures r.status == Offline ==>
      var stored := KnownRecord(known, ip).value;
      r.hostname == stored.hostname && r.mac == stored.mac && r.lastSeen == stored.lastSeen
    ensures r.status == Hidden ==> r.hostname.None? && r.mac.None? && r.lastSeen == 0
    ensures Active(r.status) ==> r.lastSeen == env.now
    ensures Active(r.status) && Truthy(ProbedMac(p)) ==> r.mac == ProbedMac(p)
    ensures Active(r.status) && !Truthy(ProbedMac(p)) ==>
      r.mac == (if KnownRecord(known, ip).Some? then KnownRecord(known, ip).value.mac else None)
  {
    var status := CheckDeviceStatus(p.ping, p.openPorts);
    var live := Active(status);
    var hostname: Option<string> := if live then Some(DeviceIdentifier(ip, p, env)) else None;
    var mac := if live then ProbedMac(p) else None;
    var stored := if |known| > 0 then KnownRecord(known, ip) else None;
    var finalStatus :=
      if live then status
      else if |known| == 0 then Hidden
      else if stored.Some? then Offline
      else Hidden;
    var shownName :=
      if live then OrElse(hostname, if stored.Some? then stored.value.hostname else Some("." + LastOctet(ip)))
      else if stored.Some? then stored.value.hostname
      else None;
    ScanRecord(
      ip,
      shownName,
      OrElse(mac, if stored.Some? then stored.value.mac else None),
      finalStatus,
      finalStatus == Online,
      if live then env.now else if stored.Some? then stored.value.lastSeen else 0)
  }

  /**
    A live host is always named by the identifier chain: the chain never
    returns an empty name, so the stored-name and `.<octet>` fallbacks of
    `scan_ip` are never taken.
   */
  lemma LiveHostNamedByIdentifier(ip: string, p: HostProbe, known: seq<Device>, env: Env)
    requires Active(CheckDeviceStatus(p.ping, p.openPorts))
    ensures ScanIp(ip, p, known, env).hostname == Some(DeviceIdentifier(ip, p, env))
  {
  }

  /** A live host whose neighbour-cache entry is missing falls back to the stored MAC. */
  lemma LiveHostKeepsStoredMac(ip: string, p: HostProbe, known: seq<Device>, env: Env)
    requires Active(CheckDeviceStatus(p.ping, p.openPorts)) && p.arpToken.None?
    ensures ScanIp(ip, p, known, env).mac ==
      (if KnownRecord(known, ip).Some? then KnownRecord(known, ip).value.mac else None)
  {
  }

  /** `scan_single_ip`: a silent host is always hidden, a live one named and stamped. */
  function ScanSingleIp(ip: string, p: HostProbe, env: Env): (r: ScanRecord)
    ensures r.ip == ip
    ensures r.pingable <==> p.ping
    ensures Active(r.status) <==> Active(CheckDeviceStatus(p.ping, p.openPorts))
    ensures !Active(r.status) ==> r.status == Hidden && r.hostname.None? && r.mac.None? && r.lastSeen == 0
    ensures Active(r.status) ==>
      r.status == CheckDeviceStatus(p.ping, p.openPorts) && r.mac == ProbedMac(p) && r.lastSeen == env.now
  {
    var status := CheckDeviceStatus(p.ping, p.openPorts);
    if Active(status) then
      var hostname := Some(DeviceIdentifier(ip, p, env));
      ScanRecord(ip, OrElse(hostname, Some("." + LastOctet(ip))), ProbedMac(p), status, status == Online, env.now)
    else
      ScanRecord(ip, None, None, Hidden, false, 0)
  }

  /**
    With no history the GUI `scan_ip` and the CLI `scan_single_ip` build the
    same record, provided the neighbour-cache match is not empty.
   */
  lemma ScanIpWithoutHistory(ip: string, p: HostProbe, env: Env)
    requires p.arpToken != Some("")
    ensures ScanIp(ip, p, [], env) == ScanSingleIp(ip, p, env)
  {
  }

  /**
    `scan_single_ip_fast`: a pinging host becomes an online record named by the
    fast chain (or `Device-<octet>`) with the MAC of the fast neighbour-cache
    probe and its vendor; a host answering
    on 80, 443 or 22 becomes `Standby-<octet>` with no MAC; any other host gives
    no record.
   */
  function ScanSingleIpFast(ip: string, p: HostProbe, env: Env): (r: Option<Device>)
    ensures r.Some? <==> p.ping || AnyOpen(FastStandbyPorts, p.openPorts)
    ensures r.Some? ==> r.value.ip == ip && r.value.lastSeen == env.now && r.value.pingable.None?
    ensures r.Some? ==> (r.value.status == Online <==> p.ping) && Active(r.value.status)
    ensures r.Some? && p.ping ==>
      r.value.hostname == Some(DeviceIdentifierFast(ip, p, env).GetOr("Device-" + LastOctet(ip)))
      && r.value.mac == ProbedFastMac(p)
      && r.value.vendor == (if Truthy(ProbedFastMac(p)) then Vendor.MacVendor(ProbedFastMac(p), env.oui) else None)
    ensures r.Some? && !p.ping ==>
      r.value.hostname == Some("Standby-" + LastOctet(ip)) && r.value.mac.None? && r.value.vendor.None?
  {
    if p.ping then
      var hostname := DeviceIdentifierFast(ip, p, env);
      var mac := ProbedFastMac(p);
      var vendor := if Truthy(mac) then Vendor.MacVendor(mac, env.oui) else None;
      Some(Device(ip, Some(OrElse(hostname, Some("Device-" + LastOctet(ip))).value), mac, vendor, Online,
                  None, env.now, None, None, None, None))
    else if AnyOpen(FastStandbyPorts, p.openPorts) then
      Some(Device(ip, Some("Standby-" + LastOctet(ip)), None, None, Standby, None, env.now, None, None, None, None))
    else None
  }

  /** Every host the fast scan reports is live by the full status check as well. */
  lemma FastReportsAreLive(ip: string, p: HostProbe, env: Env)
    requires ScanSingleIpFast(ip, p, env).Some?
    ensures ScanSingleIpFast(ip, p, env).value.status == CheckDeviceStatus(p.ping, p.openPorts)
  {
    if !p.ping {
      var i :| 0 <= i < |FastStandbyPorts| && FastStandbyPorts[i] in p.openPorts;
      assert StandbyPorts[i] == FastStandbyPorts[i];
    }
  }

  /** A host answering only on Telnet, RDP or VNC is standby to the full check but absent from the fast scan. */
  lemma FastScanMissesOtherPorts(ip: string, p: HostProbe, env: Env)
    requires !p.ping && p.openPorts == {3389}
    ensures CheckDeviceStatus(p.ping, p.openPorts) == Standby
    ensures ScanSingleIpFast(ip, p, env).None?
  {
    assert StandbyPorts[4] == 3389;
  }
}

=== FILE: scheduler.dfy ===
/**
  Scan scheduling as a sequential fold. The host list of a subnet is cut into
  255-address slices (wol_caster.py:793-795, 917-919); within a slice the
  results are taken in submission order (wol_caster.py:802, 925), so the GUI
  scanners are a left fold that upserts every non-hidden record by IP into a
  list seeded with the known devices (wol_caster.py:734-735, 805-818,
  923-939). The CLI progress scan checks for an interrupt before each slice,
  appends without de-duplication and counts every host, failed or not
  (wol_caster.py:3476-3545).

  Each host's probe is an input function from the dotted address to what the
  operating system answered, None standing for a scan that raised or timed
  out.
 */
module Scheduler {
  import opened Wrappers
  import opened Text
  import opened Devices
  import opened Identity
  import opened Probe
  import Ipv4

  const ChunkSize: nat := 255

  // ---------------------------------------------------------------------------
  // Slices
  // ---------------------------------------------------------------------------

  /** `[xs[s:min(s + n, len(xs))] for s in range(0, len(xs), n)]`. */
  function Chunks<T>(xs: seq<T>, n: nat): (r: seq<seq<T>>)
    requires n > 0
    ensures forall i :: 0 <= i < |r| ==> 0 < |r[i]| <= n
    ensures forall i :: 0 <= i < |r| - 1 ==> |r[i]| == n
    ensures |xs| == 0 <==> |r| == 0
    decreases |xs|
  {
    if |xs| == 0 then []
    else if |xs| <= n then [xs]
    else [xs[..n]] + Chunks(xs[n..], n)
  }

  function Flatten<T>(xss: seq<seq<T>>): seq<T> {
    if |xss| == 0 then [] else xss[0] + Flatten(xss[1..])
  }

  /** The slices, read in order, are exactly the host list. */
  lemma {:induction false} FlattenChunks<T>(xs: seq<T>, n: nat)
    requires n > 0
    ensures Flatten(Chunks(xs, n)) == xs
    decreases |xs|
  {
    if |xs| > n {
      FlattenChunks(xs[n..], n);
      var c := Chunks(xs, n);
      assert c[1..] == Chunks(xs[n..], n);
      assert xs[..n] + xs[n..] == xs;
    } else if |xs| > 0 {
      assert Flatten(Chunks(xs, n)) == xs + Flatten<T>([]);
    }
  }

  /** There are `ceil(len / n)` slices. */
  lemma {:induction false} ChunkCount<T>(xs: seq<T>, n: nat)
    requires n > 0
    ensures |Chunks(xs, n)| == (|xs| + n - 1) / n
    decreases |xs|
  {
    if |xs| > n {
      ChunkCount(xs[n..], n);
      assert (|xs| + n - 1) / n == (|xs[n..]| + n - 1) / n + 1 by {
        Ipv4.DivModUnique(|xs| + n - 1, n, (|xs[n..]| + n - 1) / n + 1, (|xs[n..]| + n - 1) % n);
      }
    } else if |xs| > 0 {
      Ipv4.DivModUnique(|xs| + n - 1, n, 1, |xs| - 1);
    } else {
      Ipv4.DivModUnique(n - 1, n, 0, n - 1);
    }
  }

  lemma {:induction false} FlattenAppend<T>(a: seq<seq<T>>, b: seq<seq<T>>)
    ensures Flatten(a + b) == Flatten(a) + Flatten(b)
  {
    if |a| > 0 {
      FlattenAppend(a[1..], b);
      assert (a + b)[1..] == a[1..] + b;
    } else {
      assert a + b == b;
    }
  }

  // ---------------------------------------------------------------------------
  // The upsert fold of the GUI scanners
  // ---------------------------------------------------------------------------

  /**
    One result taken from its future: a hidden record is dropped; otherwise the
    first entry with the same IP is updated in place, or the record appended.
   */
  function Upsert(devices: seq<Device>, r: ScanRecord): (out: seq<Device>)
    ensures r.status == Hidden ==> out == devices
    ensures r.status != Hidden ==> FindIp(devices, r.ip).Some? ==> |out| == |devices|
    ensures r.status != Hidden ==> FindIp(devices, r.ip).None? ==> out == devices + [AsDevice(r)]
    ensures r.status != Hidden ==> FindIp(devices, r.ip).Some? ==>
      var k := FindIp(devices, r.ip).value;
      out[k] == UpdateWith(devices[k], r) && forall i :: 0 <= i < |devices| && i != k ==> out[i] == devices[i]
  {
    if r.status == Hidden then devices
    else
      match FindIp(devices, r.ip)
      case Some(k) => devices[k := UpdateWith(devices[k], r)]
      case None => devices + [AsDevice(r)]
  }

  /** The results of one slice in submission order; a failed future (None) is skipped. */
  function Fold(devices: seq<Device>, results: seq<Option<ScanRecord>>): seq<Device>
    decreases |results|
  {
    if |results| == 0 then devices
    else
      var next := if results[0].Some? then Upsert(devices, results[0].value) else devices;
      Fold(next, results[1..])
  }

  /** The slices one after another. */
  function FoldChunks(devices: seq<Device>, chunks: seq<seq<Option<ScanRecord>>>): seq<Device>
    decreases |chunks|
  {
    if |chunks| == 0 then devices else FoldChunks(Fold(devices, chunks[0]), chunks[1..])
  }

  lemma {:induction false} FoldAppend(devices: seq<Device>, a: seq<Option<ScanRecord>>, b: seq<Option<ScanRecord>>)
    ensures Fold(devices, a + b) == Fold(Fold(devices, a), b)
    decreases |a|
  {
    if |a| > 0 {
      assert (a + b)[1..] == a[1..] + b;
      var next := if a[0].Some? then Upsert(devices, a[0].value) else devices;
      FoldAppend(next, a[1..], b);
    } else {
      assert a + b == b;
    }
  }

  /** Slicing does not change the outcome: the sliced fold is the fold over the whole list. */
  lemma {:induction false} FoldChunksIsFold(devices: seq<Device>, chunks: seq<seq<Option<ScanRecord>>>)
    ensures FoldChunks(devices, chunks) == Fold(devices, Flatten(chunks))
    decreases |chunks|
  {
    if |chunks| > 0 {
      FoldChunksIsFold(Fold(devices, chunks[0]), chunks[1..]);
      FoldAppend(devices, chunks[0], Flatten(chunks[1..]));
    }
  }

  /** No entry is hidden. */
  predicate NoHidden(ds: seq<Device>) {
    forall i :: 0 <= i < |ds| ==> ds[i].status != Hidden
  }

  /** An IP occurs in the results as a record that is not hidden. */
  predicate Reported(results: seq<Option<ScanRecord>>, ip: string) {
    exists j :: 0 <= j < |results| && results[j].Some? && results[j].value.status != Hidden && results[j].value.ip == ip
  }

  /**
    One upsert keeps IPs unique, keeps the seeded positions and their vendors,
    updates only the entry with the record's IP, and admits no hidden entry.
   */
  lemma UpsertInvariant(devices: seq<Device>, r: ScanRecord)
    requires UniqueIps(devices)
    ensures var out := Upsert(devices, r);
      && UniqueIps(out)
      && |devices| <= |out| <= |devices| + 1
      && (forall i :: 0 <= i < |devices| ==> out[i].ip == devices[i].ip && out[i].vendor == devices[i].vendor)
      && (NoHidden(devices) ==> NoHidden(out))
      && (r.status != Hidden ==> exists i :: 0 <= i < |out| && out[i].ip == r.ip)
      && (forall i :: 0 <= i < |out| ==> out[i].ip in Ips(devices) || (r.status != Hidden && out[i].ip == r.ip))
      && (forall i :: 0 <= i < |devices| && (r.status == Hidden || devices[i].ip != r.ip) ==> out[i] == devices[i])
      && (forall i :: 0 <= i < |devices| && r.status != Hidden && devices[i].ip == r.ip ==> out[i] == UpdateWith(devices[i], r))
  {
    var out := Upsert(devices, r);
    if r.status != Hidden {
      if FindIp(devices, r.ip).Some? {
        var k := FindIp(devices, r.ip).value;
        assert out[k].ip == r.ip;
        forall i | 0 <= i < |out| ensures out[i].ip in Ips(devices) {
          assert out[i].ip == devices[i].ip;
          assert Ips(devices)[i] == devices[i].ip;
        }
      } else {
        assert out[|devices|].ip == r.ip;
        forall i | 0 <= i < |devices| ensures out[i].ip in Ips(devices) {
          assert Ips(devices)[i] == devices[i].ip;
        }
      }
    } else {
      forall i | 0 <= i < |out| ensures out[i].ip in Ips(devices) {
        assert Ips(devices)[i] == devices[i].ip;
      }
    }
  }

  /**
    The fold over a whole scan: a seed with unique IPs stays unique; the seeded
    entries keep their positions, IPs and vendors, and a seeded entry whose IP
    no result reports is left as it was; every reported IP has an entry; every
    entry is seeded or reported; and with no hidden seed entry, no hidden entry
    appears.
   */
  lemma {:induction false} FoldInvariant(devices: seq<Device>, results: seq<Option<ScanRecord>>)
    requires UniqueIps(devices)
    ensures var out := Fold(devices, results);
      && UniqueIps(out)
      && |devices| <= |out| <= |devices| + |results|
      && (forall i :: 0 <= i < |devices| ==> out[i].ip == devices[i].ip && out[i].vendor == devices[i].vendor)
      && (NoHidden(devices) ==> NoHidden(out))
      && (forall ip :: Reported(results, ip) ==> ip in Ips(out))
      && (forall i :: 0 <= i < |out| ==> out[i].ip in Ips(devices) || Reported(results, out[i].ip))
      && (forall i :: 0 <= i < |devices| && !Reported(results, devices[i].ip) ==> out[i] == devices[i])
    decreases |results|
  {
    if |results| > 0 {
      var next := if results[0].Some? then Upsert(devices, results[0].value) else devices;
      if results[0].Some? {
        UpsertInvariant(devices, results[0].value);
      }
      FoldInvariant(next, results[1..]);
      var out := Fold(devices, results);
      assert out == Fold(next, results[1..]);
      FoldListsReportedStep(results, next, out);
      FoldAddsOnlyReportedStep(devices, results, next, out);
      FoldUnreportedStep(devices, results, next, out);
    }
  }

  /** The record is present and not hidden: the one result `Reported` can come from first. */
  predicate HeadReports(results: seq<Option<ScanRecord>>, ip: string)
    requires |results| > 0
  {
    results[0].Some? && results[0].value.status != Hidden && results[0].value.ip == ip
  }

  /** Reported IPs of the tail stay listed; the head's IP is listed after its upsert. */
  lemma FoldListsReportedStep(results: seq<Option<ScanRecord>>, next: seq<Device>, out: seq<Device>)
    requires |results| > 0
    requires results[0].Some? && results[0].value.status != Hidden ==>
      exists i :: 0 <= i < |next| && next[i].ip == results[0].value.ip
    requires |next| <= |out| && forall i :: 0 <= i < |next| ==> out[i].ip == next[i].ip
    requires forall ip :: Reported(results[1..], ip) ==> ip in Ips(out)
    ensures forall ip :: Reported(results, ip) ==> ip in Ips(out)
  {
    forall ip | Reported(results, ip) ensures ip in Ips(out) {
      var j :| 0 <= j < |results| && results[j].Some? && results[j].value.status != Hidden && results[j].value.ip == ip;
      if j > 0 {
        assert results[1..][j - 1] == results[j];
        assert Reported(results[1..], ip);
      } else {
        var i :| 0 <= i < |next| && next[i].ip == ip;
        assert Ips(out)[i] == ip;
      }
    }
  }

  /** An entry after the tail's fold is seeded or reported, given the same of the head's upsert. */
  lemma FoldAddsOnlyReportedStep(devices: seq<Device>, results: seq<Option<ScanRecord>>, next: seq<Device>, out: seq<Device>)
    requires |results| > 0
    requires forall i :: 0 <= i < |next| ==> next[i].ip in Ips(devices) || HeadReports(results, next[i].ip)
    requires forall i :: 0 <= i < |out| ==> out[i].ip in Ips(next) || Reported(results[1..], out[i].ip)
    ensures forall i :: 0 <= i < |out| ==> out[i].ip in Ips(devices) || Reported(results, out[i].ip)
  {
    forall i | 0 <= i < |out| ensures out[i].ip in Ips(devices) || Reported(results, out[i].ip) {
      if out[i].ip in Ips(next) {
        var m :| 0 <= m < |next| && Ips(next)[m] == out[i].ip;
        if HeadReports(results, next[m].ip) {
          assert results[0].Some? && results[0].value.status != Hidden && results[0].value.ip == out[i].ip;
        }
      } else {
        var j :| 0 <= j < |results[1..]| && results[1..][j].Some? && results[1..][j].value.status != Hidden
          && results[1..][j].value.ip == out[i].ip;
        assert results[j + 1] == results[1..][j];
      }
    }
  }

  /** A seeded entry no result reports survives the head's upsert and the tail's fold unchanged. */
  lemma FoldUnreportedStep(devices: seq<Device>, results: seq<Option<ScanRecord>>, next: seq<Device>, out: seq<Device>)
    requires |results| > 0 && |devices| <= |next| <= |out|
    requires forall i :: 0 <= i < |devices| && !HeadReports(results, devices[i].ip) ==> next[i] == devices[i]
    requires forall i :: 0 <= i < |next| && !Reported(results[1..], next[i].ip) ==> out[i] == next[i]
    ensures forall i :: 0 <= i < |devices| && !Reported(results, devices[i].ip) ==> out[i] == devices[i]
  {
    forall i | 0 <= i < |devices| && !Reported(results, devices[i].ip) ensures out[i] == devices[i] {
      assert !HeadReports(results, devices[i].ip);
      assert next[i] == devices[i];
      forall j | 0 <= j < |results[1..]|
        ensures !(results[1..][j].Some? && results[1..][j].value.status != Hidden && results[1..][j].value.ip == devices[i].ip)
      {
        assert results[1..][j] == results[j + 1];
      }
    }
  }

  // ---------------------------------------------------------------------------
  // The GUI scanners
  // ---------------------------------------------------------------------------

  /** `[str(ip) for ip in network.hosts()]`. */
  function HostIps(n: Ipv4.Network): (r: seq<string>)
    requires Ipv4.ValidNetwork(n)
    ensures |r| == |Ipv4.Hosts(n)|
    ensures forall i :: 0 <= i < |r| ==> r[i] == Ipv4.Dotted(Ipv4.Hosts(n)[i])
  {
    var hs := Ipv4.Hosts(n);
    seq(|hs|, i requires 0 <= i < |hs| => Ipv4.Dotted(hs[i]))
  }

  /** The per-host results of `scan_ip`, in host order. */
  function ScanResults(ips: seq<string>, probes: string -> Option<HostProbe>, known: seq<Device>, env: Env):
    (r: seq<Option<ScanRecord>>)
    ensures |r| == |ips|
    ensures forall i :: 0 <= i < |ips| ==> (r[i].Some? <==> probes(ips[i]).Some?)
    ensures forall i :: 0 <= i < |ips| && r[i].Some? ==> r[i].value == ScanIp(ips[i], probes(ips[i]).value, known, env)
  {
    seq(|ips|, i requires 0 <= i < |ips| =>
      match probes(ips[i])
      case None => None
      case Some(p) => Some(ScanIp(ips[i], p, known, env)))
  }

  /**
    `scan_network_for_devices(_live)`: an unparseable subnet gives the empty
    list; otherwise the known devices, followed by the sliced fold of the
    host results.
   */
  function ScanNetwork(subnet: string, known: seq<Device>, probes: string -> Option<HostProbe>, env: Env): seq<Device> {
    match Ipv4.ParseNetwork(subnet)
    case None => []
    case Some(n) =>
      var results := ScanResults(HostIps(n), probes, known, env);
      FoldChunks(known, Chunks(results, ChunkSize))
  }

  /**
    The scan result, for a known list with unique IPs and no hidden entry: its
    first entries are the known devices' IPs in order, each keeping its vendor,
    and a known device no host result reports is kept unchanged; it holds each
    IP once, holds every host that answered, and nothing hidden. A known device
    that is reported again has its six scanned keys overwritten.
   */
  lemma ScanNetworkInvariant(subnet: string, known: seq<Device>, probes: string -> Option<HostProbe>, env: Env)
    requires UniqueIps(known) && NoHidden(known)
    requires Ipv4.ParseNetwork(subnet).Some?
    ensures var out := ScanNetwork(subnet, known, probes, env);
      && UniqueIps(out) && NoHidden(out)
      && |out| >= |known| && (forall i :: 0 <= i < |known| ==> out[i].ip == known[i].ip && out[i].vendor == known[i].vendor)
      && (forall ip :: Reported(ScanResults(HostIps(Ipv4.ParseNetwork(subnet).value), probes, known, env), ip) ==> ip in Ips(out))
      && (forall i :: 0 <= i < |known| && !Reported(ScanResults(HostIps(Ipv4.ParseNetwork(subnet).value), probes, known, env), known[i].ip)
            ==> out[i] == known[i])
  {
    var n := Ipv4.ParseNetwork(subnet).value;
    var results := ScanResults(HostIps(n), probes, known, env);
    FoldChunksIsFold(known, Chunks(results, ChunkSize));
    FlattenChunks(results, ChunkSize);
    FoldInvariant(known, results);
  }

  /** An unparseable subnet scans to nothing, known devices included. */
  lemma BadSubnetScansNothing(subnet: string, known: seq<Device>, probes: string -> Option<HostProbe>, env: Env)
    requires Ipv4.ParseNetwork(subnet).None?
    ensures ScanNetwork(subnet, known, probes, env) == []
  {
  }

  // ---------------------------------------------------------------------------
  // The CLI progress scan
  // ---------------------------------------------------------------------------

  /** The records kept by the progress scan: present and not hidden, as devices, in order. */
  function Kept(results: seq<Option<ScanRecord>>): (r: seq<Device>)
    ensures |r| <= |results|
    ensures NoHidden(r)
  {
    if |results| == 0 then []
    else
      var rest := Kept(results[1..]);
      if results[0].Some? && results[0].value.status != Hidden then [AsDevice(results[0].value)] + rest else rest
  }

  lemma {:induction false} KeptAppend(a: seq<Option<ScanRecord>>, b: seq<Option<ScanRecord>>)
    ensures Kept(a + b) == Kept(a) + Kept(b)
  {
    if |a| > 0 {
      KeptAppend(a[1..], b);
      assert (a + b)[1..] == a[1..] + b;
    } else {
      assert a + b == b;
    }
  }

  datatype Progress = Progress(devices: seq<Device>, scanned: nat, interrupted: bool, slicesDone: nat)

  /** Whether the interrupt key was seen at the check before slice `i`. */
  predicate InterruptAt(interrupts: seq<bool>, i: nat) {
    i < |interrupts| && interrupts[i]
  }

  /**
    The slice loop of `scan_network_for_devices_with_progress`: before each
    slice the interrupt key is checked and, if pressed, the loop stops;
    otherwise the slice's kept records are appended and all its hosts counted.
   */
  function ProgressSlices(chunks: seq<seq<Option<ScanRecord>>>, interrupts: seq<bool>): (r: Progress)
    ensures r.slicesDone <= |chunks|
    ensures r.interrupted <==> r.slicesDone < |chunks|
    decreases |chunks|
  {
    if |chunks| == 0 then Progress([], 0, false, 0)
    else if InterruptAt(interrupts, 0) then Progress([], 0, true, 0)
    else
      var rest := ProgressSlices(chunks[1..], if |interrupts| > 0 then interrupts[1..] else []);
      Progress(Kept(chunks[0]) + rest.devices, |chunks[0]| + rest.scanned, rest.interrupted, rest.slicesDone + 1)
  }

  /**
    The progress scan stops at the first slice whose check saw the interrupt;
    it keeps exactly the non-hidden records of the slices before it and counts
    every one of their hosts, failures included.
   */
  lemma {:induction false} ProgressSlicesSpec(chunks: seq<seq<Option<ScanRecord>>>, interrupts: seq<bool>)
    ensures var r := ProgressSlices(chunks, interrupts);
      && (forall j :: 0 <= j < r.slicesDone ==> !InterruptAt(interrupts, j))
      && (r.interrupted ==> InterruptAt(interrupts, r.slicesDone))
      && r.devices == Kept(Flatten(chunks[..r.slicesDone]))
      && r.scanned == |Flatten(chunks[..r.slicesDone])|
    decreases |chunks|
  {
    var r := ProgressSlices(chunks, interrupts);
    if |chunks| > 0 && !InterruptAt(interrupts, 0) {
      var tail := if |interrupts| > 0 then interrupts[1..] else [];
      ProgressSlicesSpec(chunks[1..], tail);
      var rest := ProgressSlices(chunks[1..], tail);
      forall j | 0 < j < |interrupts| ensures InterruptAt(interrupts, j) == InterruptAt(tail, j - 1) {
      }
      assert chunks[..r.slicesDone] == [chunks[0]] + chunks[1..][..rest.slicesDone];
      FlattenAppend([chunks[0]], chunks[1..][..rest.slicesDone]);
      assert Flatten([chunks[0]]) == chunks[0] + Flatten<Option<ScanRecord>>([]);
      KeptAppend(chunks[0], Flatten(chunks[1..][..rest.slicesDone]));
    } else {
      assert chunks[..0] == [];
    }
  }

  /** The per-host results of `scan_single_ip`, in host order. */
  function SingleResults(ips: seq<string>, probes: string -> Option<HostProbe>, env: Env): (r: seq<Option<ScanRecord>>)
    ensures |r| == |ips|
    ensures forall i :: 0 <= i < |ips| ==> (r[i].Some? <==> probes(ips[i]).Some?)
    ensures forall i :: 0 <= i < |ips| && r[i].Some? ==> r[i].value == ScanSingleIp(ips[i], probes(ips[i]).value, env)
  {
    seq(|ips|, i requires 0 <= i < |ips| =>
      match probes(ips[i])
      case None => None
      case Some(p) => Some(ScanSingleIp(ips[i], p, env)))
  }

  /** `scan_network_for_devices_with_progress`: an unparseable subnet gives no devices. */
  function ScanWithProgress(subnet: string, probes: string -> Option<HostProbe>, interrupts: seq<bool>, env: Env): Progress {
    match Ipv4.ParseNetwork(subnet)
    case None => Progress([], 0, false, 0)
    case Some(n) => ProgressSlices(Chunks(SingleResults(HostIps(n), probes, env), ChunkSize), interrupts)
  }

  /** Without an interrupt the progress scan counts every host and keeps every live one. */
  lemma UninterruptedProgress(subnet: string, probes: string -> Option<HostProbe>, interrupts: seq<bool>, env: Env)
    requires Ipv4.ParseNetwork(subnet).Some?
    requires forall i :: 0 <= i < |interrupts| ==> !interrupts[i]
    ensures var n := Ipv4.ParseNetwork(subnet).value;
      var r := ScanWithProgress(subnet, probes, interrupts, env);
      && !r.interrupted
      && r.scanned == |Ipv4.Hosts(n)|
      && r.devices == Kept(SingleResults(HostIps(n), probes, env))
  {
    var n := Ipv4.ParseNetwork(subnet).value;
    var results := SingleResults(HostIps(n), probes, env);
    var chunks := Chunks(results, ChunkSize);
    ProgressSlicesSpec(chunks, interrupts);
    var r := ProgressSlices(chunks, interrupts);
    assert !r.interrupted;
    assert chunks[..r.slicesDone] == chunks;
    FlattenChunks(results, ChunkSize);
  }
}

=== FILE: selection.dfy ===
/**
  The CLI device selection (wol_caster.py:4380-4453): the entered text is a
  range `a-b`, a comma list `a,b,c` or one number, each counted from 1 over
  the selection list; a device is remembered in the selected set under the
  key `interface:ip`, and the cast later recovers the IP by splitting the key
  at a colon (wol_caster.py:4156, 4477, 4502).
 */
module Selection {
  import opened Wrappers
  import opened Text
  import opened Devices

  // ---------------------------------------------------------------------------
  // Device keys
  // ---------------------------------------------------------------------------

  /** `f"{interface}:{ip}"`. */
  function DeviceKey(iface: string, ip: string): string {
    iface + ":" + ip
  }

  /**
    `key.split(':', 1)` unpacked into two names, as the program reads a key
    back: the text before the first colon and everything after it; a key
    without a colon does not unpack.
   */
  function SplitKeyAsWritten(key: string): (r: Option<(string, string)>)
    ensures r.None? <==> ':' !in key
    ensures r.Some? ==> key == DeviceKey(r.value.0, r.value.1) && ':' !in r.value.0
  {
    if |key| == 0 then None
    else if key[0] == ':' then Some(("", key[1..]))
    else
      match SplitKeyAsWritten(key[1..])
      case None => None
      case Some(p) => Some(([key[0]] + p.0, p.1))
  }

  /** A key whose interface has no colon reads back as written. */
  lemma {:induction false} SplitKeyAsWrittenRoundTrip(iface: string, ip: string)
    requires ':' !in iface
    ensures SplitKeyAsWritten(DeviceKey(iface, ip)) == Some((iface, ip))
    decreases |iface|
  {
    var key := DeviceKey(iface, ip);
    if |iface| > 0 {
      var tail := DeviceKey(iface[1..], ip);
      SplitKeyAsWrittenRoundTrip(iface[1..], ip);
      assert key[0] == iface[0] && key[1..] == tail;
      assert SplitKeyAsWritten(key) == Some(([key[0]] + iface[1..], ip));
      assert [iface[0]] + iface[1..] == iface;
    } else {
      assert key[0] == ':' && key[1..] == ip;
    }
  }

  /**
    An interface alias with a colon (Linux names them `eth0:1`) is cut at its
    own colon: the key of 10.0.0.5 on `eth0:1` reads back as interface `eth0`
    and IP `1:10.0.0.5`, which is the address the cast then targets.
   */
  lemma AliasKeyMisread()
    ensures SplitKeyAsWritten(DeviceKey("eth0:1", "10.0.0.5")) == Some(("eth0", "1:10.0.0.5"))
    ensures SplitKeyAsWritten(DeviceKey("eth0:1", "10.0.0.5")).value.1 != "10.0.0.5"
  {
    assert DeviceKey("eth0:1", "10.0.0.5") == DeviceKey("eth0", "1:10.0.0.5");
    SplitKeyAsWrittenRoundTrip("eth0", "1:10.0.0.5");
  }

  /**
    The reading the key format needs: an IPv4 address never holds a colon, so
    the key is cut at its last colon.
   */
  function SplitKey(key: string): (r: Option<(string, string)>)
    ensures r.None? <==> ':' !in key
    ensures r.Some? ==> key == DeviceKey(r.value.0, r.value.1) && ':' !in r.value.1
  {
    if |key| == 0 then None
    else if key[|key| - 1] == ':' then Some((key[..|key| - 1], ""))
    else
      match SplitKey(key[..|key| - 1])
      case None =>
        assert forall i :: 0 <= i < |key| - 1 ==> key[i] == key[..|key| - 1][i];
        None
      case Some(p) => Some((p.0, p.1 + [key[|key| - 1]]))
  }

  /** Every key of a colon-free IP reads back as the interface and IP it was built from. */
  lemma {:induction false} SplitKeyRoundTrip(iface: string, ip: string)
    requires ':' !in ip
    ensures SplitKey(DeviceKey(iface, ip)) == Some((iface, ip))
    decreases |ip|
  {
    var key := DeviceKey(iface, ip);
    if |ip| > 0 {
      var front := ip[..|ip| - 1];
      SplitKeyRoundTrip(iface, front);
      assert key[..|key| - 1] == DeviceKey(iface, front);
      assert front + [ip[|ip| - 1]] == ip;
    } else {
      assert key[..|key| - 1] == iface;
    }
  }

  /** The corrected reading recovers the alias key that the first-colon reading misreads. */
  lemma AliasKeyRead()
    ensures SplitKey(DeviceKey("eth0:1", "10.0.0.5")) == Some(("eth0:1", "10.0.0.5"))
  {
    SplitKeyRoundTrip("eth0:1", "10.0.0.5");
  }

  /**
    The addresses the cast to the selected devices sends to: each key is read
    back with the first-colon split, and a key that does not unpack sends
    nothing (wol_caster.py:4500-4503).
   */
  function CastTargets(selected: set<string>): (r: set<string>)
    ensures forall ip :: ip in r <==>
      exists k :: k in selected && SplitKeyAsWritten(k).Some? && SplitKeyAsWritten(k).value.1 == ip
  {
    set k | k in selected && SplitKeyAsWritten(k).Some? :: SplitKeyAsWritten(k).value.1
  }

  /** When no interface name holds a colon, casting to the keys of a list targets exactly its IPs. */
  lemma CastTargetsOfKeys(all: seq<(Device, string)>)
    requires forall i :: 0 <= i < |all| ==> ':' !in all[i].1
    ensures CastTargets(set i | 0 <= i < |all| :: KeyAt(all, i)) == set i | 0 <= i < |all| :: all[i].0.ip
  {
    var keys := set i | 0 <= i < |all| :: KeyAt(all, i);
    forall ip | ip in CastTargets(keys) ensures exists i :: 0 <= i < |all| && all[i].0.ip == ip {
      var k :| k in keys && SplitKeyAsWritten(k).Some? && SplitKeyAsWritten(k).value.1 == ip;
      var i :| 0 <= i < |all| && KeyAt(all, i) == k;
      SplitKeyAsWrittenRoundTrip(all[i].1, all[i].0.ip);
    }
    forall i | 0 <= i < |all| ensures all[i].0.ip in CastTargets(keys) {
      SplitKeyAsWrittenRoundTrip(all[i].1, all[i].0.ip);
      assert KeyAt(all, i) in keys;
    }
  }

  /** The cast to a device selected on the alias `eth0:1` is sent to `1:10.0.0.5`, not to its address. */
  lemma AliasCastMisdirected()
    ensures CastTargets({DeviceKey("eth0:1", "10.0.0.5")}) == {"1:10.0.0.5"}
  {
    AliasKeyMisread();
  }

  /** The cast targets under the corrected last-colon reading of the keys. */
  function CorrectedCastTargets(selected: set<string>): (r: set<string>)
    ensures forall ip :: ip in r <==> exists k :: k in selected && SplitKey(k).Some? && SplitKey(k).value.1 == ip
  {
    set k | k in selected && SplitKey(k).Some? :: SplitKey(k).value.1
  }

  /** Under the corrected reading the keys of any list, alias interfaces included, target exactly its IPs. */
  lemma CorrectedCastTargetsOfKeys(all: seq<(Device, string)>)
    requires forall i :: 0 <= i < |all| ==> ':' !in all[i].0.ip
    ensures CorrectedCastTargets(set i | 0 <= i < |all| :: KeyAt(all, i)) == set i | 0 <= i < |all| :: all[i].0.ip
  {
    var keys := set i | 0 <= i < |all| :: KeyAt(all, i);
    forall ip | ip in CorrectedCastTargets(keys) ensures exists i :: 0 <= i < |all| && all[i].0.ip == ip {
      var k :| k in keys && SplitKey(k).Some? && SplitKey(k).value.1 == ip;
      var i :| 0 <= i < |all| && KeyAt(all, i) == k;
      SplitKeyRoundTrip(all[i].1, all[i].0.ip);
    }
    forall i | 0 <= i < |all| ensures all[i].0.ip in CorrectedCastTargets(keys) {
      SplitKeyRoundTrip(all[i].1, all[i].0.ip);
      assert KeyAt(all, i) in keys;
    }
  }

  // ---------------------------------------------------------------------------
  // Parsing the entered choice
  // ---------------------------------------------------------------------------

  /** What the entered text asks for. */
  datatype Choice = Range(start: int, end: int) | Picks(numbers: seq<int>) | Single(number: int) | Invalid

  /** Every piece reads as an integer. */
  predicate AllInts(parts: seq<string>) {
    forall i :: 0 <= i < |parts| ==> ParseInt(parts[i]).Some?
  }

  /** `start, end = map(int, t.split('-'))`: exactly two pieces, both integers. */
  function ParseRange(t: string): (c: Choice)
    ensures c.Range? || c.Invalid?
    ensures c.Range? ==>
      && |Split(t, '-')| == 2
      && ParseInt(Split(t, '-')[0]) == Some(c.start) && ParseInt(Split(t, '-')[1]) == Some(c.end)
    ensures c.Invalid? ==> |Split(t, '-')| != 2 || !AllInts(Split(t, '-'))
  {
    var parts := Split(t, '-');
    if |parts| == 2 && ParseInt(parts[0]).Some? && ParseInt(parts[1]).Some? then
      Range(ParseInt(parts[0]).value, ParseInt(parts[1]).value)
    else Invalid
  }

  /** `[int(x.strip()) for x in t.split(',')]`: every piece an integer. */
  function ParseList(t: string): (c: Choice)
    requires ',' in t
    ensures c.Picks? || c.Invalid?
    ensures c.Picks? <==> AllInts(Split(t, ','))
    ensures c.Picks? ==>
      && |c.numbers| == |Split(t, ',')| >= 2
      && forall i :: 0 <= i < |c.numbers| ==> ParseInt(Split(t, ',')[i]) == Some(c.numbers[i])
  {
    var parts := Split(t, ',');
    if AllInts(parts) then
      assert |parts| >= 2 by {
        var i :| 0 <= i < |t| && t[i] == ',';
        CommaCounted(t, i);
      }
      Picks(seq(|parts|, i requires 0 <= i < |parts| => ParseInt(parts[i]).value))
    else Invalid
  }

  /**
    The entered text after `strip()`: with a `-` it must split into exactly
    two integers; otherwise with a `,` every piece must be an integer;
    otherwise it must be one integer. Anything else raises `ValueError`,
    which leaves the selection unchanged.
   */
  function ParseChoice(input: string): (c: Choice)
    ensures c.Range? ==> '-' in Strip(input)
    ensures c.Picks? ==> '-' !in Strip(input) && ',' in Strip(input) && |c.numbers| >= 2
    ensures c.Single? ==> '-' !in Strip(input) && ',' !in Strip(input) && ParseInt(Strip(input)) == Some(c.number)
    ensures c.Invalid? ==> ParseInt(Strip(input)).None? || '-' in Strip(input) || ',' in Strip(input)
  {
    var t := Strip(input);
    if '-' in t then ParseRange(t)
    else if ',' in t then ParseList(t)
    else
      match ParseInt(t)
      case None => Invalid
      case Some(n) => Single(n)
  }

  /** A string holding the character at some index counts it at least once. */
  lemma {:induction false} CommaCounted(s: string, i: int)
    requires 0 <= i < |s| && s[i] == ','
    ensures CountChar(s, ',') >= 1
    decreases |s|
  {
    if i > 0 {
      CommaCounted(s[1..], i - 1);
    }
  }

  /** The decimal renderings of a list of numbers. */
  function Numerals(ns: seq<nat>): (r: seq<string>)
    ensures |r| == |ns| && forall i :: 0 <= i < |ns| ==> r[i] == NatToString(ns[i])
  {
    seq(|ns|, i requires 0 <= i < |ns| => NatToString(ns[i]))
  }

  /** A string of digits holds no separator. */
  lemma DigitsHaveNoSeparator(s: string)
    requires AllDigits(s)
    ensures '-' !in s && ',' !in s && ':' !in s
    ensures forall i :: 0 <= i < |s| ==> !IsSpace(s[i])
  {
  }

  /** A join of digit strings holds only digits and the separator. */
  lemma {:induction false} JoinOfDigits(parts: seq<string>, c: char)
    requires forall i :: 0 <= i < |parts| ==> AllDigits(parts[i])
    ensures forall i :: 0 <= i < |Join(parts, [c])| ==> IsDigit(Join(parts, [c])[i]) || Join(parts, [c])[i] == c
    decreases |parts|
  {
    if |parts| > 1 {
      JoinOfDigits(parts[1..], c);
    }
  }

  /** Typing `a-b` selects the range from `a` to `b`. */
  lemma RangeParses(a: nat, b: nat)
    ensures ParseChoice(NatToString(a) + "-" + NatToString(b)) == Range(a, b)
  {
    var sa := NatToString(a);
    var sb := NatToString(b);
    var t := sa + "-" + sb;
    DigitsHaveNoSeparator(sa);
    DigitsHaveNoSeparator(sb);
    assert Join([sa, sb], "-") == t;
    SplitJoin([sa, sb], '-');
    assert forall i :: 0 <= i < |t| ==> !IsSpace(t[i]) by {
      JoinOfDigits([sa, sb], '-');
    }
    assert Strip(t) == t;
    assert t[|sa|] == '-';
    ParseIntOfNatToString(a);
    ParseIntOfNatToString(b);
  }

  /** The joined numerals split at the commas into the numerals. */
  lemma NumeralsSplit(ns: seq<nat>)
    requires |ns| >= 2
    ensures Split(Join(Numerals(ns), ","), ',') == Numerals(ns)
  {
    var parts := Numerals(ns);
    forall i | 0 <= i < |parts| ensures ',' !in parts[i] {
      DigitsHaveNoSeparator(parts[i]);
    }
    SplitJoin(parts, ',');
  }

  /** The joined numerals are their own strip and hold commas but no dash. */
  lemma NumeralsText(ns: seq<nat>)
    requires |ns| >= 2
    ensures var t := Join(Numerals(ns), ",");
      Strip(t) == t && '-' !in t && ',' in t
  {
    var parts := Numerals(ns);
    var t := Join(parts, ",");
    JoinOfDigits(parts, ',');
    assert t == parts[0] + "," + Join(parts[1..], ",");
    assert t[|parts[0]|] == ',';
  }

  /** Typing two or more numbers separated by commas picks exactly those numbers. */
  lemma PicksParse(ns: seq<nat>)
    requires |ns| >= 2
    ensures ParseChoice(Join(Numerals(ns), ",")) == Picks(ns)
  {
    var parts := Numerals(ns);
    NumeralsSplit(ns);
    NumeralsText(ns);
    forall i | 0 <= i < |parts| ensures ParseInt(parts[i]) == Some(ns[i]) {
      ParseIntOfNatToString(ns[i]);
    }
    assert AllInts(parts);
    var c := ParseList(Join(parts, ","));
    assert c.numbers == ns;
  }

  /** A text made of two dash-free pieces and one dash splits into those pieces. */
  lemma SplitAtDash(t: string, a: string, b: string)
    requires t == a + "-" + b && '-' !in a && '-' !in b
    ensures Split(t, '-') == [a, b]
  {
    assert Join([a, b], "-") == t;
    SplitJoin([a, b], '-');
  }

  /** Typing one number toggles that number. */
  lemma SingleParses(n: nat)
    ensures ParseChoice(NatToString(n)) == Single(n)
  {
    var s := NatToString(n);
    DigitsHaveNoSeparator(s);
    assert Strip(s) == s;
    ParseIntOfNatToString(n);
  }

  /** Text with one dash whose second piece is no integer is rejected as a range, whatever else it holds. */
  lemma DashThenNonNumber(t: string, a: string, b: string)
    requires t == a + "-" + b && '-' !in a && '-' !in b
    requires Strip(t) == t && ParseInt(b).None?
    ensures ParseChoice(t) == Invalid
  {
    assert t[|a|] == '-';
    SplitAtDash(t, a, b);
  }

  /** A range and a list cannot be mixed: `1-3,5` splits at the dash into `1` and `3,5`, and the second is no number. */
  lemma MixedInputIsInvalid(t: string)
    requires t == "1-3,5"
    ensures ParseChoice(t) == Invalid
  {
    var a, b := "1", "3,5";
    assert t == a + "-" + b && '-' !in a && '-' !in b;
    StripUnpadded(t);
    assert b[1] == ',';
    CommaTextIsNoInt(b);
    DashThenNonNumber(t, a, b);
  }

  // ---------------------------------------------------------------------------
  // Applying a choice to the selected set
  // ---------------------------------------------------------------------------

  /** The key of the device numbered `i + 1` in the selection list. */
  function KeyAt(all: seq<(Device, string)>, i: nat): string
    requires i < |all|
  {
    DeviceKey(all[i].1, all[i].0.ip)
  }

  /** The keys of the devices numbered `a` to `b`. */
  function RangeKeys(all: seq<(Device, string)>, a: int, b: int): (r: set<string>)
    requires 1 <= a <= b <= |all|
    ensures forall k :: k in r <==> exists i :: a - 1 <= i < b && KeyAt(all, i) == k
  {
    set i | a - 1 <= i < b :: KeyAt(all, i)
  }

  /** The keys of the listed numbers that fall inside the list; the others are dropped. */
  function PickedKeys(all: seq<(Device, string)>, ns: seq<int>): (r: set<string>)
    ensures forall k :: k in r <==> exists j :: 0 <= j < |ns| && 1 <= ns[j] <= |all| && KeyAt(all, ns[j] - 1) == k
  {
    set j | 0 <= j < |ns| && 1 <= ns[j] <= |all| :: KeyAt(all, ns[j] - 1)
  }

  /** The keys a range or list adds: nothing for an invalid range or an invalid text. */
  function AddedKeys(c: Choice, all: seq<(Device, string)>): set<string>
    requires !c.Single?
  {
    match c
    case Range(a, b) => if 1 <= a <= b <= |all| then RangeKeys(all, a, b) else {}
    case Picks(ns) => PickedKeys(all, ns)
    case Invalid => {}
  }

  /** `selected` with `k` added when absent and removed when present. */
  function Toggle(selected: set<string>, k: string): (r: set<string>)
    ensures k in r <==> k !in selected
    ensures forall k' :: k' != k ==> (k' in r <==> k' in selected)
  {
    if k in selected then selected - {k} else selected + {k}
  }

  /**
    The effect of a choice: a valid range or any in-range list numbers add
    their keys; one in-range number toggles its key; anything else leaves
    the set as it was.
   */
  function ApplyChoice(c: Choice, all: seq<(Device, string)>, selected: set<string>): (r: set<string>)
    ensures c.Range? ==> forall k :: k in r <==>
      k in selected || (1 <= c.start <= c.end <= |all| && exists i :: c.start - 1 <= i < c.end && KeyAt(all, i) == k)
    ensures c.Picks? ==> forall k :: k in r <==>
      k in selected || exists j :: 0 <= j < |c.numbers| && 1 <= c.numbers[j] <= |all| && KeyAt(all, c.numbers[j] - 1) == k
    ensures c.Invalid? ==> r == selected
    ensures c.Single? && 1 <= c.number <= |all| ==>
      var k := KeyAt(all, c.number - 1);
      (k in r <==> k !in selected) && forall k' :: k' != k ==> (k' in r <==> k' in selected)
    ensures c.Single? && !(1 <= c.number <= |all|) ==> r == selected
  {
    if c.Single? then
      if 1 <= c.number <= |all| then Toggle(selected, KeyAt(all, c.number - 1)) else selected
    else selected + AddedKeys(c, all)
  }

  /** One round of the selection prompt on the entered text. */
  function ApplySelection(input: string, all: seq<(Device, string)>, selected: set<string>): (r: set<string>)
    ensures !ParseChoice(input).Single? ==> selected <= r
    ensures forall k :: k in r && k !in selected ==> exists i :: 0 <= i < |all| && KeyAt(all, i) == k
  {
    ApplyChoice(ParseChoice(input), all, selected)
  }

  /** Only a single number can take a device out of the selection. */
  lemma OnlySingleDeselects(c: Choice, all: seq<(Device, string)>, selected: set<string>)
    requires !c.Single?
    ensures selected <= ApplyChoice(c, all, selected)
  {
  }

  /** Repeating a range or list changes nothing more. */
  lemma AddingIsIdempotent(c: Choice, all: seq<(Device, string)>, selected: set<string>)
    requires !c.Single?
    ensures ApplyChoice(c, all, ApplyChoice(c, all, selected)) == ApplyChoice(c, all, selected)
  {
  }

  /** Entering the same number twice restores the selection. */
  lemma ToggleTwiceRestores(c: Choice, all: seq<(Device, string)>, selected: set<string>)
    requires c.Single?
    ensures ApplyChoice(c, all, ApplyChoice(c, all, selected)) == selected
  {
  }

  /** `1-n` selects every device of the list. */
  lemma FullRangeSelectsAll(all: seq<(Device, string)>, selected: set<string>)
    requires |all| >= 1
    ensures forall i :: 0 <= i < |all| ==>
      KeyAt(all, i) in ApplySelection(NatToString(1) + "-" + NatToString(|all|), all, selected)
  {
    var input := NatToString(1) + "-" + NatToString(|all|);
    RangeParses(1, |all|);
    var r := ApplySelection(input, all, selected);
    assert r == ApplyChoice(Range(1, |all|), all, selected);
    forall i | 0 <= i < |all| ensures KeyAt(all, i) in r {
      assert 1 - 1 <= i < |all|;
    }
  }
}

=== FILE: text.dfy ===
/**
  The Python string operations the discovery engine is built from, stated over
  `seq<char>`: separator removal, `split` with and without an argument, `join`,
  `strip`, substring tests, ASCII upper-casing, and decimal rendering and
  parsing of integers.
 */
module Text {
  import opened Wrappers

  /** Python's `str.isspace` restricted to the ASCII range. */
  predicate IsSpace(c: char) {
    c == ' ' || c == '\t' || c == '\n' || c == '\r' || c == '\U{0B}' || c == '\U{0C}'
    || ('\U{1C}' <= c <= '\U{1F}')
  }

  predicate IsDigit(c: char) {
    '0' <= c <= '9'
  }

  predicate IsHexDigit(c: char) {
    '0' <= c <= '9' || 'A' <= c <= 'F' || 'a' <= c <= 'f'
  }

  predicate AllDigits(s: string) {
    forall i :: 0 <= i < |s| ==> IsDigit(s[i])
  }

  // ---------------------------------------------------------------------------
  // Removing a character, upper-casing
  // ---------------------------------------------------------------------------

  /** `s.replace(c, '')` for a single character `c`. */
  function RemoveChar(s: string, c: char): (r: string)
    ensures c !in r
    ensures |r| <= |s|
    ensures forall x :: x in r <==> x in s && x != c
    ensures c !in s ==> r == s
  {
    if |s| == 0 then ""
    else (if s[0] == c then "" else [s[0]]) + RemoveChar(s[1..], c)
  }

  /** Removing a character distributes over concatenation. */
  lemma {:induction false} RemoveCharConcat(a: string, b: string, c: char)
    ensures RemoveChar(a + b, c) == RemoveChar(a, c) + RemoveChar(b, c)
  {
    if |a| > 0 {
      var head: string := if a[0] == c then "" else [a[0]];
      assert (a + b)[0] == a[0] && (a + b)[1..] == a[1..] + b;
      RemoveCharConcat(a[1..], b, c);
      assert RemoveChar(a + b, c) == head + (RemoveChar(a[1..], c) + RemoveChar(b, c));
      assert RemoveChar(a, c) == head + RemoveChar(a[1..], c);
    } else {
      assert a + b == b;
    }
  }

  /** `''.join(parts)`. */
  function Concat(parts: seq<string>): string {
    if |parts| == 0 then "" else parts[0] + Concat(parts[1..])
  }

  /** Removing the separator from a join of separator-free pieces concatenates the pieces. */
  lemma {:induction false} RemoveFromJoin(parts: seq<string>, c: char)
    requires forall i :: 0 <= i < |parts| ==> c !in parts[i]
    ensures RemoveChar(Join(parts, [c]), c) == Concat(parts)
  {
    if |parts| > 1 {
      RemoveFromJoin(parts[1..], c);
      RemoveCharConcat(parts[0] + [c], Join(parts[1..], [c]), c);
      RemoveCharConcat(parts[0], [c], c);
    } else if |parts| == 1 {
      assert Concat(parts) == parts[0] + Concat([]);
    }
  }

  /** Upper-casing of one character, ASCII letters only. */
  function UpperChar(c: char): char {
    if 'a' <= c <= 'z' then (c as int - 'a' as int + 'A' as int) as char else c
  }

  /** `s.upper()` on ASCII text. */
  function Upper(s: string): (r: string)
    ensures |r| == |s|
    ensures forall i :: 0 <= i < |s| ==> r[i] == UpperChar(s[i])
  {
    seq(|s|, i requires 0 <= i < |s| => UpperChar(s[i]))
  }

  /** `s.count(c)` for a single character. */
  function CountChar(s: string, c: char): nat {
    if |s| == 0 then 0 else (if s[0] == c then 1 else 0) + CountChar(s[1..], c)
  }

  // ---------------------------------------------------------------------------
  // Prefixes and substrings
  // ---------------------------------------------------------------------------

  /** `s.startswith(p)`. */
  predicate StartsWith(s: string, p: string) {
    |p| <= |s| && s[..|p|] == p
  }

  /** `sub` occurs in `s` starting at position `i`. */
  predicate OccursAt(s: string, sub: string, i: int) {
    0 <= i && i + |sub| <= |s| && s[i..i + |sub|] == sub
  }

  /** `sub in s`: `sub` occurs at some position of `s`. */
  predicate Contains(s: string, sub: string) {
    exists i | 0 <= i <= |s| :: OccursAt(s, sub, i)
  }

  lemma {:induction false} PrefixIsContained(s: string, p: string)
    requires StartsWith(s, p)
    ensures Contains(s, p)
  {
    assert s[0..0 + |p|] == s[..|p|];
    assert OccursAt(s, p, 0);
  }

  // ---------------------------------------------------------------------------
  // split(c) and join
  // ---------------------------------------------------------------------------

  /** `sep.join(parts)`. */
  function Join(parts: seq<string>, sep: string): string {
    if |parts| == 0 then ""
    else if |parts| == 1 then parts[0]
    else parts[0] + sep + Join(parts[1..], sep)
  }

  /**
    `s.split(c)` for a one-character separator: the maximal pieces between
    occurrences of `c`, including empty pieces, and always at least one.
   */
  function Split(s: string, c: char): (r: seq<string>)
    ensures |r| == CountChar(s, c) + 1
    ensures forall i :: 0 <= i < |r| ==> c !in r[i]
  {
    if |s| == 0 then [""]
    else
      var rest := Split(s[1..], c);
      if s[0] == c then [""] + rest
      else [[s[0]] + rest[0]] + rest[1..]
  }

  lemma JoinThree(a: string, b: string, c: string, sep: string)
    ensures Join([a, b, c], sep) == a + sep + b + sep + c
  {
    assert [a, b, c][1..] == [b, c] && [b, c][1..] == [c];
    assert Join([b, c], sep) == b + sep + c;
  }

  /** Joining the pieces of a split with the separator gives the string back. */
  lemma {:induction false} JoinSplit(s: string, c: char)
    ensures Join(Split(s, c), [c]) == s
  {
    if |s| > 0 {
      var rest := Split(s[1..], c);
      JoinSplit(s[1..], c);
      if s[0] == c {
        assert Split(s, c) == [""] + rest;
        assert ([""] + rest)[1..] == rest;
      } else {
        var r := Split(s, c);
        assert r == [[s[0]] + rest[0]] + rest[1..];
        if |rest| == 1 {
          assert r == [[s[0]] + rest[0]];
        } else {
          assert r[1..] == rest[1..];
          assert Join(rest, [c]) == rest[0] + [c] + Join(rest[1..], [c]);
        }
      }
    }
  }

  /** Splitting a join of separator-free pieces recovers the pieces. */
  lemma {:induction false} SplitJoin(parts: seq<string>, c: char)
    requires |parts| >= 1
    requires forall i :: 0 <= i < |parts| ==> c !in parts[i]
    ensures Split(Join(parts, [c]), c) == parts
    decreases |parts|, |parts[0]|
  {
    if |parts[0]| == 0 {
      if |parts| == 1 {
        assert Join(parts, [c]) == "";
      } else {
        var tail := Join(parts[1..], [c]);
        assert Join(parts, [c]) == [c] + tail;
        SplitJoin(parts[1..], c);
        assert ([c] + tail)[1..] == tail;
        assert [""] + parts[1..] == parts;
      }
    } else {
      var s := Join(parts, [c]);
      var head := parts[0][1..];
      var shorter := [head] + parts[1..];
      assert forall i :: 0 <= i < |shorter| ==> c !in shorter[i] by {
        forall i | 0 <= i < |shorter| ensures c !in shorter[i] {
          if i == 0 {
            assert forall x :: x in head ==> x in parts[0];
          } else {
            assert shorter[i] == parts[i];
          }
        }
      }
      if |parts| == 1 {
        assert s == parts[0];
        assert Join(shorter, [c]) == head;
      } else {
        assert s == parts[0] + [c] + Join(parts[1..], [c]);
        assert shorter[1..] == parts[1..];
        assert Join(shorter, [c]) == head + [c] + Join(parts[1..], [c]);
      }
      assert s[0] == parts[0][0];
      assert s[1..] == Join(shorter, [c]);
      SplitJoin(shorter, c);
      assert [parts[0][0]] + head == parts[0];
      assert [[parts[0][0]] + head] + parts[1..] == parts;
    }
  }

  /** Splitting a string that starts with a separator-free piece and a separator. */
  lemma {:induction false} SplitAfterPiece(x: string, c: char, y: string)
    requires c !in x
    ensures Split(x + [c] + y, c) == [x] + Split(y, c)
  {
    if |x| == 0 {
      assert x + [c] + y == [c] + y;
      assert ([c] + y)[1..] == y;
    } else {
      assert (x + [c] + y)[1..] == x[1..] + [c] + y;
      SplitAfterPiece(x[1..], c, y);
      assert [x[0]] + x[1..] == x;
    }
  }

  /** `s.split(c)[-1]`: the text after the last `c` (all of `s` if there is none). */
  function LastPiece(s: string, c: char): (r: string)
    ensures c !in r
  {
    var parts := Split(s, c);
    parts[|parts| - 1]
  }

  /** The last piece is a suffix of the string. */
  lemma {:induction false} LastPieceIsSuffix(s: string, c: char)
    ensures |LastPiece(s, c)| <= |s|
    ensures s[|s| - |LastPiece(s, c)|..] == LastPiece(s, c)
  {
    if |s| > 0 {
      LastPieceIsSuffix(s[1..], c);
      var rest := Split(s[1..], c);
      if s[0] != c && |rest| == 1 {
        JoinSplit(s[1..], c);
        assert LastPiece(s, c) == [s[0]] + rest[0];
        assert rest[0] == s[1..];
      } else {
        assert LastPiece(s, c) == LastPiece(s[1..], c);
      }
    }
  }

  // ---------------------------------------------------------------------------
  // strip() and split()
  // ---------------------------------------------------------------------------

  function TrimLeft(s: string): (r: string)
    ensures |r| <= |s| && r == s[|s| - |r|..]
    ensures |r| > 0 ==> !IsSpace(r[0])
    ensures forall i :: 0 <= i < |s| - |r| ==> IsSpace(s[i])
  {
    if |s| > 0 && IsSpace(s[0]) then TrimLeft(s[1..]) else s
  }

  function TrimRight(s: string): (r: string)
    ensures |r| <= |s| && r == s[..|r|]
    ensures |r| > 0 ==> !IsSpace(r[|r| - 1])
    ensures forall i :: |r| <= i < |s| ==> IsSpace(s[i])
  {
    if |s| > 0 && IsSpace(s[|s| - 1]) then TrimRight(s[..|s| - 1]) else s
  }

  /** `s.strip()`: the slice of `s` left after dropping surrounding whitespace. */
  function Strip(s: string): (r: string)
    ensures Contains(s, r)
    ensures |r| > 0 ==> !IsSpace(r[0]) && !IsSpace(r[|r| - 1])
    ensures (forall i :: 0 <= i < |s| ==> !IsSpace(s[i])) ==> r == s
  {
    var left := TrimLeft(s);
    var r := TrimRight(left);
    var i := |s| - |left|;
    assert left == s[i..] && r == left[..|r|];
    assert s[i..i + |r|] == r;
    assert OccursAt(s, r, i);
    r
  }

  /** Text with no whitespace at either end is its own strip. */
  lemma StripUnpadded(s: string)
    requires s != "" && !IsSpace(s[0]) && !IsSpace(s[|s| - 1])
    ensures Strip(s) == s
  {
  }

  /**
    `s.split()` with no argument: the maximal runs of non-whitespace, in order.
   */
  function Words(s: string): (r: seq<string>)
    ensures forall i :: 0 <= i < |r| ==> |r[i]| > 0
    ensures forall i, k :: 0 <= i < |r| && 0 <= k < |r[i]| ==> !IsSpace(r[i][k])
    decreases |s|
  {
    if |s| == 0 then []
    else if IsSpace(s[0]) then Words(s[1..])
    else
      var n := WordLength(s);
      [s[..n]] + Words(s[n..])
  }

  /** Length of the run of non-whitespace at the start of `s`. */
  function WordLength(s: string): (n: nat)
    ensures n <= |s|
    ensures forall k :: 0 <= k < n ==> !IsSpace(s[k])
    ensures n == |s| || IsSpace(s[n])
    ensures |s| > 0 && !IsSpace(s[0]) ==> n > 0
  {
    if |s| == 0 || IsSpace(s[0]) then 0 else 1 + WordLength(s[1..])
  }

  // ---------------------------------------------------------------------------
  // Decimal integers
  // ---------------------------------------------------------------------------

  function DigitChar(d: nat): char
    requires d < 10
  {
    ('0' as int + d) as char
  }

  function DigitValue(c: char): nat
    requires IsDigit(c)
  {
    c as int - '0' as int
  }

  /** `str(n)` for a natural number. */
  function NatToString(n: nat): (r: string)
    ensures |r| > 0 && AllDigits(r)
    ensures |r| == 1 || r[0] != '0'
  {
    if n < 10 then [DigitChar(n)] else NatToString(n / 10) + [DigitChar(n % 10)]
  }

  /** The value of a string of decimal digits. */
  function DigitsValue(s: string): nat
    requires AllDigits(s)
  {
    if |s| == 0 then 0 else DigitsValue(s[..|s| - 1]) * 10 + DigitValue(s[|s| - 1])
  }

  /** Rendering then reading back a number gives the number. */
  lemma {:induction false} DigitsOfNatToString(n: nat)
    ensures DigitsValue(NatToString(n)) == n
  {
    if n >= 10 {
      DigitsOfNatToString(n / 10);
      var s := NatToString(n);
      assert s[..|s| - 1] == NatToString(n / 10);
    }
  }

  lemma {:induction false} LeadingNonZeroIsPositive(s: string)
    requires AllDigits(s) && |s| > 0 && s[0] != '0'
    ensures DigitsValue(s) > 0
  {
    if |s| > 1 {
      LeadingNonZeroIsPositive(s[..|s| - 1]);
    }
  }

  /** A digit string without a leading zero is the rendering of its own value. */
  lemma {:induction false} NatToStringOfDigits(s: string)
    requires AllDigits(s) && |s| > 0
    requires |s| == 1 || s[0] != '0'
    ensures NatToString(DigitsValue(s)) == s
  {
    if |s| > 1 {
      var front := s[..|s| - 1];
      LeadingNonZeroIsPositive(front);
      NatToStringOfDigits(front);
      var n := DigitsValue(s);
      assert n / 10 == DigitsValue(front) && n % 10 == DigitValue(s[|s| - 1]);
      assert front + [s[|s| - 1]] == s;
    }
  }

  /**
    Python's `int(s)` on the inputs this program feeds it: optional surrounding
    whitespace, an optional `+` or `-` sign, then one or more ASCII digits.
   */
  function ParseInt(s: string): (r: Option<int>)
    ensures r.Some? ==> |Strip(s)| > 0
  {
    var t := Strip(s);
    if |t| == 0 then None
    else
      var neg := t[0] == '-';
      var body := if t[0] == '-' || t[0] == '+' then t[1..] else t;
      if |body| == 0 || !AllDigits(body) then None
      else Some(if neg then -(DigitsValue(body) as int) else DigitsValue(body))
  }

  /** `int()` rejects text holding a comma, such as a list of numbers. */
  lemma CommaTextIsNoInt(s: string)
    requires s != "" && !IsSpace(s[0]) && !IsSpace(s[|s| - 1])
    requires ',' in s
    ensures ParseInt(s).None?
  {
    StripUnpadded(s);
    var k :| 0 <= k < |s| && s[k] == ',';
    if s[0] == '-' || s[0] == '+' {
      assert s[1..][k - 1] == ',';
    }
  }

  /** `int(str(n))` is `n`. */
  lemma ParseIntOfNatToString(n: nat)
    ensures ParseInt(NatToString(n)) == Some(n)
  {
    var s := NatToString(n);
    DigitsOfNatToString(n);
    assert IsDigit(s[0]) && IsDigit(s[|s| - 1]);
    StripUnpadded(s);
    assert s[0] != '-' && s[0] != '+';
  }
}

=== FILE: vendor.dfy ===
/**
  Manufacturer lookup from a MAC address (`get_mac_vendor`,
  wol_caster.py:584-644): a scan of the OUI database lines, then a small
  built-in table; and the Apple prefix list used to recognise Apple devices
  (wol_caster.py:4775-4839).

  The OUI database is an input: its lines, or None when the file is absent.
 */
module Vendor {
  import opened Wrappers
  import opened Text

  /** The colon text of the first three groups, upper-cased: `00:50:56` for `00:50:56:C0:00:08`. */
  function MacPrefix(mac: string): string
    requires |Split(mac, ':')| >= 3
  {
    Upper(Join(Split(mac, ':')[..3], ":"))
  }

  /** The same prefix without colons, the form the database is searched with. */
  function DbPrefix(prefix: string): (r: string)
    ensures ':' !in r
  {
    Upper(RemoveChar(prefix, ':'))
  }

  /** The vendor one database line yields: non-blank, holding the prefix anywhere, with a non-blank second tab field. */
  function LineVendor(line: string, prefix: string): (r: Option<string>)
    ensures r.Some? ==> r.value != ""
  {
    var l := Strip(line);
    if l != "" && Contains(l, prefix) then
      var parts := Split(l, '\t');
      if |parts| >= 2 && Strip(parts[1]) != "" then Some(Strip(parts[1])) else None
    else None
  }

  /** What each database line yields for a prefix, in file order. */
  function LineVendors(lines: seq<string>, prefix: string): (r: seq<Option<string>>)
    ensures |r| == |lines| && forall i :: 0 <= i < |lines| ==> r[i] == LineVendor(lines[i], prefix)
  {
    seq(|lines|, i requires 0 <= i < |lines| => LineVendor(lines[i], prefix))
  }

  /** The database scan: the first line that yields a vendor wins. */
  function ScanOui(lines: seq<string>, prefix: string): (r: Option<string>)
    ensures r.Some? ==> r.value != ""
  {
    var hits := LineVendors(lines, prefix);
    FirstSomeIsFirstHit(hits);
    FirstSome(hits)
  }

  /** The scan finds nothing exactly when no line yields a vendor, and otherwise returns the first line's vendor. */
  lemma ScanOuiFirstMatch(lines: seq<string>, prefix: string)
    ensures ScanOui(lines, prefix).None? <==> forall i :: 0 <= i < |lines| ==> LineVendor(lines[i], prefix).None?
    ensures ScanOui(lines, prefix).Some? ==>
      exists k :: FirstHit(LineVendors(lines, prefix), k) && ScanOui(lines, prefix) == LineVendor(lines[k], prefix)
  {
    FirstSomeIsFirstHit(LineVendors(lines, prefix));
  }

  /** The built-in table consulted when the database yields nothing. */
  const CommonVendors: map<string, string> := map[
    "00:50:56" := "VMware",
    "00:0C:29" := "VMware",
    "00:1A:11" := "Google",
    "00:16:3E" := "Xen",
    "52:54:00" := "QEMU",
    "08:00:27" := "VirtualBox",
    "0E:C6:63" := "ASIX ELECTRONICS CORP."]

  /**
    `get_mac_vendor`: None for a missing or empty MAC or one with fewer than
    three colon groups; else the database's first match; else the table entry
    for the colon prefix; else None.
   */
  function MacVendor(mac: Option<string>, oui: Option<seq<string>>): (r: Option<string>)
    ensures !Truthy(mac) ==> r.None?
    ensures Truthy(mac) && |Split(mac.value, ':')| < 3 ==> r.None?
    ensures r.Some? ==> r.value != ""
    ensures r.Some? ==> (
      && Truthy(mac) && |Split(mac.value, ':')| >= 3
      && ((oui.Some? && ScanOui(oui.value, DbPrefix(MacPrefix(mac.value))) == r)
          || (MacPrefix(mac.value) in CommonVendors && CommonVendors[MacPrefix(mac.value)] == r.value)))
    ensures (
      && Truthy(mac) && |Split(mac.value, ':')| >= 3 && oui.Some?
      && ScanOui(oui.value, DbPrefix(MacPrefix(mac.value))).Some?)
      ==> r == ScanOui(oui.value, DbPrefix(MacPrefix(mac.value)))
  {
    if !Truthy(mac) || |Split(mac.value, ':')| < 3 then None
    else
      var prefix := MacPrefix(mac.value);
      var found := if oui.Some? then ScanOui(oui.value, DbPrefix(prefix)) else None;
      if found.Some? then found
      else if prefix in CommonVendors then Some(CommonVendors[prefix]) else None
  }

  /** Without a database hit the table decides, and an address outside the table has no vendor. */
  lemma VendorFromTable(mac: string, oui: Option<seq<string>>)
    requires mac != "" && |Split(mac, ':')| >= 3
    requires oui.None? || ScanOui(oui.value, DbPrefix(MacPrefix(mac))).None?
    ensures MacVendor(Some(mac), oui) ==
      (if MacPrefix(mac) in CommonVendors then Some(CommonVendors[MacPrefix(mac)]) else None)
  {
  }

  /** The prefix of a MAC written as colon groups is its first three groups, upper-cased and joined. */
  lemma {:induction false} PrefixOfGroups(g: seq<string>)
    requires |g| >= 3 && forall i :: 0 <= i < |g| ==> ':' !in g[i]
    ensures |Split(Join(g, ":"), ':')| >= 3
    ensures MacPrefix(Join(g, ":")) == Upper(g[0] + ":" + g[1] + ":" + g[2])
  {
    SplitJoin(g, ':');
    assert g[..3] == [g[0], g[1], g[2]];
    JoinThree(g[0], g[1], g[2], ":");
  }

  /**
    An address whose first octet lost its leading zero yields a five-character
    database prefix: `0:3E:E1:…` is searched as `03EE1`, not `003EE1`.
   */
  lemma ShortOctetPrefix(g: seq<string>)
    requires g == ["0", "3E", "E1", "B7", "57", "54"]
    ensures |Split(Join(g, ":"), ':')| >= 3 && DbPrefix(MacPrefix(Join(g, ":"))) == "03EE1"
  {
    PrefixOfGroups(g);
    var t := g[0] + ":" + g[1] + ":" + g[2];
    assert Upper(t) == t;
    RemoveFromJoin([g[0], g[1], g[2]], ':');
    JoinThree(g[0], g[1], g[2], ":");
    assert Concat([g[0], g[1], g[2]]) == "03EE1" by {
      assert [g[0], g[1], g[2]][1..] == [g[1], g[2]];
      assert [g[1], g[2]][1..] == [g[2]];
      assert Concat([g[2]]) == g[2] + Concat([]);
      assert Concat([g[1], g[2]]) == g[1] + Concat([g[2]]);
    }
    assert Upper("03EE1") == "03EE1";
  }

  /**
    A line of the database's own form `PREFIX<tab>Vendor` is found when no
    earlier line yields a vendor; because the match is a substring test, an
    earlier line that merely contains the prefix anywhere wins instead.
   */
  lemma ExactLineFound(lines: seq<string>, k: nat, prefix: string, vendor: string)
    requires k < |lines|
    requires lines[k] == prefix + "\t" + vendor
    requires prefix != "" && !IsSpace(prefix[0]) && '\t' !in prefix
    requires vendor != "" && !IsSpace(vendor[|vendor| - 1]) && !IsSpace(vendor[0]) && '\t' !in vendor
    requires forall j :: 0 <= j < k ==> LineVendor(lines[j], prefix).None?
    ensures ScanOui(lines, prefix) == Some(vendor)
  {
    var l := lines[k];
    assert forall i :: 0 <= i < |l| ==> (l[i] == '\t' <==> i == |prefix|);
    assert Strip(l) == l by {
      StripUnpadded(l);
    }
    assert StartsWith(l, prefix);
    PrefixIsContained(l, prefix);
    SplitAfterPiece(prefix, '\t', vendor);
    assert l == prefix + ['\t'] + vendor;
    assert Split(vendor, '\t') == [vendor] by {
      SplitJoin([vendor], '\t');
    }
    assert Strip(vendor) == vendor by {
      StripUnpadded(vendor);
    }
    ScanFirstHit(lines, k, prefix);
  }

  /** When line `k` is the first to yield a vendor, the scan returns that vendor. */
  lemma ScanFirstHit(lines: seq<string>, k: nat, prefix: string)
    requires k < |lines| && LineVendor(lines[k], prefix).Some?
    requires forall j :: 0 <= j < k ==> LineVendor(lines[j], prefix).None?
    ensures ScanOui(lines, prefix) == LineVendor(lines[k], prefix)
  {
    FirstSomeAt(LineVendors(lines, prefix), k);
  }

  /** The Apple OUI list exactly as the program holds it, duplicates included. */
  const ApplePrefixes: seq<string> := [
    "00:05:02", "00:0A:27", "00:0A:95", "00:1B:63", "00:1C:B3",
    "00:1D:4F", "00:1E:52", "00:1E:C2", "00:21:E9", "00:23:12",
    "00:23:32", "00:23:76", "00:23:DF", "00:24:E8", "00:25:00",
    "00:26:08", "00:26:B0", "00:26:BB", "00:30:65", "00:50:C2",
    "00:88:65", "00:A0:40", "00:B3:62", "00:C6:10", "00:D0:41",
    "00:E0:81", "00:F4:6D", "08:00:07", "08:66:98", "08:70:45",
    "0C:30:21", "0C:4D:E9", "0C:74:C2", "10:40:F3", "10:9A:DD",
    "10:DD:B1", "18:20:32", "18:34:51", "18:9E:FC", "1C:1A:C0",
    "1C:AB:A7", "1C:E6:2B", "20:3A:EF", "20:7D:74", "20:A6:CD",
    "20:C9:D0", "24:AB:81", "24:E4:3F", "28:37:37", "28:6A:B8",
    "28:CF:DA", "28:FF:3C", "2C:44:FD", "2C:BE:08", "30:10:E4",
    "34:15:9E", "34:51:C9", "34:C0:59", "38:48:4C", "3C:07:54",
    "3C:AB:8E", "3C:E0:72", "40:B0:76", "40:D3:2A", "44:D8:84",
    "48:DB:50", "4C:00:10", "4C:32:75", "4C:57:CA", "4C:8D:79",
    "4C:B1:99", "50:32:37", "50:7A:55", "50:EA:D6", "54:26:96",
    "54:4E:90", "54:72:4F", "58:1F:AA", "58:BD:A3", "58:E6:BA",
    "5C:09:79", "5C:8F:E0", "60:33:4B", "60:69:44", "60:FB:42",
    "64:B9:E8", "68:96:7B", "68:9C:5E", "68:AB:1E", "68:FF:7B",
    "6C:3E:6D", "6C:40:08", "6C:72:20", "6C:8D:C1", "6C:94:F8",
    "70:11:24", "70:56:81", "70:73:CB", "70:CD:60", "70:DE:E2",
    "74:E1:B6", "78:31:C1", "78:4B:87", "78:6C:1C", "78:A1:06",
    "78:CA:39", "7C:04:D0", "7C:6D:62", "7C:C3:A1", "7C:F0:5F",
    "80:00:6E", "80:BE:05", "80:D5:89", "80:EA:96", "84:29:99",
    "84:85:06", "84:B1:53", "88:53:95", "88:63:DF", "88:87:17",
    "88:C2:55", "8C:7B:9D", "8C:FA:22", "90:84:0D", "90:B9:31",
    "90:C1:6E", "94:94:26", "98:01:A7", "98:5A:EB", "98:CA:33",
    "98:D6:BB", "98:FE:94", "9C:04:EB", "9C:35:EB", "9C:84:CD",
    "9C:B6:D0", "A0:ED:CD", "A4:B1:97", "A4:C6:4F", "A8:20:66",
    "A8:66:7F", "A8:BB:CF", "AC:29:3A", "AC:3A:7A", "AC:5D:10",
    "AC:7F:3E", "AC:87:A3", "AC:DE:48", "B0:34:95", "B0:65:BD",
    "B0:9F:BA", "B4:18:82", "B4:2E:99", "B8:09:8A", "B8:44:4F",
    "B8:53:AC", "B8:78:2E", "B8:C7:5D", "B8:F6:B1", "BC:3B:AF",
    "BC:52:B7", "BC:67:78", "BC:9F:35", "C0:63:94", "C0:84:7A",
    "C0:CE:CD", "C4:2C:03", "C4:85:08", "C8:1E:E7", "C8:2A:14",
    "C8:33:4B", "C8:69:CD", "C8:85:50", "C8:BC:C8", "CC:08:E0",
    "CC:20:E8", "CC:29:F5", "CC:78:5F", "CC:C3:EA", "D0:23:DB",
    "D0:50:99", "D0:66:7B", "D0:81:7A", "D0:A6:37", "D0:BB:80",
    "D0:C5:F3", "D0:E4:82", "D4:61:9D", "D4:9A:20", "D4:F4:6F",
    "D8:30:62", "D8:96:95", "D8:A0:11", "D8:BB:2C", "D8:CF:9C",
    "DC:2B:2A", "DC:37:14", "DC:86:D8", "DC:A4:CA", "DC:E1:AD",
    "E0:66:78", "E0:8E:3C", "E0:B9:BA", "E0:C7:67", "E0:F5:C6",
    "E0:F8:47", "E4:25:E7", "E4:98:6F", "E4:CE:8F", "E8:04:0B",
    "E8:06:88", "E8:80:25", "E8:8D:28", "E8:B2:AC", "E8:CC:18",
    "EC:35:86", "EC:85:2F", "EC:FA:BC", "F0:24:75", "F0:71:C9",
    "F0:76:1C", "F0:9F:C2", "F0:B4:79", "F0:C1:F1", "F0:D1:A9",
    "F4:1B:A1", "F4:31:C3", "F4:37:B7", "F4:5C:89", "F4:F1:5A",
    "F4:F5:D8", "F4:F5:E8", "F8:1E:DF", "F8:27:93", "F8:95:EA",
    "F8:FF:C2", "FC:00:12", "FC:25:3F", "FC:42:03", "FC:64:BA",
    "FC:A8:9A", "FC:C1:11", "FC:D8:48", "00:1B:63", "00:1C:B3",
    "00:1D:4F", "00:1E:52", "00:1E:C2", "00:21:E9", "00:23:12",
    "00:23:32", "00:23:76", "00:23:DF", "00:24:E8", "00:25:00",
    "00:26:08", "00:26:B0", "00:26:BB", "00:30:65", "00:50:C2",
    "00:88:65", "00:A0:40", "00:B3:62", "00:C6:10", "00:D0:41",
    "00:E0:81", "00:F4:6D", "08:00:07", "08:66:98", "08:70:45",
    "0C:30:21", "0C:4D:E9", "0C:74:C2", "10:40:F3", "10:9A:DD",
    "10:DD:B1", "18:20:32", "18:34:51", "18:9E:FC", "1C:1A:C0",
    "1C:AB:A7", "1C:E6:2B", "20:3A:EF", "20:7D:74", "20:A6:CD",
    "20:C9:D0", "24:AB:81", "24:E4:3F", "28:37:37", "28:6A:B8",
    "28:CF:DA", "28:FF:3C", "2C:44:FD", "2C:BE:08", "30:10:E4",
    "34:15:9E", "34:51:C9", "34:C0:59", "38:48:4C", "3C:07:54",
    "3C:AB:8E", "3C:E0:72", "40:B0:76", "40:D3:2A", "44:D8:84",
    "48:DB:50", "4C:00:10", "4C:32:75", "4C:57:CA", "4C:8D:79",
    "4C:B1:99", "50:32:37", "50:7A:55", "50:EA:D6", "54:26:96",
    "54:4E:90", "54:72:4F", "58:1F:AA", "58:BD:A3", "58:E6:BA",
    "5C:09:79", "5C:8F:E0", "60:33:4B", "60:69:44", "60:FB:42",
    "64:B9:E8", "68:96:7B", "68:9C:5E", "68:AB:1E", "68:FF:7B",
    "6C:3E:6D", "6C:40:08", "6C:72:20", "6C:8D:C1", "6C:94:F8",
    "70:11:24", "70:56:81", "70:73:CB", "70:CD:60", "70:DE:E2",
    "74:E1:B6", "78:31:C1", "78:4B:87", "78:6C:1C", "78:A1:06",
    "78:CA:39", "7C:04:D0", "7C:6D:62", "7C:C3:A1", "7C:F0:5F",
    "80:00:6E", "80:BE:05", "80:D5:89", "80:EA:96", "84:29:99",
    "84:85:06", "84:B1:53", "88:53:95", "88:63:DF", "88:87:17",
    "88:C2:55", "8C:7B:9D", "8C:FA:22", "90:84:0D", "90:B9:31",
    "90:C1:6E", "94:94:26", "98:01:A7", "98:5A:EB", "98:CA:33",
    "98:D6:BB", "98:FE:94", "9C:04:EB", "9C:35:EB", "9C:84:CD",
    "9C:B6:D0", "A0:ED:CD", "A4:B1:97", "A4:C6:4F", "A8:20:66",
    "A8:66:7F", "A8:BB:CF", "AC:29:3A", "AC:3A:7A", "AC:5D:10",
    "AC:7F:3E", "AC:87:A3", "AC:DE:48", "B0:34:95", "B0:65:BD",
    "B0:9F:BA", "B4:18:82", "B4:2E:99", "B8:09:8A", "B8:44:4F",
    "B8:53:AC", "B8:78:2E", "B8:C7:5D", "B8:F6:B1", "BC:3B:AF",
    "BC:52:B7", "BC:67:78", "BC:9F:35", "C0:63:94", "C0:84:7A",
    "C0:CE:CD", "C4:2C:03", "C4:85:08", "C8:1E:E7", "C8:2A:14",
    "C8:33:4B", "C8:69:CD", "C8:85:50", "C8:BC:C8", "CC:08:E0",
    "CC:20:E8", "CC:29:F5", "CC:78:5F", "CC:C3:EA", "D0:23:DB",
    "D0:50:99", "D0:66:7B", "D0:81:7A", "D0:A6:37", "D0:BB:80",
    "D0:C5:F3", "D0:E4:82", "D4:61:9D", "D4:9A:20", "D4:F4:6F",
    "D8:30:62", "D8:96:95", "D8:A0:11", "D8:BB:2C", "D8:CF:9C",
    "DC:2B:2A", "DC:37:14", "DC:86:D8", "DC:A4:CA", "DC:E1:AD",
    "E0:66:78", "E0:8E:3C", "E0:B9:BA", "E0:C7:67", "E0:F5:C6",
    "E0:F8:47", "E4:25:E7", "E4:98:6F", "E4:CE:8F", "E8:04:0B",
    "E8:06:88", "E8:80:25", "E8:8D:28", "E8:B2:AC", "E8:CC:18",
    "EC:35:86", "EC:85:2F", "EC:FA:BC", "F0:24:75", "F0:71:C9",
    "F0:76:1C", "F0:9F:C2", "F0:B4:79", "F0:C1:F1", "F0:D1:A9",
    "F4:1B:A1", "F4:31:C3", "F4:37:B7", "F4:5C:89", "F4:F1:5A",
    "F4:F5:D8", "F4:F5:E8", "F8:1E:DF", "F8:27:93", "F8:95:EA",
    "F8:FF:C2", "FC:00:12", "FC:25:3F", "FC:42:03", "FC:64:BA",
    "FC:A8:9A", "FC:C1:11", "FC:D8:48"]
}

=== FILE: wrappers.dfy ===
/** The optional-value type used throughout the model in place of Python's `None`. */
module Wrappers {

  datatype Option<+T> = None | Some(value: T) {

    /** Returns the wrapped value, or `default` when there is none. */
    function GetOr(default: T): T {
      match this
      case Some(v) => v
      case None => default
    }
  }

  /** Python truthiness of an optional string: present and non-empty. */
  predicate Truthy(o: Option<string>) {
    o.Some? && o.value != ""
  }

  /** The first present value of a sequence of optional values. */
  function FirstSome<T>(xs: seq<Option<T>>): Option<T> {
    if |xs| == 0 then None else if xs[0].Some? then xs[0] else FirstSome(xs[1..])
  }

  /** Position `k` holds the first present value. */
  predicate FirstHit<T>(xs: seq<Option<T>>, k: int) {
    0 <= k < |xs| && xs[k].Some? && forall j :: 0 <= j < k ==> xs[j].None?
  }

  /** `FirstSome` is None exactly when every value is absent, and otherwise the first present one. */
  lemma {:induction false} FirstSomeIsFirstHit<T>(xs: seq<Option<T>>)
    ensures FirstSome(xs).None? <==> forall i :: 0 <= i < |xs| ==> xs[i].None?
    ensures FirstSome(xs).Some? ==> exists k :: FirstHit(xs, k) && FirstSome(xs) == xs[k]
  {
    if |xs| > 0 {
      FirstSomeIsFirstHit(xs[1..]);
      assert forall i :: 1 <= i < |xs| ==> xs[i] == xs[1..][i - 1];
      if xs[0].Some? {
        assert FirstHit(xs, 0);
      } else if FirstSome(xs[1..]).Some? {
        var k :| FirstHit(xs[1..], k) && FirstSome(xs[1..]) == xs[1..][k];
        assert FirstHit(xs, k + 1);
      }
    }
  }

  /** When position `k` is the first present value, `FirstSome` returns it. */
  lemma {:induction false} FirstSomeAt<T>(xs: seq<Option<T>>, k: nat)
    requires FirstHit(xs, k)
    ensures FirstSome(xs) == xs[k]
  {
    if k > 0 {
      assert FirstHit(xs[1..], k - 1);
      FirstSomeAt(xs[1..], k - 1);
    }
  }
}
